=== FILE: README.md ===
# AI-Dala content platform: a Dafny model of its core

This project models the core of the AI-Dala content platform. On the Go API side that means:

- the articles module: slug generation and the uniqueness probe, status rules, the filter query builder, tag and like associations, the preview generator, and the list, search, create and update handlers;
- the mock news/articles content listing of the HTTP server;
- the image upload handler;
- the tags module (repository, service and handler);
- the categories module (repository, service and handler).

On the web side it covers:

- the category tree builder;
- the optimistic like/dislike control;
- the language switcher's path rewriting;
- the news page's fallback data layer.

Database tables are sequences of immutable rows. A flag or a set of failing keys stands for a database that cannot be reached or a lookup that errors. HTTP handlers become functions from the request's parsed parts to a `Response` (a status plus a body). The clock, generated ids, the file system, the upstream fetch and the ISO date formatter are parameters.

Modules, one per component:

| file | module | component |
|---|---|---|
| wrappers.dfy | Wrappers | `Option`, `Result` |
| text.dfy | Text | ASCII lower-casing, `strconv.Atoi`/`Itoa`, int64 wrap-around, `strings.Split`/`Join`/`Trim*` |
| rows.dfy | Rows | first match, filter, count, LIMIT/OFFSET window over a table |
| sorting.dfy | Sorting | stable sort by a descending integer key (`sort.SliceStable`, `ORDER BY … DESC`) |
| collation.dfy | Collation | byte-wise string order and the stable ascending sort by it |
| http.dfy | Http | responses and the query-parameter defaulting rules |
| uuid.dfy | Uuid | the text form of PostgreSQL's `uuid` type |
| slug.dfy | Slug | `generateSlug` and the probe's candidate slugs |
| article_store.dfy | ArticleStore | the articles repository |
| article_query.dfy | ArticleQuery | the `FindAll`/`Count` query builder and the count queries |
| preview.dfy | Preview | `generatePreview` |
| article_service.dfy | ArticleService | the articles service |
| article_handler.dfy | ArticleHandler | the articles HTTP handlers |
| content.dfy | Content | `http/server/content.go` |
| uploads.dfy | Uploads | `uploads/handler.go` |
| tags.dfy | Tags | the tags repository, service and handler |
| categories.dfy | Categories | the categories repository, service and handler |
| category_tree.dfy | CategoryTree | `CategoryTree.tsx`'s tree builder |
| like_control.dfy | LikeControl | `LikeControl.tsx`'s click handler |
| language_switcher.dfy | LanguageSwitcher | `LanguageSwitcher.tsx` |
| news_services.dfy | NewsServices | `web/src/app/news/services.ts` |

Where the repository's documentation and its code disagree, the model follows the code:

- The article service's `Update` accepts an empty status, but the `articles` table's CHECK constraint admits only DRAFT, PUBLISHED and ARCHIVED. So an update without a status fails at the database, and `handleUpdate` answers 500.
- `handleUpdate` always clears `published_at`, because the article it builds has none.
- `handleCreateTest` creates a DRAFT, as `handleCreate` does.
- A tag `UpdateTag` on a missing code answers 200 with a `null` body. A tag `DeleteTag` on a missing code answers 500, not 404.
- Updating a missing or soft-deleted category is `sql.ErrNoRows`, which the handler answers with 500.
- The content listings answer a page below 1, or a page size outside [1, 50], with 200 and no error: the parser returns page 0, size 0 and no category, so the reply lists no items, reports every item as the total, and echoes page 0 and page size 0. A page or size that is not a number is a 400.

## Model

| member | source | states |
|---|---|---|
| Text.Atoi | api/internal/modules/articles/handler.go:52-58 | a parsed value lies within int64 and comes from non-empty text |
| Text.AtoiRoundTrip | api/internal/modules/articles/handler.go:52-58 | every int64 printed in decimal parses back to itself |
| Text.Wrap64 | api/internal/modules/articles/handler.go:67 | Go's int64 arithmetic wraps modulo 2^64 into [MinInt64, MaxInt64] and is the identity inside that range |
| Text.SplitJoinRoundTrip | api/internal/modules/articles/service.go:286-293 | joining the pieces of `strings.Split` with the separator gives the text back |
| Text.JoinSplitRoundTrip | api/internal/modules/articles/service.go:286-293 | splitting a join of separator-free pieces gives the pieces back |
| Http.PositiveOrReadsBack | api/internal/modules/articles/handler.go:52-66 | a positive number written in the query is the value the handler uses; otherwise the default is used |
| Http.BoundedOrReadsBack | api/internal/modules/articles/handler.go:549-555 | a search limit within [1, 50] written in the query is used as given |
| Http.NonNegativeOrReadsBack | api/internal/modules/tags/handler.go:33-37 | a non-negative offset written in the query is used as given |
| Sorting.SortPermutes | api/internal/http/server/content.go:287-298 | the stable descending sort returns a permutation of its input |
| Sorting.SortSorted | api/internal/http/server/content.go:287-298 | the result is non-increasing by the key |
| Sorting.SortStable | api/internal/http/server/content.go:287-298 | items with equal keys keep their input order |
| Sorting.SortOfSorted | api/internal/http/server/content.go:287-298 | an already sorted list is its own sort |
| Sorting.InsertionSort | api/internal/http/server/content.go:287-298 | the nested swap loop computes the stable descending sort |
| Collation.SortAscSorted | api/internal/modules/tags/repository.go:27-45 | `ORDER BY code ASC` yields a list that is non-decreasing in byte-wise order |
| Collation.LeTotal | api/internal/modules/tags/repository.go:27-45 | any two codes are comparable |
| Collation.LeAntisymmetric | api/internal/modules/tags/repository.go:27-45 | two codes that each sort no later than the other are equal |
| Slug.GenerateSlugShape | api/internal/modules/articles/service.go:248-256 | a generated slug uses only `[a-z0-9-]` and has no leading, trailing or doubled hyphen |
| Slug.GenerateSlugKeepsAlnum | api/internal/modules/articles/service.go:248-256 | the letters and digits of the lower-cased title survive in order |
| Slug.GenerateSlugEmptyIff | api/internal/modules/articles/service.go:248-256 | the slug is empty exactly when the title has no ASCII letter or digit |
| Slug.GenerateSlugIdempotent | api/internal/modules/articles/service.go:248-256 | generating a slug from a slug changes nothing |
| Slug.GenerateSlugIgnoresCase | api/internal/modules/articles/service.go:249 | letter case does not affect the slug |
| Slug.TwoWordSlug | api/internal/modules/articles/service.go:248-256 | two lower-case words separated by a space become `word-word` |
| Slug.Collapse | api/internal/modules/articles/service.go:251-252 | each maximal run of characters outside `[a-z0-9]` becomes one hyphen, and no letter or digit is lost |
| Slug.TrimHyphensSlice | api/internal/modules/articles/service.go:254 | `strings.Trim(s, "-")` leaves the slice of s between the leading and trailing hyphen runs, and that slice neither starts nor ends with a hyphen |
| Slug.CandidateOneTwo | api/internal/modules/articles/service.go:41 | after the base slug the probe tries `base-1`, then `base-2` |
| Slug.CandidateInjective | api/internal/modules/articles/service.go:28-42 | different probe positions never give the same candidate |
| ArticleStore.FindByID | api/internal/modules/articles/repository.go:76-88 | the live row with that id; a missing or soft-deleted row is `nil` without error; a failing query is an error |
| ArticleStore.FindBySlug | api/internal/modules/articles/repository.go:91-103 | a live row holding that slug, or `nil` exactly when no live row holds it |
| ArticleStore.Insert | api/internal/modules/articles/repository.go:57-73 | the INSERT appends one row carrying the given id and timestamps; it fails on a status the table's CHECK constraint refuses and on an id already in the table |
| ArticleStore.Update | api/internal/modules/articles/repository.go:156-173 | rewrites only the live row with that id; no such row is `sql.ErrNoRows`, and a status outside DRAFT, PUBLISHED and ARCHIVED fails the CHECK constraint |
| ArticleStore.UpdateReadBack | api/internal/modules/articles/repository.go:156-173 | reading the row back gives the written columns on top of the old id and creation time |
| ArticleStore.Delete | api/internal/modules/articles/repository.go:176-190 | sets `deleted_at` on the live row only; a missing or already deleted row is `sql.ErrNoRows` |
| ArticleStore.DeleteHides | api/internal/modules/articles/repository.go:176-190 | after a delete the id is not found, and deleting again fails |
| ArticleStore.Accepted | api/internal/modules/articles/repository.go:193-206 | the tag ids whose inserts go through: the longest prefix of the list whose ids all name an article row and a tag, stopping at the first that does not |
| ArticleStore.AddTags | api/internal/modules/articles/repository.go:193-206 | the inserts run in list order and stop at the first one the `article_tags` foreign keys reject, with that error; the table then holds the old pairs plus those before it, and only the association table changes |
| ArticleStore.AddTagsNoDuplicates | api/internal/modules/articles/repository.go:193-206 | `ON CONFLICT DO NOTHING` never adds a pair twice |
| ArticleStore.AddTagsIdempotent | api/internal/modules/articles/repository.go:193-206 | adding the same tags twice is adding them once |
| ArticleStore.RemoveTags | api/internal/modules/articles/repository.go:209-217 | deletes exactly this article's pairs whose tag id is listed |
| ArticleStore.GetTags | api/internal/modules/articles/repository.go:220-240 | the codes of the tags joined to the article |
| ArticleStore.AddLike | api/internal/modules/articles/repository.go:279-288 | the upsert sets this user's reaction and leaves every other one |
| ArticleStore.AddLikeLastWins | api/internal/modules/articles/repository.go:279-288 | of two reactions by one user only the second remains |
| ArticleStore.RemoveLike | api/internal/modules/articles/repository.go:291-295 | removes this user's reaction only |
| ArticleStore.UserLike | api/internal/modules/articles/repository.go:316-327 | the user's reaction, or none exactly when there is no row |
| ArticleStore.AddLikeCounts | api/internal/modules/articles/repository.go:279-313 | a first reaction adds one to its counter, a switch moves one between the counters, a repeat changes nothing |
| ArticleStore.AddComment | api/internal/modules/articles/repository.go:251-263 | appends the comment row and touches nothing else; under an article id whose queries fail, the insert's error is returned and nothing is written |
| ArticleStore.GetComments | api/internal/modules/articles/repository.go:266-276 | the article's comments, newest first |
| ArticleQuery.Where | api/internal/modules/articles/repository.go:111-140 | the clauses number their placeholders `$1..$k`, one argument each, at most four of them |
| ArticleQuery.WhereShape | api/internal/modules/articles/repository.go:111-140 | one clause per set filter, each bound to that filter's value, in the fixed order status, category, author, tags |
| ArticleQuery.FindAllQuery | api/internal/modules/articles/repository.go:106-153 | the WHERE chain is `Count`'s; LIMIT and OFFSET bind the last two placeholders; the order column follows `sort_by`; tags add the join |
| ArticleQuery.WhereMeansMatches | api/internal/modules/articles/repository.go:111-140 | the clause chain holds for a row exactly when the row meets the filter options |
| ArticleQuery.FindAll | api/internal/modules/articles/repository.go:106-153 | fails exactly when a category or author filter is set and is not a uuid (both columns are `uuid`), or LIMIT or OFFSET is negative; otherwise returns at most LIMIT rows |
| ArticleQuery.UuidArgsReadMeans | api/internal/modules/articles/repository.go:124-133 | the arguments bound to `a.category_id` and `a.author_id` all read as uuids exactly when each of those filters is unset or a uuid |
| ArticleQuery.FindAllMatches | api/internal/modules/articles/repository.go:106-153 | every row returned is a live row meeting the filter options |
| ArticleQuery.Count | api/internal/modules/articles/repository.go:330-366 | the number of distinct live rows meeting the filter options |
| ArticleQuery.FindAllIsWindow | api/internal/modules/articles/repository.go:106-153 | every `FindAll` page is the LIMIT/OFFSET window of one unpaged result |
| ArticleQuery.CountIsUnpagedSize | api/internal/modules/articles/repository.go:330-366 | `Count` is the size of `FindAll`'s result without LIMIT and OFFSET |
| ArticleQuery.CountDistinct | api/internal/modules/articles/repository.go:330-366 | with unique article ids, the count is the number of distinct ids among the matching rows, so a row matching several tags counts once |
| ArticleQuery.CountTwoTagsOnce | api/internal/modules/articles/repository.go:330-366 | one article carrying both listed tag codes counts 1 |
| ArticleQuery.Ordered | api/internal/modules/articles/repository.go:143-147 | a permutation ordered by `created_at DESC`, or by `published_at DESC`: rows without a `published_at` first, then the dated rows from latest to earliest |
| ArticleQuery.PublishedSortOrder | api/internal/modules/articles/repository.go:143-147 | sorting the time-ordered rows by the NULLs-first key keeps the dated rows latest first |
| ArticleQuery.WindowPublishedOrder | api/internal/modules/articles/repository.go:143-147 | a LIMIT/OFFSET page of a `published_at DESC` result is itself in that order |
| ArticleQuery.CategoryCountAsWrittenIsZero | api/internal/modules/articles/repository.go:369-380 | as written, the category counts are zero over rows the service writes |
| ArticleQuery.CategoryCount | api/internal/modules/articles/repository.go:369-380 | corrected: the number of live PUBLISHED articles in the category |
| ArticleQuery.CategoryCountWitness | api/internal/modules/articles/repository.go:369-380 | one live PUBLISHED article in a category: as written 0, corrected 1 |
| ArticleQuery.TagCountAsWrittenIsZero | api/internal/modules/articles/repository.go:383-406 | as written, the tag counts are zero over rows the service writes |
| ArticleQuery.TagCount | api/internal/modules/articles/repository.go:383-406 | corrected: the number of live PUBLISHED articles carrying the tag |
| Preview.StripKeepsContent | api/internal/modules/articles/service.go:261-262 | the header pass removes only `#` and white space |
| Preview.HeadingLine | api/internal/modules/articles/service.go:261-262 | a line of one to six `#`, a space and a heading text loses the marker and the space, and the text stays |
| Preview.SevenHashesStay | api/internal/modules/articles/service.go:261-262 | a line starting with seven `#` is not a heading and stays whole |
| Preview.RemoveEmphasis | api/internal/modules/articles/service.go:281-282 | every `*` and `_` goes and every other character stays |
| Preview.RemoveEmphasisIdempotent | api/internal/modules/articles/service.go:281-282 | removing emphasis twice is removing it once |
| Preview.CutLines | api/internal/modules/articles/service.go:286-294 | text of at most ten lines is kept; longer text becomes a prefix of it followed by `...`, with fewer than ten newlines |
| Preview.CutLength | api/internal/modules/articles/service.go:297-299 | at most 300 characters plus `...`, appended exactly when cut, and the kept text is a prefix |
| Preview.GeneratePreview | api/internal/modules/articles/service.go:259-302 | no emphasis mark, at most ten lines, at most 303 characters, `...` at the end when lines were cut, and short plain text unchanged |
| ArticleService.Probe | api/internal/modules/articles/service.go:32-42 | the probe stops at the first candidate that is free or whose lookup fails, having passed only blocked ones |
| ArticleService.ProbeUnique | api/internal/modules/articles/service.go:32-42 | any position preceded only by blocked candidates and itself free is where the probe stops |
| ArticleService.CreateProbeFree | api/internal/modules/articles/service.go:27-43 | no live row holds the slug a create settles on |
| ArticleService.ChooseSlug | api/internal/modules/articles/service.go:27-43 | the slug written is the probed candidate; a failing lookup aborts |
| ArticleService.Create | api/internal/modules/articles/service.go:20-51 | an empty status becomes DRAFT; a status outside DRAFT, PUBLISHED and ARCHIVED is rejected without insert; a given slug is kept; a generated one is unheld |
| ArticleService.CreateKeepsSlugsUnique | api/internal/modules/articles/service.go:20-51 | creating with a generated slug keeps the live slugs unique |
| ArticleService.DuplicateCreates | api/internal/modules/articles/service.go:27-43 | saving one title again and again takes the next candidates in probe order |
| ArticleService.ThreeDuplicateCreates | api/internal/modules/articles/service_integration_test.go:20-55 | three saves of one title get `base`, `base-1` and `base-2` |
| ArticleService.Update | api/internal/modules/articles/service.go:88-115 | a non-empty invalid status fails before probing; an empty slug with a title is probed, accepting the article's own slug; otherwise the store update runs as given; success needs one of the three statuses the table admits |
| ArticleService.UpdateOwnSlug | api/internal/modules/articles/service_integration_test.go:88-107 | re-saving under the same title keeps the article's own slug, and succeeds exactly when the status is one the table admits |
| ArticleService.Publish | api/internal/modules/articles/service.go:118-132 | a missing article is not found, a failing lookup is an error, and an article is published exactly when it is live and its lookup succeeds |
| ArticleService.PublishReadBack | api/internal/modules/articles/service.go:118-132 | after publishing, the article reads back PUBLISHED with `published_at` set to now |
| ArticleService.List | api/internal/modules/articles/service.go:64-85 | fails exactly for a negative limit or offset or an id filter that is not a uuid; otherwise the page and the total come from one set of filter options |
| ArticleService.PublicArticles | api/internal/modules/articles/service.go:155-181 | fails exactly for a negative limit or offset or a category that is not a uuid; otherwise the LIMIT/OFFSET page of the PUBLISHED matches, undated rows first and then latest first, each body replaced by its preview, with the total of all matches |
| ArticleService.PublicRows | api/internal/modules/articles/service.go:155-181 | the public query's rows are PUBLISHED, are the window of the unpaged result, and come in `published_at DESC` order |
| ArticleService.Search | api/internal/modules/articles/service.go:238-245 | a query shorter than two UTF-8 bytes fails before the search runs |
| ArticleService.SearchByteLength | api/internal/modules/articles/service.go:238-245 | one Cyrillic letter is long enough, one Latin letter is not |
| ArticleService.AddComment | api/internal/modules/articles/service.go:194-205 | an empty body fails without touching the store; otherwise the insert's error is passed on, or exactly one comment is appended |
| ArticleService.CommentListed | api/internal/modules/articles/repository.go:251-276 | a stored comment appears once more in its article's comment list, and no other article's list changes |
| ArticleHandler.Offset | api/internal/modules/articles/handler.go:67 | corrected: the offset is `(page - 1) * limit`, saturating at MaxInt64 |
| ArticleHandler.OffsetAgrees | api/internal/modules/articles/handler.go:67 | where the product fits in int64, the written and corrected offsets agree |
| ArticleHandler.OffsetAsWrittenNegative | api/internal/modules/articles/handler.go:67 | page 2^62+1 with limit 2 wraps to a negative offset |
| ArticleHandler.HandleList | api/internal/modules/articles/handler.go:47-104 | corrected: a category or author filter that is not a uuid is 500; otherwise limit defaults to 20 and page to 1, and the page is the service's LIMIT/OFFSET window of all matches, each with its tag codes, and the total counts all matches |
| ArticleHandler.HandleListAsWritten | api/internal/modules/articles/handler.go:47-104 | the written handler fails with 500 exactly when its wrapped offset is negative or an id filter is not a uuid |
| ArticleHandler.OverflowQuery | api/internal/modules/articles/handler.go:52-67 | the query text `page=4611686018427387905&limit=2` parses to those numbers, and their offset wraps to MinInt64 |
| ArticleHandler.ListOverflowFails | api/internal/modules/articles/handler.go:60-72 | a page whose offset wraps makes the written handler answer 500, while the corrected one answers exactly when the id filters are unset or uuids |
| ArticleHandler.HandlePublicList | api/internal/modules/articles/handler.go:107-161 | corrected: a category filter that is not a uuid is 500; otherwise limit defaults to 10, and the page is the window of the PUBLISHED matches in `published_at DESC` order, each with its preview and tag codes; the total counts every published match |
| ArticleHandler.HandlePublicListAsWritten | api/internal/modules/articles/handler.go:107-161 | the written handler fails with 500 exactly when its wrapped offset is negative or the category filter is not a uuid |
| ArticleHandler.PublicListOverflowFails | api/internal/modules/articles/handler.go:116-132 | a page whose offset wraps makes the written public list answer 500, while the corrected one answers exactly when the category filter is unset or a uuid |
| ArticleHandler.HandleSearch | api/internal/modules/articles/handler.go:539-582 | corrected: an empty `q` is 400; a too-short one is 500; otherwise the limit lies in [1, 50], the query is echoed, and the reply succeeds exactly when the search at the saturating offset does |
| ArticleHandler.SearchWith | api/internal/modules/articles/handler.go:539-582 | for a given offset: 400 for an empty `q`, 500 for a short one, otherwise success exactly when the search succeeds |
| ArticleHandler.HandleSearchAsWritten | api/internal/modules/articles/handler.go:539-582 | as written: the same 400 and 500 guards, the limit in [1, 50] and the echoed query, and the search runs at the wrapped offset |
| ArticleHandler.SearchOverflowFails | api/internal/modules/articles/handler.go:557-568 | with a search that rejects a negative OFFSET, the wrapping page makes the written handler fail while the corrected one answers |
| ArticleHandler.CreateWithTags | api/internal/modules/articles/handler.go:249-260 | the create and its tags succeed exactly when the service accepts the row and every tag id names a tag; the new row then carries exactly the listed tags |
| ArticleHandler.CreatedInsertable | api/internal/modules/articles/handler.go:255-259 | after a create every listed tag id is accepted exactly when it names a tag |
| ArticleHandler.HandleCreate | api/internal/modules/articles/handler.go:222-276 | 400 when the body does not decode; then 401 without a user; 500 when the create fails or a tag id names no tag; otherwise 201 with a DRAFT by that user under a fresh slug, and exactly the listed tags added |
| ArticleHandler.HandleCreateTest | api/internal/modules/articles/handler.go:585-642 | 400 when the body does not decode; otherwise 201 exactly when the create under `test-user-id` is accepted, every tag id names a tag and the id's lookup works, else 500; the stored row is then PUBLISHED while the reply shows the DRAFT |
| ArticleHandler.CreatedReadsBack | api/internal/modules/articles/handler.go:622-626 | the new row is live, and a lookup of its id finds it |
| ArticleHandler.ReplaceTagsAsWritten | api/internal/modules/articles/handler.go:309-320 | as written, only the association table changes, and the inserts fail exactly when a listed id names no tag |
| ArticleHandler.ReplaceTagsAsWrittenKeepsOld | api/internal/modules/articles/handler.go:309-313 | as written, an association whose tag id is not one of the tag codes survives the replacement |
| ArticleHandler.ReplaceTags | api/internal/modules/articles/handler.go:309-320 | corrected: the article's old tags go; the inserts fail exactly when a listed id names no tag, leaving the ids before it; on success the tags are exactly the listed ones; other articles' tags are untouched |
| ArticleHandler.HandleUpdate | api/internal/modules/articles/handler.go:279-343 | corrected: 400 when the body does not decode; otherwise 200 exactly when the service update succeeds, the id's lookup works and every listed tag id names a tag, else 500, and a status outside the three the table admits (the empty one included) is 500; with `tag_ids` the tags become exactly the listed ones; without it they stay |
| ArticleHandler.UpdatedReadsBack | api/internal/modules/articles/handler.go:279-343 | after the update the row reads back with the request's fields and no `published_at` |
| Content.ParseQuery | api/internal/http/server/content.go:219-234 | defaults page 1 and size 10; a non-number is an error; a page below 1 or a size outside [1, 50] gives the rejected query: page 0, size 0 and no category |
| Content.ParseQueryReadsBack | api/internal/http/server/content.go:219-234 | every valid page and size reads back from its decimal text |
| Content.ParseQueryLowPage | api/internal/http/server/content.go:225-227 | a numeric page below 1 is rejected without an error |
| Content.FilterItems | api/internal/http/server/content.go:236-285 | an empty category keeps the list; otherwise exactly the items with that tag, in order |
| Content.FilterMultiplicity | api/internal/http/server/content.go:271-285 | the filtered list holds each tagged item exactly as often as the input does, and no untagged item |
| Content.UnparseableIsZero | api/internal/http/server/content.go:265-269 | an unparseable timestamp compares as Go's zero time |
| Content.SortItems | api/internal/http/server/content.go:252-298 | the sort of a copy: a permutation, non-increasing by publish time, stable for equal times |
| Content.WindowSpan | api/internal/http/server/content.go:61-153 | corrected: the page starts at `(page - 1) * size`, clamped to the list, and holds at most `size` items |
| Content.PagesAdjacent | api/internal/http/server/content.go:61-68 | each page starts where the previous one ended |
| Content.WindowAgrees | api/internal/http/server/content.go:61-68 | while the start offset fits in int64, the written window is the corrected one |
| Content.WindowAsWrittenPanics | api/internal/http/server/content.go:61-71 | page 2^62 with size 4 passes the parser, and its start wraps negative, so the slice panics |
| Content.WindowAsWrittenWrongPage | api/internal/http/server/content.go:61-71 | page 2^62+2 with size 4 passes the parser, and its start wraps to 4, so 20 items give the items of page 2 where the far page should be empty |
| Content.ListPage | api/internal/http/server/content.go:49-163 | corrected: the total is the filtered count; the items are the window's slice of the filtered list sorted newest first, so sorted and matching |
| Content.PagesTile | api/internal/http/server/content.go:49-78 | pages 1 to n laid end to end are the start of the sorted list: no item is skipped or repeated |
| Content.PagesCover | api/internal/http/server/content.go:49-78 | once n pages of the given size reach past the total, they are the whole sorted list |
| Content.ListHandler | api/internal/http/server/content.go:49-163 | corrected: 400 exactly when the query does not parse; otherwise 200 with the page |
| Content.RejectedListsNothing | api/internal/http/server/content.go:219-234 | a rejected query lists nothing yet reports every item |
| Content.SegmentOfSlug | api/internal/http/server/content.go:80-94 | the detail path names the slug, with or without more path after it |
| Content.Detail | api/internal/http/server/content.go:80-217 | 404 exactly when the slug segment is empty or no item has it; otherwise the first item with that slug |
| Content.DetailFinds | api/internal/http/server/content.go:80-94 | every item with a non-empty, slash-free slug is reachable |
| Content.SeedNews | api/internal/http/server/content.go:300-379 | the seed has a fixed number of items, tagged with the four categories in turn |
| Content.SeedAlreadySorted | api/internal/http/server/content.go:300-379 | the seed is generated newest first, so sorting leaves it unchanged |
| Content.SeedPages | api/internal/http/server/content.go:49-78 | the default news page shows ten items; page 2 of size 5 shows five |
| Uploads.Ext | api/internal/modules/uploads/handler.go:136 | `filepath.Ext`: the suffix from the last dot of the last path element, or empty |
| Uploads.ValidWithAnyStem | api/internal/modules/uploads/handler.go:135-138 | an allowed extension in any letter case validates the name |
| Uploads.NoDotInvalid | api/internal/modules/uploads/handler.go:135-138 | a name without a dot is never valid |
| Uploads.GoLowerChar | api/internal/modules/uploads/handler.go:135-138 | `unicode.ToLower` on the runes that matter against ASCII text: capitals, U+0130 to `i`, U+212A to `k`, all else unchanged |
| Uploads.GoLower | api/internal/modules/uploads/handler.go:135-138 | `strings.ToLower` lower-cases rune by rune and keeps the length |
| Uploads.ValidityAgrees | api/internal/modules/uploads/handler.go:135-138 | the ASCII check implies the written one, and the two agree on every extension without U+0130 or U+212A |
| Uploads.DottedCapitalILosesExt | api/internal/modules/uploads/handler.go:135-152 | `a.gİf` passes the written check but is stored as `<unix>_a.g_f`, which no check accepts |
| Uploads.Sanitize | api/internal/modules/uploads/handler.go:141-152 | each character is kept if in `[A-Za-z0-9._-]`, otherwise it becomes `_` |
| Uploads.SanitizedHasNoSeparator | api/internal/modules/uploads/handler.go:141-152 | no path separator survives sanitising |
| Uploads.SanitizeIdempotent | api/internal/modules/uploads/handler.go:141-152 | sanitising twice is sanitising once |
| Uploads.StoredNameKeepsExt | api/internal/modules/uploads/handler.go:90-152 | corrected: the stored copy of a valid image keeps its extension, so it stays valid |
| Uploads.ImageUrl | api/internal/modules/uploads/handler.go:107-113 | the scheme is https exactly under TLS |
| Uploads.UrlEndsWithName | api/internal/modules/uploads/handler.go:107-113 | the stored name is the URL's last segment |
| Uploads.SaveImage | api/internal/modules/uploads/handler.go:62-114 | corrected: the type check comes before any file step; no file is created unless the content sniffs as an image; success returns the URL |
| Uploads.Collect | api/internal/modules/uploads/handler.go:47-55 | the save loop returns all URLs in order, or the first error |
| Uploads.HandleUpload | api/internal/modules/uploads/handler.go:33-59 | corrected: 400 for an unparseable form or no files; otherwise 200 with every URL, or 400 on the first failing file |
| Uploads.BadExtensionFails | api/internal/modules/uploads/handler.go:33-59 | one bad extension anywhere fails the whole request |
| Tags.FindAll | api/internal/modules/tags/repository.go:27-45 | every tag, ordered by code |
| Tags.FindByCode | api/internal/modules/tags/repository.go:106-118 | the tag with that code, or `nil` exactly when none has it |
| Tags.Create | api/internal/modules/tags/repository.go:120-135 | fails exactly on an unreachable database or a code or id already held; the new tag is then found by its code |
| Tags.Update | api/internal/modules/tags/repository.go:137-155 | a missing code gives `nil`; a taken new code fails; otherwise the row keeps its id, takes the new code and name, and the old code is gone |
| Tags.Delete | api/internal/modules/tags/repository.go:157-174 | a missing code is `sql.ErrNoRows`; otherwise the code is no longer found |
| Tags.Contains | api/internal/modules/tags/repository.go:62-66 | substring search: true exactly when the needle occurs in the text |
| Tags.EmptySearchMatchesAll | api/internal/modules/tags/repository.go:62-66 | the empty search matches every tag |
| Tags.PlanOf | api/internal/modules/tags/repository.go:47-104 | the placeholders are numbered in order; search, limit and offset are bound to theirs; the count query gets the search only |
| Tags.RunPlanOf | api/internal/modules/tags/repository.go:47-104 | running the built query is filtering, sorting by code, then cutting the window, with the unpaged total |
| Tags.FindAllWithPagination | api/internal/modules/tags/repository.go:47-104 | the page is the window of the sorted matches; every item matches; the total counts all matches |
| Tags.UnpagedIsFindAll | api/internal/modules/tags/repository.go:27-104 | without a limit, offset or search the paged listing is `FindAll` |
| Tags.ClampLimit | api/internal/modules/tags/service.go:34-39 | the limit is clamped into [1, 100]: 0 or less becomes 20, above 100 becomes 100 |
| Tags.ListTagsWithPagination | api/internal/modules/tags/service.go:32-55 | corrected: the listing echoes the offset and the clamped limit, and `has_more` holds exactly when items remain past this page |
| Tags.HasMoreAsWrittenWraps | api/internal/modules/tags/service.go:46 | as written, offset MaxInt64 returns no tags but reports `has_more` |
| Tags.ListTags | api/internal/modules/tags/handler.go:18-59 | corrected: the paged form is chosen exactly when a limit, offset or search is given; it is the repository's page of the sorted matches with their total, and `has_more` holds exactly when rows remain past the page; otherwise the plain list |
| Tags.ListTagsReadsParameters | api/internal/modules/tags/handler.go:18-59 | a valid limit and offset written in the query are the ones used |
| Tags.GetTagByCode | api/internal/modules/tags/handler.go:61-87 | 400 without a code, 500 on a failing lookup, 404 when missing, otherwise 200 with the tag |
| Tags.PathNamesCode | api/internal/modules/tags/handler.go:63-70 | without a routed value the code is the last path segment |
| Tags.CreateTag | api/internal/modules/tags/handler.go:89-114 | 400 for a bad body or an empty code, with nothing written; 500 when the insert fails; otherwise 201 |
| Tags.DuplicateCreateFails | api/internal/modules/tags/handler.go:89-114 | creating a code twice fails the second time |
| Tags.UpdateTag | api/internal/modules/tags/handler.go:116-141 | 400 for a bad body; 500 when the update fails; 200 otherwise, with `null` for a missing code |
| Tags.DeleteTag | api/internal/modules/tags/handler.go:143-156 | 204 when a tag was deleted; 500 otherwise, a missing code included |
| Uuid.NilIsUuid | api/internal/modules/categories/repository.go:114-124 | the nil UUID the create-time check binds is a valid `uuid` text |
| Categories.Create | api/internal/modules/categories/repository.go:32-39 | appends one live row; a parent that is not a uuid, or an id clash, fails; the row is then found by id |
| Categories.FindByID | api/internal/modules/categories/repository.go:92-104 | a live category, or `nil` exactly when no live row has the id; an id that is not a uuid fails the query |
| Categories.FindAll | api/internal/modules/categories/repository.go:80-90 | exactly the live categories, newest first |
| Categories.HasActiveChildren | api/internal/modules/categories/repository.go:106-111 | true exactly when a live row names the id as parent; an id that is not a uuid fails the query |
| Categories.IsUniqueCode | api/internal/modules/categories/repository.go:114-124 | unique exactly when no live row other than the excluded id holds the code; an empty exclusion is the nil UUID; any other exclusion that is not a uuid fails the query |
| Categories.Update | api/internal/modules/categories/repository.go:41-49 | rewrites only the live row with that id and keeps its creation time; an id or parent that is not a uuid fails; otherwise no live row is `sql.ErrNoRows` |
| Categories.Delete | api/internal/modules/categories/repository.go:51-78 | an id that is not a uuid fails the child check; live children block the delete; then a missing id is `sql.ErrNoRows`; otherwise only that row gets `deleted_at` |
| Categories.CreateCategory | api/internal/modules/categories/service.go:16-27 | a code held by any live row is rejected before the insert |
| Categories.UpdateCategory | api/internal/modules/categories/service.go:29-40 | a code held by another live row is rejected; an id that is not a uuid fails the check |
| Categories.KeepOwnCode | api/internal/modules/categories/service.go:29-40 | a category may keep its own code, exactly when the parent it names is a uuid or absent |
| Categories.OtherHolderBlocksUpdate | api/internal/modules/categories/service.go:29-40 | taking another live category's code is rejected |
| Categories.DeletedHolderDoesNotBlock | api/internal/modules/categories/repository.go:114-124 | the code of a soft-deleted category passes the service's check, and the create then succeeds exactly when the parent is a uuid or absent |
| Categories.ParentAfterChild | api/internal/modules/categories/repository_integration_test.go:60-100 | a parent cannot be deleted while its child lives, and can be once the child is deleted |
| Categories.DeleteTwice | api/internal/modules/categories/repository.go:51-78 | a second delete of the same id fails with `sql.ErrNoRows` |
| Categories.HandleGet | api/internal/modules/categories/handler.go:29-41 | 404 exactly when the id is a uuid that no live category has; an id that is not a uuid is 500 |
| Categories.HandleCreate | api/internal/modules/categories/handler.go:43-61 | 400 for a bad body, 409 for a taken code, 500 for other failures, 201 otherwise |
| Categories.HandleUpdate | api/internal/modules/categories/handler.go:63-82 | 400 for a bad body, 409 for a taken code, 500 for other failures, 200 otherwise |
| Categories.HandleDelete | api/internal/modules/categories/handler.go:84-95 | 409 exactly when live children exist; 204 on success |
| CategoryTree.BuildTree | web/src/app/components/categories/CategoryTree.tsx:23-44 | the two passes build the forest: one node per id, roots and children lists in input order |
| CategoryTree.Placement | web/src/app/components/categories/CategoryTree.tsx:33-41 | an unattached category is among the roots, and an attached one is in its parent's children |
| CategoryTree.RootIff | web/src/app/components/categories/CategoryTree.tsx:35-40 | with unique ids, a category is a root exactly when its parent is missing, empty or not in the list |
| CategoryTree.ForestConservation | web/src/app/components/categories/CategoryTree.tsx:28-41 | the roots and all children lists together hold as many entries as the input |
| CategoryTree.SelfParent | web/src/app/components/categories/CategoryTree.tsx:35-38 | a category that names itself as parent is its own child and not a root |
| LikeControl.Click | web/src/app/components/articles/LikeControl.tsx:32-92 | without a session, only an alert; while loading, nothing; otherwise DELETE for the shown reaction, POST otherwise, and loading ends |
| LikeControl.ClickKeepsConsistent | web/src/app/components/articles/LikeControl.tsx:45-89 | the counters stay the server's base counts plus the reaction shown, whether the request succeeds or not |
| LikeControl.ClickReaction | web/src/app/components/articles/LikeControl.tsx:45-72 | clicking the shown reaction clears it; clicking the other one sets it |
| LikeControl.ClickTotal | web/src/app/components/articles/LikeControl.tsx:45-72 | likes plus dislikes change by +1 for a new reaction, 0 for a switch, and -1 for a removal |
| LikeControl.LikeTwice | web/src/app/components/articles/LikeControl.tsx:45-72 | the same reaction clicked twice shows the starting state again |
| LikeControl.FailedClickRestores | web/src/app/components/articles/LikeControl.tsx:41-89 | a failed request restores the reaction and both counters exactly |
| LikeControl.SyncProps | web/src/app/components/articles/LikeControl.tsx:27-30 | new props overwrite both counters and nothing else |
| LanguageSwitcher.CurrentLocale | web/src/app/components/LanguageSwitcher.tsx:7-20 | the entry of the current locale; an unknown locale shows the first entry |
| LanguageSwitcher.StripLocale | web/src/app/components/LanguageSwitcher.tsx:25 | one leading `/en`, `/ru` or `/kk` is removed, and an empty remainder becomes `/` |
| LanguageSwitcher.SwitchRoundTrip | web/src/app/components/LanguageSwitcher.tsx:25-30 | for a path outside the locale prefixes, switching to Russian or Kazakh and back to English returns the path |
| LanguageSwitcher.SwitchTwice | web/src/app/components/LanguageSwitcher.tsx:25-30 | switching through one locale to another lands on the same page |
| LanguageSwitcher.RussianHomeToEnglish | web/tests/language-switching-fixes.spec.ts:22-25 | leaving `/ru` for English goes to `/` |
| LanguageSwitcher.EnglishWordLosesPrefix | web/src/app/components/LanguageSwitcher.tsx:25 | the prefix is matched on characters, not segments: `/english` becomes `glish` |
| LanguageSwitcher.UnknownLocaleShowsEnglish | web/src/app/components/LanguageSwitcher.tsx:20 | an unrecognised locale shows English |
| NewsServices.JsSliceFacts | web/src/app/news/services.ts:63 | `slice(start, end)` is a run of the input at most `end - start` long, and the plain window for non-negative bounds |
| NewsServices.NegativeWidthSlice | web/src/app/news/services.ts:63 | a negative width can still select items: `slice(0, -1)` drops only the last one |
| NewsServices.FallbackList | web/src/app/news/services.ts:58-65 | the total is the filtered count; the page holds at most `pageSize` items, forming the window at `(page - 1) * pageSize` |
| NewsServices.FilteredFacts | web/src/app/news/services.ts:60 | with a category, exactly the fixtures tagged with it |
| NewsServices.FallbackItemsMatch | web/src/app/news/services.ts:58-65 | every fallback item is a fixture carrying the requested category |
| NewsServices.GenerateLocal | web/src/app/news/services.ts:67-88 | 32 fixtures; item i has slug `local-news-i`, URL `/news/local-news-i`, one tag from the four categories in turn, and a date i days back |
| NewsServices.LocalSlugsUnique | web/src/app/news/services.ts:74 | the fixture slugs are pairwise different |
| NewsServices.FetchNews | web/src/app/news/services.ts:19-40 | the upstream page is used only when it is ok and full; failures, throws, short pages and small totals fall back |
| NewsServices.PartialPageFallsBack | web/src/app/news/services.ts:32-35 | a short upstream page is replaced by the fallback |
| NewsServices.MapItem | web/src/app/news/services.ts:91-96 | only the HTML body changes, converted from the body, or from the summary when the body is empty |
| NewsServices.HeadingLevels | web/src/app/news/services.ts:100-102 | a line of n hashes and a space becomes a heading of level n |
| NewsServices.HeadingsPerLine | web/src/app/news/services.ts:100-102 | the heading rules apply line by line and keep the newlines |
| NewsServices.ParagraphRuleIsDead | web/src/app/news/services.ts:103-104 | by the time the paragraph rule runs, no blank line is left, so it never produces `<p>` |

## Left out

- Database drivers and SQL text are not modelled. Tables are sequences of rows, and the queries are their meaning over those rows. Connection failures are a flag (tags, categories) or a set of failing keys (articles). The schema is the one `api/internal/testutil/database.go` creates. Of its constraints, these are modelled:
  - the `article_tags` foreign keys: an association naming no article row or no tag is rejected;
  - the `articles.status` CHECK;
  - the `uuid` type of the categories' id and parent columns and of the articles' `category_id` and `author_id` list filters, which refuses other texts.
- ArticleQuery.Count does not fail for a category or author filter that is not a uuid. Both of its callers run `FindAll` with the same options first, and that query fails on such a filter.
- ArticleStore.AddLike, RemoveLike, RemoveTags and GetComments are infallible in the model. Their statements' errors (a connection failure, a key that is not a uuid) are not modelled. Only the comment insert fails, under an article id in the failing set.
- A failing handler reply (500) does not carry the store. Writes made before the failure (the article row created before a rejected tag insert, the old tags removed before one) stay in the database, and the model does not show them.
- ArticleQuery.Ordered: rows that tie on the ORDER BY column keep their table order. Postgres leaves the order of ties unspecified, so this is the model's choice.
- JSON encoding and decoding are not modelled: whether a body decodes is a parameter (`bodyParses`) of the article and category handlers, and a body that does not decode is a 400. The authentication middleware is not modelled either: the user is a parameter.
- The clock, UUID generation, the upload file system, `http.DetectContentType` and the upstream `fetch` are parameters or reduced to their outcomes.
- Article handlers that only pass through to the service are left out, because they add no logic of their own: `handleGet`, `handleGetBySlug`, `handlePublish`, `handleDelete`, `handleAddTags`, `handleRemoveTags`, the comment and like handlers, and `handleServeImage`.
- `generatePreview`'s image, link and code passes are an opaque parameter, because regular-expression rewriting of arbitrary Markdown is out of scope. The header and emphasis passes and both cuts are modelled.
- Lengths are counted in characters. Go counts bytes, so the model agrees only on ASCII text. The one byte-sensitive guard, the search query's length, is modelled in UTF-8 bytes.
- Lower-casing is ASCII only, in `generateSlug` and in the tag search. `isValidImageType`'s `strings.ToLower` is modelled on the runes whose lower case is ASCII (`Uploads.GoLowerChar`).
- Uploads.StoredNameKeepsExt, Uploads.SaveImage and Uploads.HandleUpload use the ASCII extension check. With Go's lower-casing, `a.gİf` passes and is stored as `<unix>_a.g_f`, which loses its image extension (`Uploads.DottedCapitalILosesExt`); see Findings.
- Tags.Contains: the `ILIKE '%…%'` search treats `%` and `_` inside the search text as plain characters. Postgres treats them as wildcards.
- Tags.FindAll: `ORDER BY code` is modelled as byte-wise (C) collation. Postgres may use a locale collation.
- The categories table's UNIQUE constraint on code and its parent foreign key are left out. Only the service's uniqueness check is modelled.
- Categories.DeletedHolderDoesNotBlock states what the service's check lets through. Under the schema's UNIQUE constraint on code, which also counts deleted rows, the INSERT itself would then fail and the handler would answer 500.
- Categories.Valid asks the stored ids to be uuids. The database generates them with `gen_random_uuid()`, so `Create`'s key is taken as given.
- Categories.HandleUpdate replies with the stored row. Go encodes the decoded request instead, with only its id and `updated_at` filled in, so the reply's `created_at` is whatever the body carried.
- `fetchNewsItem` is left out because it is outside the modelled core.
- JavaScript numbers are integers here. A fractional or NaN page does not occur in the model.
- News markdown treats only `\n` as a line terminator. JavaScript's `^`, `$` and `.` also honour `\r`, U+2028 and U+2029.
- LikeControl: React's state batching and the effect that fetches the user's reaction (empty in the source) are not modelled. A click is one atomic step from the pre-click state to the settled state.
- LanguageSwitcher: the dropdown's open state and the router transition are not modelled.
- CategoryTree: rendering is not modelled. The model's values are immutable, so the source's promise not to mutate its input holds by construction. Each node is identified by its id.
- `api/internal/modules/articles/repository.go` search and other modules (users, auth, comments UI) are not part of this model.

## Findings

| source | as written | input that shows it | evidently intended | confidence | as-written member | corrected member |
|---|---|---|---|---|---|---|
| api/internal/modules/articles/handler.go:67 | `offset := (page - 1) * limit` wraps around in int64 | `page=4611686018427387905&limit=2` gives offset MinInt64, and Postgres rejects it with a 500 | the offset of a far page is past every row, so the page is empty | not executed | ArticleHandler.ListOverflowFails | ArticleHandler.HandleList |
| api/internal/modules/articles/handler.go:123 | `handlePublicList` computes the same wrapping `offset := (page - 1) * limit` | `page=4611686018427387905&limit=2` gives offset MinInt64, and the public list answers 500 | the far page is empty | not executed | ArticleHandler.PublicListOverflowFails | ArticleHandler.HandlePublicList |
| api/internal/modules/articles/handler.go:564 | `handleSearch` computes the same wrapping offset and passes it to the search | `q=go&limit=2&page=4611686018427387905` searches at offset MinInt64, which Postgres rejects | the far page is empty | not executed | ArticleHandler.SearchOverflowFails | ArticleHandler.HandleSearch |
| api/internal/http/server/content.go:61-71 | `start := (page - 1) * pageSize` wraps negative, and `sorted[start:end]` panics | `page=4611686018427387904&page_size=4` | a far page is empty | not executed | Content.WindowAsWrittenPanics | Content.WindowSpan |
| api/internal/http/server/content.go:61-71 | the same `start` wraps past 2^64 and lands back inside the list | with 20 items, `page=4611686018427387906&page_size=4` gives items 4 to 8 | a far page is empty | not executed | Content.WindowAsWrittenWrongPage | Content.ListPage |
| api/internal/modules/uploads/handler.go:135-152 | `isValidImageType` lower-cases with `strings.ToLower`, which folds U+0130 to `i`, while `sanitizeFilename` keeps ASCII only | `a.gİf` passes the check and is stored as `<unix>_a.g_f` | a stored image keeps an allowed image extension | not executed | Uploads.DottedCapitalILosesExt | Uploads.StoredNameKeepsExt |
| api/internal/modules/articles/handler.go:309-313 | the tag codes from `GetTags` are passed to `RemoveTags`, which matches tag ids | an article with tag id `t1` (code `go`) updated with `tag_ids=[t2]` keeps `t1` | the old tags are replaced by the listed ones | not executed | ArticleHandler.ReplaceTagsAsWrittenKeepsOld | ArticleHandler.ReplaceTags |
| api/internal/modules/articles/repository.go:373,389 | the counts compare status with the lower-case `'published'` | one live article with status `PUBLISHED` in category `c` counts 0 | live PUBLISHED articles are counted | not executed | ArticleQuery.CategoryCountAsWrittenIsZero | ArticleQuery.CategoryCount |
| api/internal/modules/tags/service.go:46 | `has_more` is `offset+limit < total` on int64 | `offset=9223372036854775807` with the default limit wraps to negative and reports `has_more: true` for an empty page | `has_more` holds when items remain past this page | not executed | Tags.HasMoreAsWrittenWraps | Tags.ListTagsWithPagination |

=== FILE: article_handler.dfy ===
/** The articles HTTP handlers (`articles/handler.go`) as far as they
    compute anything: defaulting of `limit`, `page` and `offset`, the
    `q` guard of the search, the fixed status and author of a create, and
    the tag replacement of an update. Request decoding, the authenticated
    user and the clock arrive as parameters; a reply is an HTTP status
    with a body. */
module ArticleHandler {
  import opened Wrappers
  import opened ArticleStore
  import Text
  import ArticleQuery
  import ArticleService
  import Slug
  import Rows
  import opened Http

  // ---------------------------------------------------------------------
  // Query parameters

  /** A page or limit the parsing produced: positive and within int64. */
  predicate Parsed(n: int) { 0 < n <= Text.MaxInt64 }

  /** `offset := (page - 1) * limit` as Go evaluates it on 64-bit ints: the
      product wraps around. */
  function OffsetAsWritten(page: int, limit: int): (o: int)
    requires Parsed(page) && Parsed(limit)
    ensures Text.InInt64(o)
  {
    Text.Wrap64((page - 1) * limit)
  }

  /** The offset the handlers evidently intend: (page - 1) * limit, held
      at the largest int64 when the product does not fit (the page is then
      past every row). */
  function Offset(page: int, limit: int): (o: int)
    requires Parsed(page) && Parsed(limit)
    ensures 0 <= o <= Text.MaxInt64
    ensures (page - 1) * limit <= Text.MaxInt64 ==> o == (page - 1) * limit
    ensures (page - 1) * limit > Text.MaxInt64 ==> o == Text.MaxInt64
  {
    assert (page - 1) * limit >= 0 by {
      Text.NonNegativeProduct(page - 1, limit);
    }
    var p := (page - 1) * limit;
    if p > Text.MaxInt64 then Text.MaxInt64 else p
  }

  /** Where the product fits, the written arithmetic and the intended one
      agree. */
  lemma OffsetAgrees(page: int, limit: int)
    requires Parsed(page) && Parsed(limit)
    requires (page - 1) * limit <= Text.MaxInt64
    ensures OffsetAsWritten(page, limit) == Offset(page, limit)
  {
    Text.NonNegativeProduct(page - 1, limit);
  }

  /** Where it does not, the written offset can come out negative: page
      2^62 + 1 with limit 2 gives -2^63. */
  lemma OffsetAsWrittenNegative()
    ensures Parsed(0x4000_0000_0000_0001) && Parsed(2)
    ensures OffsetAsWritten(0x4000_0000_0000_0001, 2) == Text.MinInt64
  {
  }

  // ---------------------------------------------------------------------
  // Listing

  /** The JSON of a listing: each article with its tag codes, the total,
      the page and the limit used. */
  datatype ListPage = ListPage(articles: seq<(Article, seq<string>)>, total: nat, page: int, limit: int)

  /** Attaches each article's tag codes. */
  function WithTags(st: Store, rows: seq<Article>): (r: seq<(Article, seq<string>)>)
    ensures |r| == |rows|
    ensures forall i :: 0 <= i < |rows| ==> r[i] == (rows[i], GetTags(st, rows[i].id))
  {
    seq(|rows|, i requires 0 <= i < |rows| => (rows[i], GetTags(st, rows[i].id)))
  }

  /** The filters the dashboard listing passes to the service. */
  function ListOptions(status: string, categoryId: string, authorId: string, tags: seq<string>,
                       limit: int, offset: int): ArticleQuery.FilterOptions {
    ArticleQuery.FilterOptions(status, categoryId, authorId, tags, limit, offset, "")
  }

  /** `handleList` with the intended offset: limit defaults to 20, page to
      1; a category or author filter that is not a uuid fails the query and
      gives 500; otherwise the reply carries the service's page, that is the
      LIMIT/OFFSET window of the whole filtered result, each article with
      its tag codes, and reports the size of that result as the total. */
  function HandleList(st: Store, status: string, categoryId: string, authorId: string, tags: seq<string>,
                      limitRaw: string, pageRaw: string): (r: Response<ListPage>)
    ensures r.Failure? <==> !ArticleQuery.UuidFilter(categoryId) || !ArticleQuery.UuidFilter(authorId)
    ensures r.Failure? ==> r.status == 500
    ensures r.Success? ==> r.status == 200
    ensures r.Success? ==> r.body.limit == PositiveOr(limitRaw, 20) && r.body.page == PositiveOr(pageRaw, 1)
    ensures r.Success? ==> |r.body.articles| <= r.body.limit
    ensures r.Success? ==> var opts := ListOptions(status, categoryId, authorId, tags,
        r.body.limit, Offset(r.body.page, r.body.limit));
      && r.body.articles == WithTags(st, Rows.Window(ArticleQuery.Unpaged(st, ArticleQuery.FindAllQuery(opts)),
           r.body.limit, Offset(r.body.page, r.body.limit)))
      && r.body.total == ArticleQuery.Count(st, opts)
  {
    var limit := PositiveOr(limitRaw, 20);
    var page := PositiveOr(pageRaw, 1);
    var offset := Offset(page, limit);
    ArticleQuery.CountIsUnpagedSize(st, ListOptions(status, categoryId, authorId, tags, limit, offset));
    ArticleQuery.FindAllIsWindow(st, ListOptions(status, categoryId, authorId, tags, limit, offset));
    match ArticleService.List(st, status, categoryId, authorId, tags, limit, offset)
    case Err(_) => Failure(500)
    case Ok((rows, total)) => Success(200, ListPage(WithTags(st, rows), total, page, limit))
  }

  /** `handleList` as written, with the wrapping offset. */
  function HandleListAsWritten(st: Store, status: string, categoryId: string, authorId: string,
                               tags: seq<string>, limitRaw: string, pageRaw: string): (r: Response<ListPage>)
    ensures r.Failure? <==>
      || OffsetAsWritten(PositiveOr(pageRaw, 1), PositiveOr(limitRaw, 20)) < 0
      || !ArticleQuery.UuidFilter(categoryId) || !ArticleQuery.UuidFilter(authorId)
    ensures r.Failure? ==> r.status == 500
  {
    var limit := PositiveOr(limitRaw, 20);
    var page := PositiveOr(pageRaw, 1);
    var offset := OffsetAsWritten(page, limit);
    match ArticleService.List(st, status, categoryId, authorId, tags, limit, offset)
    case Err(_) => Failure(500)
    case Ok((rows, total)) => Success(200, ListPage(WithTags(st, rows), total, page, limit))
  }

  /** The page number 2^62 + 1 and the limit 2 in the query string: their
      offset overflows int64 into the negatives. */
  lemma OverflowQuery()
    ensures PositiveOr(Text.IntToString(0x4000_0000_0000_0001), 1) == 0x4000_0000_0000_0001
    ensures PositiveOr(Text.IntToString(2), 20) == 2 && PositiveOr(Text.IntToString(2), 10) == 2
    ensures BoundedOr(Text.IntToString(2), 10, 50) == 2
    ensures OffsetAsWritten(0x4000_0000_0000_0001, 2) == Text.MinInt64
  {
    PositiveOrReadsBack(0x4000_0000_0000_0001, 1);
    PositiveOrReadsBack(2, 20);
    PositiveOrReadsBack(2, 10);
    BoundedOrReadsBack(2, 10, 50);
    OffsetAsWrittenNegative();
  }

  /** A page number whose offset overflows int64 into the negatives makes
      the written handler fail where the intended one answers an empty
      page. */
  lemma ListOverflowFails(st: Store, status: string, categoryId: string, authorId: string, tags: seq<string>)
    ensures var pageRaw := Text.IntToString(0x4000_0000_0000_0001);
      var limitRaw := Text.IntToString(2);
      && HandleListAsWritten(st, status, categoryId, authorId, tags, limitRaw, pageRaw) == Failure(500)
      && (HandleList(st, status, categoryId, authorId, tags, limitRaw, pageRaw).Success? <==>
          ArticleQuery.UuidFilter(categoryId) && ArticleQuery.UuidFilter(authorId))
  {
    OverflowQuery();
  }

  /** `handlePublicList` with the intended offset: the same parameter rules
      with a default limit of 10. The page is the LIMIT/OFFSET window of the
      PUBLISHED rows ordered by published_at, each with its preview and tag
      codes, so rows without a published_at come first and the dated ones
      run latest first. A category filter that is not a uuid gives 500. */
  function HandlePublicList(st: Store, markup: string -> string, categoryId: string, tags: seq<string>,
                            limitRaw: string, pageRaw: string): (r: Response<ListPage>)
    ensures r.Failure? <==> !ArticleQuery.UuidFilter(categoryId)
    ensures r.Failure? ==> r.status == 500
    ensures r.Success? ==> r.status == 200
    ensures r.Success? ==> r.body.limit == PositiveOr(limitRaw, 10) && r.body.page == PositiveOr(pageRaw, 1)
    ensures r.Success? ==> |r.body.articles| <= r.body.limit
    ensures r.Success? ==> forall i :: 0 <= i < |r.body.articles| ==> r.body.articles[i].0.status == "PUBLISHED"
    ensures r.Success? ==> var opts := ArticleService.PublicOptions(categoryId, tags, r.body.limit, Offset(r.body.page, r.body.limit));
      var rows := Rows.Window(ArticleQuery.Unpaged(st, ArticleQuery.FindAllQuery(opts)),
        r.body.limit, Offset(r.body.page, r.body.limit));
      && r.body.articles == WithTags(st, ArticleService.Previews(markup, rows))
      && ArticleQuery.PublishedOrder(rows)
      && r.body.total == ArticleQuery.Count(st, opts)
  {
    var limit := PositiveOr(limitRaw, 10);
    var page := PositiveOr(pageRaw, 1);
    var offset := Offset(page, limit);
    var opts := ArticleService.PublicOptions(categoryId, tags, limit, offset);
    ArticleQuery.CountIsUnpagedSize(st, opts);
    ArticleQuery.FindAllIsWindow(st, opts);
    match ArticleService.PublicArticles(st, markup, categoryId, tags, limit, offset)
    case Err(_) => Failure(500)
    case Ok((rows, total)) =>
      ArticleService.PublicRows(st, opts, ArticleQuery.FindAll(st, opts).value);
      Success(200, ListPage(WithTags(st, rows), total, page, limit))
  }

  /** `handlePublicList` as written, with the wrapping offset. */
  function HandlePublicListAsWritten(st: Store, markup: string -> string, categoryId: string, tags: seq<string>,
                                     limitRaw: string, pageRaw: string): (r: Response<ListPage>)
    ensures r.Failure? <==>
      OffsetAsWritten(PositiveOr(pageRaw, 1), PositiveOr(limitRaw, 10)) < 0 || !ArticleQuery.UuidFilter(categoryId)
    ensures r.Failure? ==> r.status == 500
  {
    var limit := PositiveOr(limitRaw, 10);
    var page := PositiveOr(pageRaw, 1);
    var offset := OffsetAsWritten(page, limit);
    match ArticleService.PublicArticles(st, markup, categoryId, tags, limit, offset)
    case Err(_) => Failure(500)
    case Ok((rows, total)) => Success(200, ListPage(WithTags(st, rows), total, page, limit))
  }

  /** The public list fails on the overflowing page as written, and
      answers with the intended offset. */
  lemma PublicListOverflowFails(st: Store, markup: string -> string, categoryId: string, tags: seq<string>)
    ensures var pageRaw := Text.IntToString(0x4000_0000_0000_0001);
      var limitRaw := Text.IntToString(2);
      && HandlePublicListAsWritten(st, markup, categoryId, tags, limitRaw, pageRaw) == Failure(500)
      && (HandlePublicList(st, markup, categoryId, tags, limitRaw, pageRaw).Success? <==> ArticleQuery.UuidFilter(categoryId))
  {
    OverflowQuery();
  }

  // ---------------------------------------------------------------------
  // Search

  datatype SearchPage<R> = SearchPage(results: seq<R>, total: nat, page: int, limit: int, query: string)

  /** `handleSearch` with the intended offset: an empty `q` is a 400 before
      anything else; the limit is accepted only within [1, 50] (default
      10); a query the service finds too short is a 500. The search itself
      is the `backend` parameter, given the limit and offset. */
  function HandleSearch<R>(q: string, limitRaw: string, pageRaw: string,
                           backend: (int, int) -> Result<(seq<R>, nat), Error>): (r: Response<SearchPage<R>>)
    ensures q == "" ==> r == Failure(400)
    ensures q != "" && ArticleService.Utf8Len(q) < 2 ==> r == Failure(500)
    ensures r.Success? ==> r.status == 200 && 1 <= r.body.limit <= 50 && r.body.query == q
    ensures ArticleService.Utf8Len(q) >= 2 ==>
      var limit := BoundedOr(limitRaw, 10, 50);
      (r.Success? <==> backend(limit, Offset(PositiveOr(pageRaw, 1), limit)).Ok?)
  {
    SearchWith(q, limitRaw, pageRaw, backend, Offset(PositiveOr(pageRaw, 1), BoundedOr(limitRaw, 10, 50)))
  }

  /** `handleSearch` as written: the backend receives the wrapping offset. */
  function HandleSearchAsWritten<R>(q: string, limitRaw: string, pageRaw: string,
                                    backend: (int, int) -> Result<(seq<R>, nat), Error>): (r: Response<SearchPage<R>>)
    ensures q == "" ==> r == Failure(400)
    ensures q != "" && ArticleService.Utf8Len(q) < 2 ==> r == Failure(500)
    ensures r.Success? ==> r.status == 200 && 1 <= r.body.limit <= 50 && r.body.query == q
    ensures ArticleService.Utf8Len(q) >= 2 ==>
      var limit := BoundedOr(limitRaw, 10, 50);
      (r.Success? <==> backend(limit, OffsetAsWritten(PositiveOr(pageRaw, 1), limit)).Ok?)
  {
    SearchWith(q, limitRaw, pageRaw, backend, OffsetAsWritten(PositiveOr(pageRaw, 1), BoundedOr(limitRaw, 10, 50)))
  }

  /** The search handler once the offset is computed. */
  function SearchWith<R>(q: string, limitRaw: string, pageRaw: string,
                         backend: (int, int) -> Result<(seq<R>, nat), Error>, offset: int): (r: Response<SearchPage<R>>)
    ensures q == "" ==> r == Failure(400)
    ensures q != "" && ArticleService.Utf8Len(q) < 2 ==> r == Failure(500)
    ensures r.Success? ==> r.status == 200 && 1 <= r.body.limit <= 50 && r.body.query == q
    ensures ArticleService.Utf8Len(q) >= 2 ==> (r.Success? <==> backend(BoundedOr(limitRaw, 10, 50), offset).Ok?)
  {
    if q == "" then Failure(400)
    else
      var limit := BoundedOr(limitRaw, 10, 50);
      var page := PositiveOr(pageRaw, 1);
      match ArticleService.Search<(seq<R>, nat)>(q, backend(limit, offset))
      case Err(_) => Failure(500)
      case Ok(found) => Success(200, SearchPage(found.0, found.1, page, limit, q))
  }

  /** With a backend that, like Postgres, rejects a negative OFFSET, the
      overflowing page makes the written search fail where the intended
      one answers. */
  lemma SearchOverflowFails<R>(q: string, backend: (int, int) -> Result<(seq<R>, nat), Error>)
    requires ArticleService.Utf8Len(q) >= 2
    requires backend(2, Text.MinInt64).Err? && backend(2, Text.MaxInt64).Ok?
    ensures var pageRaw := Text.IntToString(0x4000_0000_0000_0001);
      var limitRaw := Text.IntToString(2);
      && HandleSearchAsWritten(q, limitRaw, pageRaw, backend).Failure?
      && HandleSearch(q, limitRaw, pageRaw, backend).Success?
  {
    OverflowQuery();
  }

  // ---------------------------------------------------------------------
  // Create

  /** The article a create request describes: always a DRAFT with no slug,
      written by the given author. */
  function Draft(title: string, body: string, categoryId: Option<string>, author: string): (a: Article)
    ensures a.status == "DRAFT" && a.slug == "" && a.authorId == author && a.publishedAt.None?
  {
    Article("", title, "", body, categoryId, author, "DRAFT", None, 0, 0, None)
  }

  /** The service create followed, when tag ids are given, by `AddTags`;
      both create handlers answer 500 when either step fails. A create
      succeeds exactly when the service accepts the row and every tag id
      names a tag, and then the new row carries exactly the listed tags. */
  function CreateWithTags(st: Store, a: Article, tagIds: seq<string>, id: string, now: int)
    : (r: Result<(Store, Article), Error>)
    ensures r.Ok? <==> ArticleService.Create(st, a, id, now).Ok? && forall t :: t in tagIds ==> t in st.tagCodes
    ensures r.Ok? ==> r.value.1 == ArticleService.Create(st, a, id, now).value.1
    ensures r.Ok? ==> r.value.0 == st.(articles := st.articles + [r.value.1], articleTags := r.value.0.articleTags)
    ensures r.Ok? ==> forall p :: p in r.value.0.articleTags <==> p in st.articleTags || (p.0 == id && p.1 in tagIds)
  {
    match ArticleService.Create(st, a, id, now)
    case Err(e) => Err(e)
    case Ok((st1, row)) =>
      CreatedInsertable(st, st1, row, tagIds);
      var added := if |tagIds| > 0 then AddTags(st1, id, tagIds) else (st1, None);
      if added.1.Some? then Err(added.1.value) else Ok((added.0, row))
  }

  /** After a create, a tag id can be attached to the new row exactly when
      it names a tag. */
  lemma CreatedInsertable(st: Store, st1: Store, row: Article, tagIds: seq<string>)
    requires st1 == st.(articles := st.articles + [row])
    ensures Accepted(st1, row.id, tagIds) == tagIds <==> forall t :: t in tagIds ==> t in st.tagCodes
  {
    assert st1.articles[|st.articles|].id == row.id;
    assert IdTaken(st1, row.id);
  }

  /** `handleCreate`: 400 when the body does not decode, then 401 without
      an authenticated user; otherwise the create with its tags (500 on
      failure). The reply is 201 with the created row and its tag codes. */
  function HandleCreate(st: Store, bodyParses: bool, title: string, body: string, categoryId: Option<string>,
                        tagIds: seq<string>, user: Option<string>, id: string, now: int)
    : (r: Response<(Store, Article, seq<string>)>)
    ensures !bodyParses ==> r == Failure(400)
    ensures bodyParses && user.None? ==> r == Failure(401)
    ensures bodyParses && user.Some? ==>
      (r.Success? <==> ArticleService.Create(st, Draft(title, body, categoryId, user.value), id, now).Ok?
                       && forall t :: t in tagIds ==> t in st.tagCodes)
    ensures r.Failure? ==> r.status == 400 || r.status == 401 || r.status == 500
    ensures r.Success? ==> var (st2, row, codes) := r.body;
      && r.status == 201
      && row.status == "DRAFT" && row.authorId == user.value && row.id == id
      && row.slug !in HeldSlugs(st)
      && st2.articles == st.articles + [row]
      && (forall p :: p in st2.articleTags <==> p in st.articleTags || (p.0 == id && p.1 in tagIds))
      && codes == GetTags(st2, id)
  {
    if !bodyParses then Failure(400)
    else if user.None? then Failure(401)
    else
      match CreateWithTags(st, Draft(title, body, categoryId, user.value), tagIds, id, now)
      case Err(_) => Failure(500)
      case Ok((st2, row)) => Success(201, (st2, row, GetTags(st2, id)))
  }

  /** `handleCreateTest`: 400 when the body does not decode; otherwise the
      create with the fixed author `test-user-id`, then the tags, then
      `Publish` (500 on any failure). The stored row reads back PUBLISHED,
      but the reply shows the row as it was created, still a DRAFT. */
  function HandleCreateTest(st: Store, bodyParses: bool, title: string, body: string, categoryId: Option<string>,
                            tagIds: seq<string>, id: string, now: int)
    : (r: Response<(Store, Article, seq<string>)>)
    ensures !bodyParses ==> r == Failure(400)
    ensures r.Success? <==>
      && bodyParses
      && ArticleService.Create(st, Draft(title, body, categoryId, "test-user-id"), id, now).Ok?
      && (forall t :: t in tagIds ==> t in st.tagCodes)
      && id !in st.failingIds
    ensures r.Failure? && bodyParses ==> r.status == 500
    ensures r.Success? ==> var (st3, row, _) := r.body;
      && r.status == 201
      && row.status == "DRAFT" && row.authorId == "test-user-id"
      && var stored := FindByID(st3, id);
         stored.Ok? && stored.value.Some?
         && stored.value.value.status == "PUBLISHED" && stored.value.value.publishedAt == Some(now)
         && stored.value.value.slug == row.slug
  {
    if !bodyParses then Failure(400)
    else match CreateWithTags(st, Draft(title, body, categoryId, "test-user-id"), tagIds, id, now)
    case Err(_) => Failure(500)
    case Ok((st2, row)) =>
      CreatedReadsBack(st, st2, row, id);
      match ArticleService.Publish(st2, id, now)
      case Err(_) => Failure(500)
      case Ok(st3) =>
        ArticleService.PublishReadBack(st2, id, now);
        Success(201, (st3, row, GetTags(st3, id)))
  }

  /** A row created under a fresh id is live in the new store, and, unless
      lookups of that id fail, is what a lookup of it finds. */
  lemma CreatedReadsBack(st: Store, st2: Store, row: Article, id: string)
    requires !IdTaken(st, id) && row.id == id && row.Live()
    requires st2.articles == st.articles + [row] && st2.failingIds == st.failingIds
    ensures HasLiveId(st2, id)
    ensures id !in st.failingIds ==> FindByID(st2, id) == Ok(Some(row))
  {
    assert st2.articles[|st.articles|] == row;
    assert LiveWithId(st2.articles[|st.articles|], id);
    if id !in st.failingIds {
      assert forall a :: a in st.articles ==> a.id != id;
      var found := FindByID(st2, id).value.value;
      assert found in st.articles + [row] && found.id == id;
    }
  }

  // ---------------------------------------------------------------------
  // Update

  /** The article an update request describes: no slug and no
      published_at, so the service regenerates the slug from a non-empty
      title and the row's published_at is cleared. */
  function Edit(title: string, body: string, categoryId: Option<string>, status: string): (a: Article)
    ensures a.slug == "" && a.publishedAt.None? && a.status == status
  {
    Article("", title, "", body, categoryId, "", status, None, 0, 0, None)
  }

  /** The tag ids of an article's association rows. */
  function TagIdsOf(rows: seq<(string, string)>, articleId: string): (ids: seq<string>)
    ensures forall t :: t in ids <==> (articleId, t) in rows
  {
    if rows == [] then []
    else (if rows[0].0 == articleId then [rows[0].1] else []) + TagIdsOf(rows[1..], articleId)
  }

  /** Replacing the tags as written: the codes `GetTags` returns are passed
      to `RemoveTags`, which matches them against tag ids. */
  function ReplaceTagsAsWritten(st: Store, id: string, tagIds: seq<string>): (r: (Store, Option<Error>))
    ensures r.0 == st.(articleTags := r.0.articleTags)
    ensures r.1.None? <==> forall t :: t in tagIds ==> Insertable(st, id, t)
  {
    var existing := GetTags(st, id);
    var st1 := if |existing| > 0 then RemoveTags(st, id, existing) else st;
    AcceptedSame(st, st1, id, tagIds);
    if |tagIds| > 0 then AddTags(st1, id, tagIds) else (st1, None)
  }

  /** Replacing the tags as intended: every current association of the
      article goes, then the listed ones are inserted in turn. The first
      id naming no tag stops the inserts with an error, and the article
      keeps the ids before it; other articles' associations are
      untouched. */
  function ReplaceTags(st: Store, id: string, tagIds: seq<string>): (r: (Store, Option<Error>))
    ensures r.0 == st.(articleTags := r.0.articleTags)
    ensures r.1.None? <==> forall t :: t in tagIds ==> Insertable(st, id, t)
    ensures r.1.Some? ==> r.1.value == ForeignKeyViolation
    ensures forall t :: (id, t) in r.0.articleTags <==> t in Accepted(st, id, tagIds)
    ensures r.1.None? ==> forall t :: (id, t) in r.0.articleTags <==> t in tagIds
    ensures forall p: (string, string) :: p.0 != id ==> (p in r.0.articleTags <==> p in st.articleTags)
  {
    var existing := TagIdsOf(st.articleTags, id);
    var st1 := if |existing| > 0 then RemoveTags(st, id, existing) else st;
    AcceptedSame(st, st1, id, tagIds);
    if |tagIds| > 0 then AddTags(st1, id, tagIds) else (st1, None)
  }

  /** An association whose tag id is not the code of any of the article's
      tags, and which the request does not list, survives the written
      replacement (tag id `t1` with code `go`, replaced by `[t2]`, stays). */
  lemma ReplaceTagsAsWrittenKeepsOld(st: Store, id: string, tagIds: seq<string>, t: string)
    requires (id, t) in st.articleTags
    requires t !in GetTags(st, id)
    ensures (id, t) in ReplaceTagsAsWritten(st, id, tagIds).0.articleTags
  {
  }

  /** `handleUpdate` with the intended tag replacement: 400 when the body
      does not decode; then the service update (500 on failure, including a
      status outside the three the table admits, "" among them), then, when
      `tag_ids` is present, the article's tags become exactly the listed
      ones (500 when one names no tag); the reply holds the re-read row. */
  function HandleUpdate(st: Store, id: string, bodyParses: bool, title: string, body: string,
                        categoryId: Option<string>, status: string, tagIds: Option<seq<string>>, now: int)
    : (r: Response<(Store, Option<Article>, seq<string>)>)
    ensures !bodyParses ==> r == Failure(400)
    ensures bodyParses && !ArticleStore.ValidStatus(status) ==> r == Failure(500)
    ensures r.Success? <==>
      && bodyParses
      && ArticleService.Update(st, id, Edit(title, body, categoryId, status), now).Ok?
      && id !in st.failingIds
      && (tagIds.Some? ==> forall t :: t in tagIds.value ==> t in st.tagCodes)
    ensures r.Failure? && bodyParses ==> r.status == 500
    ensures r.Success? ==> var (st2, row, _) := r.body;
      && r.status == 200
      && row.Some? && row.value.id == id
      && row.value.status == status && row.value.publishedAt.None?
      && row.value.title == title && row.value.body == body
    ensures r.Success? && tagIds.Some? ==>
      forall t :: (id, t) in r.body.0.articleTags <==> t in tagIds.value
    ensures r.Success? && tagIds.None? ==> r.body.0.articleTags == st.articleTags
  {
    if !bodyParses then Failure(400)
    else match ArticleService.Update(st, id, Edit(title, body, categoryId, status), now)
    case Err(_) => Failure(500)
    case Ok(st1) =>
      UpdatedReadsBack(st, st1, id, Edit(title, body, categoryId, status), now);
      var replaced := if tagIds.Some? then ReplaceTags(st1, id, tagIds.value) else (st1, None);
      if replaced.1.Some? then Failure(500)
      else
        var st2 := replaced.0;
        match FindByID(st2, id)
        case Err(_) => Failure(500)
        case Ok(row) => Success(200, (st2, row, GetTags(st2, id)))
  }

  /** After the service update the row of that id reads back with the
      written title, body and status, and no published_at. */
  lemma UpdatedReadsBack(st: Store, st1: Store, id: string, a: Article, now: int)
    requires ArticleService.Update(st, id, a, now) == Ok(st1)
    requires a.publishedAt.None?
    ensures st1.articleTags == st.articleTags && st1.failingIds == st.failingIds
    ensures st1.tagCodes == st.tagCodes
    ensures id !in st.failingIds ==> IdTaken(st1, id)
    ensures id !in st.failingIds ==>
      var found := FindByID(st1, id);
      && found.Ok? && found.value.Some? && found.value.value.id == id
      && found.value.value.status == a.status && found.value.value.publishedAt.None?
      && found.value.value.title == a.title && found.value.value.body == a.body
  {
    var written := if a.slug == "" && a.title != "" then
      a.(slug := Slug.Candidate(Slug.GenerateSlug(a.title),
        ArticleService.Probe(st, Slug.GenerateSlug(a.title), Some(id), 0).at))
      else a;
    assert st1 == ArticleStore.Update(st, id, written, now).value;
    if id !in st.failingIds {
      UpdateReadBack(st, id, written, now);
      RowTaken(st1, FindByID(st1, id).value.value);
    }
  }

  /** A stored row's id is taken. */
  lemma RowTaken(st: Store, row: Article)
    requires row in st.articles
    ensures IdTaken(st, row.id)
  {
    var i :| 0 <= i < |st.articles| && st.articles[i] == row;
  }
}

=== FILE: article_query.dfy ===
/** The `FindAll`/`Count` query builder of the articles repository. The SQL
    text is kept only as far as it matters: the optional WHERE clauses in
    the order they are appended, the `$n` placeholder each one uses, the
    bound argument list, the ORDER BY column and the LIMIT/OFFSET
    placeholders. An evaluator gives the clause list its meaning over the
    in-memory tables, and `Matches` is the independent reading of the
    filter options that both queries must agree with. */
module ArticleQuery {
  import opened Wrappers
  import opened Rows
  import opened ArticleStore
  import Sorting
  import Uuid

  /** `FilterOptions`. */
  datatype FilterOptions = FilterOptions(
    status: string,
    categoryId: string,
    authorId: string,
    tags: seq<string>,
    limit: int,
    offset: int,
    sortBy: string)

  /** One `AND ...` clause and the placeholder index it uses. */
  datatype Clause =
    | StatusIs(pos: nat)      // a.status = $pos
    | CategoryIs(pos: nat)    // a.category_id = $pos
    | AuthorIs(pos: nat)      // a.author_id = $pos
    | TagCodeIn(pos: nat)     // t.code = ANY($pos)

  /** A bound query argument. */
  datatype Arg = Text(s: string) | TextArray(items: seq<string>) | Number(n: int)

  datatype Order = CreatedDesc | PublishedDesc

  /** The SELECT of `FindAll`. */
  datatype SelectQuery = SelectQuery(
    joinTags: bool, clauses: seq<Clause>, order: Order, limitPos: nat, offsetPos: nat, args: seq<Arg>)

  /** The SELECT COUNT(DISTINCT a.id) of `Count`. */
  datatype CountQuery = CountQuery(joinTags: bool, clauses: seq<Clause>, args: seq<Arg>)

  /** Placeholders run $1..$k over the clauses. */
  predicate Numbered(clauses: seq<Clause>, args: seq<Arg>) {
    && |clauses| == |args|
    && forall i :: 0 <= i < |clauses| ==> clauses[i].pos == i + 1
  }

  /** Appends a clause when its option is set. */
  function AddClause(w: (seq<Clause>, seq<Arg>), cond: bool, c: Clause, arg: Arg): (seq<Clause>, seq<Arg>) {
    if cond then (w.0 + [c], w.1 + [arg]) else w
  }

  /** The first half of the WHERE chain: status, then category. */
  function StatusAndCategory(opts: FilterOptions): (w: (seq<Clause>, seq<Arg>)) {
    var w0: (seq<Clause>, seq<Arg>) := ([], []);
    var w1 := AddClause(w0, opts.status != "", StatusIs(|w0.1| + 1), Text(opts.status));
    AddClause(w1, opts.categoryId != "", CategoryIs(|w1.1| + 1), Text(opts.categoryId))
  }

  /** The place of a clause kind in the WHERE chain. */
  function Rank(c: Clause): nat {
    match c
    case StatusIs(_) => 0
    case CategoryIs(_) => 1
    case AuthorIs(_) => 2
    case TagCodeIn(_) => 3
  }

  /** The clause's option is set and the argument is that option's value. */
  predicate Bound(opts: FilterOptions, c: Clause, arg: Arg) {
    match c
    case StatusIs(_) => opts.status != "" && arg == Text(opts.status)
    case CategoryIs(_) => opts.categoryId != "" && arg == Text(opts.categoryId)
    case AuthorIs(_) => opts.authorId != "" && arg == Text(opts.authorId)
    case TagCodeIn(_) => |opts.tags| > 0 && arg == TextArray(opts.tags)
  }

  /** How many of the four filters are set. */
  function SetFilters(opts: FilterOptions): nat {
    (if opts.status != "" then 1 else 0) + (if opts.categoryId != "" then 1 else 0)
    + (if opts.authorId != "" then 1 else 0) + (if |opts.tags| > 0 then 1 else 0)
  }

  /** The WHERE chain shared by `FindAll` and `Count`: status, category,
      author, then tags, each only when set, numbered as they come. */
  function Where(opts: FilterOptions): (w: (seq<Clause>, seq<Arg>))
    ensures Numbered(w.0, w.1)
    ensures |w.0| <= 4
  {
    var w2 := StatusAndCategory(opts);
    var w3 := AddClause(w2, opts.authorId != "", AuthorIs(|w2.1| + 1), Text(opts.authorId));
    AddClause(w3, |opts.tags| > 0, TagCodeIn(|w3.1| + 1), TextArray(opts.tags))
  }

  /** There is one clause per set filter, bound to that filter's value, and
      the clauses come in the fixed order status, category, author, tags. */
  lemma WhereShape(opts: FilterOptions)
    ensures var w := Where(opts);
      && |w.0| == SetFilters(opts)
      && (forall i :: 0 <= i < |w.0| ==> Bound(opts, w.0[i], w.1[i]))
      && (forall i, j :: 0 <= i < j < |w.0| ==> Rank(w.0[i]) < Rank(w.0[j]))
  {
    var w2 := StatusAndCategory(opts);
    StatusAndCategoryShape(opts);
    AuthorAndTagsShape(opts, w2);
    WhereStages(opts);
    var w := Where(opts);
    assert Shaped(opts, w, 4) && |w.0| == SetFilters(opts);
    ShapedMeans(opts, w, 4);
  }

  /** The second half of the chain keeps it shaped: an author clause, then a
      tags clause, each only when set. */
  lemma AuthorAndTagsShape(opts: FilterOptions, w2: (seq<Clause>, seq<Arg>))
    requires Shaped(opts, w2, 2)
    ensures var w3 := AddClause(w2, opts.authorId != "", AuthorIs(|w2.1| + 1), Text(opts.authorId));
      var w4 := AddClause(w3, |opts.tags| > 0, TagCodeIn(|w3.1| + 1), TextArray(opts.tags));
      Shaped(opts, w4, 4)
      && |w4.0| == |w2.0| + (if opts.authorId != "" then 1 else 0) + (if |opts.tags| > 0 then 1 else 0)
  {
    var w3 := AddClause(w2, opts.authorId != "", AuthorIs(|w2.1| + 1), Text(opts.authorId));
    AddClauseShape(opts, w2, 2, opts.authorId != "", AuthorIs(|w2.1| + 1), Text(opts.authorId));
    AddClauseShape(opts, w3, 3, |opts.tags| > 0, TagCodeIn(|w3.1| + 1), TextArray(opts.tags));
  }

  /** The first half of the chain is shaped: a status clause, then a
      category clause, each only when set. */
  lemma StatusAndCategoryShape(opts: FilterOptions)
    ensures var w := StatusAndCategory(opts);
      Shaped(opts, w, 2) && |w.0| == (if opts.status != "" then 1 else 0) + (if opts.categoryId != "" then 1 else 0)
  {
    var w0: (seq<Clause>, seq<Arg>) := ([], []);
    var w1 := AddClause(w0, opts.status != "", StatusIs(|w0.1| + 1), Text(opts.status));
    AddClauseShape(opts, w0, 0, opts.status != "", StatusIs(|w0.1| + 1), Text(opts.status));
    AddClauseShape(opts, w1, 1, opts.categoryId != "", CategoryIs(|w1.1| + 1), Text(opts.categoryId));
  }

  lemma ShapedMeans(opts: FilterOptions, w: (seq<Clause>, seq<Arg>), next: nat)
    requires Shaped(opts, w, next)
    ensures forall i :: 0 <= i < |w.0| ==> Bound(opts, w.0[i], w.1[i])
    ensures forall i, j :: 0 <= i < j < |w.0| ==> Rank(w.0[i]) < Rank(w.0[j])
  {
  }

  /** The clauses so far are bound to their filters and come in rank order,
      all below `next`. */
  predicate Shaped(opts: FilterOptions, w: (seq<Clause>, seq<Arg>), next: nat) {
    && |w.0| == |w.1|
    && (forall i :: 0 <= i < |w.0| ==> Bound(opts, w.0[i], w.1[i]) && Rank(w.0[i]) < next)
    && (forall i, j :: 0 <= i < j < |w.0| ==> Rank(w.0[i]) < Rank(w.0[j]))
  }

  /** Appending the clause of rank `next` when its filter is set keeps the
      chain shaped and adds one clause exactly when the filter is set. */
  lemma AddClauseShape(opts: FilterOptions, w: (seq<Clause>, seq<Arg>), next: nat, cond: bool, c: Clause, arg: Arg)
    requires Shaped(opts, w, next) && Rank(c) == next
    requires cond <==> Bound(opts, c, arg)
    ensures Shaped(opts, AddClause(w, cond, c, arg), next + 1)
    ensures |AddClause(w, cond, c, arg).0| == |w.0| + (if cond then 1 else 0)
  {
    if cond {
      var w2 := AddClause(w, cond, c, arg);
      assert w2.0[|w.0|] == c && w2.1[|w.1|] == arg;
      assert forall i :: 0 <= i < |w.0| ==> w2.0[i] == w.0[i] && w2.1[i] == w.1[i];
    }
  }

  /** `FindAll`'s query: the shared WHERE chain, the ORDER BY column, and
      LIMIT and OFFSET on the next two placeholders, so the argument list
      is exactly as long as the last placeholder index. */
  function FindAllQuery(opts: FilterOptions): (q: SelectQuery)
    ensures q.clauses == CountQueryOf(opts).clauses && q.joinTags == CountQueryOf(opts).joinTags
    ensures q.limitPos == |q.clauses| + 1 && q.offsetPos == |q.clauses| + 2 == |q.args|
    ensures q.args[..|q.clauses|] == CountQueryOf(opts).args
    ensures q.args[q.limitPos - 1] == Number(opts.limit) && q.args[q.offsetPos - 1] == Number(opts.offset)
    ensures q.order == (if opts.sortBy == "published_at" then PublishedDesc else CreatedDesc)
    ensures q.joinTags <==> |opts.tags| > 0
  {
    var w := Where(opts);
    var k := |w.0|;
    var order := if opts.sortBy == "published_at" then PublishedDesc else CreatedDesc;
    assert (w.1 + [Number(opts.limit), Number(opts.offset)])[..k] == w.1;
    SelectQuery(|opts.tags| > 0, w.0, order, k + 1, k + 2, w.1 + [Number(opts.limit), Number(opts.offset)])
  }

  /** `Count`'s query. */
  function CountQueryOf(opts: FilterOptions): (q: CountQuery)
    ensures Numbered(q.clauses, q.args)
  {
    var w := Where(opts);
    CountQuery(|opts.tags| > 0, w.0, w.1)
  }

  // ---------------------------------------------------------------------
  // Meaning of a clause list

  /** The article carries a tag whose code is listed (the tag join). */
  predicate HasAnyTag(st: Store, articleId: string, codes: seq<string>) {
    exists t :: (articleId, t) in st.articleTags && t in st.tagCodes && st.tagCodes[t] in codes
  }

  /** A clause with its bound argument. NULL `category_id` equals nothing. */
  predicate HoldsWith(st: Store, c: Clause, arg: Arg, a: Article) {
    match c
    case StatusIs(_) => arg.Text? && a.status == arg.s
    case CategoryIs(_) => arg.Text? && a.categoryId == Some(arg.s)
    case AuthorIs(_) => arg.Text? && a.authorId == arg.s
    case TagCodeIn(_) => arg.TextArray? && HasAnyTag(st, a.id, arg.items)
  }

  /** A clause, reading its argument from the placeholder position. */
  predicate Holds(st: Store, c: Clause, args: seq<Arg>, a: Article) {
    1 <= c.pos <= |args| && HoldsWith(st, c, args[c.pos - 1], a)
  }

  predicate AllHold(st: Store, clauses: seq<Clause>, args: seq<Arg>, a: Article) {
    forall i :: 0 <= i < |clauses| ==> Holds(st, clauses[i], args, a)
  }

  /** The rows the WHERE clause selects, in table order; the DISTINCT (and
      COUNT(DISTINCT)) keeps each row once however many tags match. */
  function Selected(st: Store, clauses: seq<Clause>, args: seq<Arg>): seq<Article> {
    Filter(st.articles, (a: Article) => a.Live() && AllHold(st, clauses, args, a))
  }

  /** The filter options read directly. */
  predicate Matches(st: Store, opts: FilterOptions, a: Article) {
    && a.Live()
    && (opts.status != "" ==> a.status == opts.status)
    && (opts.categoryId != "" ==> a.categoryId == Some(opts.categoryId))
    && (opts.authorId != "" ==> a.authorId == opts.authorId)
    && (|opts.tags| > 0 ==> HasAnyTag(st, a.id, opts.tags))
  }

  lemma AddClauseHolds(st: Store, w: (seq<Clause>, seq<Arg>), cond: bool, c: Clause, arg: Arg, a: Article)
    requires Numbered(w.0, w.1) && c.pos == |w.1| + 1
    ensures Numbered(AddClause(w, cond, c, arg).0, AddClause(w, cond, c, arg).1)
    ensures var w2 := AddClause(w, cond, c, arg);
      AllHold(st, w2.0, w2.1, a) <==> AllHold(st, w.0, w.1, a) && (cond ==> HoldsWith(st, c, arg, a))
  {
    if cond {
      var w2 := AddClause(w, cond, c, arg);
      assert w2.1[c.pos - 1] == arg;
      forall i | 0 <= i < |w.0|
        ensures Holds(st, w2.0[i], w2.1, a) <==> Holds(st, w.0[i], w.1, a)
      {
        assert w2.1[w.0[i].pos - 1] == w.1[w.0[i].pos - 1];
      }
      assert w2.0[|w.0|] == c;
    }
  }

  /** The first two clauses mean the status and category options. */
  lemma StatusAndCategoryMean(st: Store, opts: FilterOptions, a: Article)
    ensures var w := StatusAndCategory(opts);
      && Numbered(w.0, w.1)
      && (AllHold(st, w.0, w.1, a) <==>
          (opts.status != "" ==> a.status == opts.status)
          && (opts.categoryId != "" ==> a.categoryId == Some(opts.categoryId)))
  {
    var w0: (seq<Clause>, seq<Arg>) := ([], []);
    var w1 := AddClause(w0, opts.status != "", StatusIs(|w0.1| + 1), Text(opts.status));
    AddClauseHolds(st, w0, opts.status != "", StatusIs(|w0.1| + 1), Text(opts.status), a);
    AddClauseHolds(st, w1, opts.categoryId != "", CategoryIs(|w1.1| + 1), Text(opts.categoryId), a);
  }

  /** The author clause means the author option. */
  lemma AuthorStage(st: Store, w: (seq<Clause>, seq<Arg>), opts: FilterOptions, a: Article)
    requires Numbered(w.0, w.1)
    ensures var w3 := AddClause(w, opts.authorId != "", AuthorIs(|w.1| + 1), Text(opts.authorId));
      && Numbered(w3.0, w3.1)
      && (AllHold(st, w3.0, w3.1, a) <==> AllHold(st, w.0, w.1, a) && (opts.authorId != "" ==> a.authorId == opts.authorId))
  {
    AddClauseHolds(st, w, opts.authorId != "", AuthorIs(|w.1| + 1), Text(opts.authorId), a);
  }

  /** The tag clause means the tags option. */
  lemma TagStage(st: Store, w: (seq<Clause>, seq<Arg>), opts: FilterOptions, a: Article)
    requires Numbered(w.0, w.1)
    ensures var w4 := AddClause(w, |opts.tags| > 0, TagCodeIn(|w.1| + 1), TextArray(opts.tags));
      AllHold(st, w4.0, w4.1, a) <==> AllHold(st, w.0, w.1, a) && (|opts.tags| > 0 ==> HasAnyTag(st, a.id, opts.tags))
  {
    AddClauseHolds(st, w, |opts.tags| > 0, TagCodeIn(|w.1| + 1), TextArray(opts.tags), a);
  }

  /** The clause chain means exactly the filter options. */
  lemma WhereMeansMatches(st: Store, opts: FilterOptions, a: Article)
    ensures var w := Where(opts);
      (a.Live() && AllHold(st, w.0, w.1, a)) <==> Matches(st, opts, a)
  {
    var w2 := StatusAndCategory(opts);
    StatusAndCategoryMean(st, opts, a);
    AuthorStage(st, w2, opts, a);
    var w3 := AddClause(w2, opts.authorId != "", AuthorIs(|w2.1| + 1), Text(opts.authorId));
    TagStage(st, w3, opts, a);
    WhereStages(opts);
  }

  /** Where's chain, stage by stage. */
  lemma WhereStages(opts: FilterOptions)
    ensures var w2 := StatusAndCategory(opts);
      var w3 := AddClause(w2, opts.authorId != "", AuthorIs(|w2.1| + 1), Text(opts.authorId));
      Where(opts) == AddClause(w3, |opts.tags| > 0, TagCodeIn(|w3.1| + 1), TextArray(opts.tags))
  {
  }

  /** The rows both queries select are exactly the matching live rows. */
  lemma SelectedMeansMatches(st: Store, opts: FilterOptions)
    ensures var w := Where(opts);
      Selected(st, w.0, w.1) == Filter(st.articles, (a: Article) => Matches(st, opts, a))
  {
    var w := Where(opts);
    forall a: Article
      ensures (a.Live() && AllHold(st, w.0, w.1, a)) == Matches(st, opts, a)
    {
      WhereMeansMatches(st, opts, a);
    }
    FilterSame(st.articles, (a: Article) => a.Live() && AllHold(st, w.0, w.1, a), (a: Article) => Matches(st, opts, a));
  }

  lemma {:induction false} FilterSame<T>(s: seq<T>, p: T -> bool, q: T -> bool)
    requires forall x :: p(x) == q(x)
    ensures Filter(s, p) == Filter(s, q)
  {
    if s != [] {
      FilterSame(s[1..], p, q);
    }
  }

  // ---------------------------------------------------------------------
  // Running the queries

  function CreatedKey(a: Article): int { a.createdAt }
  function PublishedKey(a: Article): int { if a.publishedAt.Some? then a.publishedAt.value else 0 }
  function NullFirstKey(a: Article): int { if a.publishedAt.None? then 1 else 0 }

  /** `ORDER BY published_at DESC` as Postgres reads it: rows without a
      published_at (NULL sorts above every value) come first, and the dated
      rows run from the latest to the earliest. */
  predicate PublishedOrder(r: seq<Article>) {
    forall i, j :: 0 <= i < j < |r| ==>
      && (r[j].publishedAt.None? ==> r[i].publishedAt.None?)
      && (r[i].publishedAt.Some? && r[j].publishedAt.Some? ==> r[i].publishedAt.value >= r[j].publishedAt.value)
  }

  /** ORDER BY created_at DESC, or published_at DESC with Postgres' NULLs
      first; rows that tie keep table order. */
  function Ordered(rows: seq<Article>, order: Order): (r: seq<Article>)
    ensures multiset(r) == multiset(rows)
    ensures order == CreatedDesc ==> Sorting.SortedDesc(r, CreatedKey)
    ensures order == PublishedDesc ==> PublishedOrder(r)
  {
    match order
    case CreatedDesc =>
      Sorting.SortPermutes(rows, CreatedKey);
      Sorting.SortSorted(rows, CreatedKey);
      Sorting.SortDesc(rows, CreatedKey)
    case PublishedDesc =>
      var byTime := Sorting.SortDesc(rows, PublishedKey);
      Sorting.SortPermutes(rows, PublishedKey);
      Sorting.SortPermutes(byTime, NullFirstKey);
      Sorting.SortSorted(rows, PublishedKey);
      PublishedSortOrder(byTime);
      Sorting.SortDesc(byTime, NullFirstKey)
  }

  /** Sorting the published_at order by the NULLs-first key keeps the dated
      rows in the order the first sort gave them. */
  lemma PublishedSortOrder(byTime: seq<Article>)
    requires Sorting.SortedDesc(byTime, PublishedKey)
    ensures PublishedOrder(Sorting.SortDesc(byTime, NullFirstKey))
  {
    var r := Sorting.SortDesc(byTime, NullFirstKey);
    Sorting.SortSorted(byTime, NullFirstKey);
    Sorting.WithKeyOfSorted(byTime, NullFirstKey, 0, PublishedKey);
    Sorting.SortStable(byTime, NullFirstKey, 0);
    Sorting.SortedWithinKey(r, NullFirstKey, 0, PublishedKey);
    forall i, j | 0 <= i < j < |r|
      ensures r[j].publishedAt.None? ==> r[i].publishedAt.None?
      ensures r[i].publishedAt.Some? && r[j].publishedAt.Some? ==> r[i].publishedAt.value >= r[j].publishedAt.value
    {
      assert NullFirstKey(r[i]) >= NullFirstKey(r[j]);
      if r[i].publishedAt.Some? && r[j].publishedAt.Some? {
        assert PublishedKey(r[i]) >= PublishedKey(r[j]);
      }
    }
  }

  /** A LIMIT/OFFSET page of a published_at ordering is itself in that
      order. */
  lemma WindowPublishedOrder(s: seq<Article>, limit: nat, offset: nat)
    requires PublishedOrder(s)
    ensures PublishedOrder(Window(s, limit, offset))
  {
    var w := Window(s, limit, offset);
    forall i, j | 0 <= i < j < |w|
      ensures w[j].publishedAt.None? ==> w[i].publishedAt.None?
      ensures w[i].publishedAt.Some? && w[j].publishedAt.Some? ==> w[i].publishedAt.value >= w[j].publishedAt.value
    {
      assert w[i] == s[offset + i] && w[j] == s[offset + j];
    }
  }

  /** The ordered result before LIMIT/OFFSET. */
  function Unpaged(st: Store, q: SelectQuery): seq<Article> {
    Ordered(Selected(st, q.clauses, q.args), q.order)
  }

  /** A clause on a `uuid` column: `category_id` and `author_id` are typed
      `uuid` in the `articles` table. */
  predicate OnUuidColumn(c: Clause) { c.CategoryIs? || c.AuthorIs? }

  /** Every argument bound to a `uuid` column reads as a uuid. */
  predicate UuidArgsRead(clauses: seq<Clause>, args: seq<Arg>) {
    forall i :: 0 <= i < |clauses| && OnUuidColumn(clauses[i]) ==>
      && 1 <= clauses[i].pos <= |args|
      && args[clauses[i].pos - 1].Text?
      && Uuid.IsUuid(args[clauses[i].pos - 1].s)
  }

  /** An id filter the query can bind: unset, or a uuid. */
  predicate UuidFilter(v: string) { v == "" || Uuid.IsUuid(v) }

  /** Runs `FindAll`'s query. PostgreSQL rejects text bound to a `uuid`
      column that does not read as a uuid, and a negative LIMIT or OFFSET. */
  function RunSelect(st: Store, q: SelectQuery): (r: Result<seq<Article>, Error>)
    requires 1 <= q.limitPos <= |q.args| && 1 <= q.offsetPos <= |q.args|
    ensures r.Ok? ==> UuidArgsRead(q.clauses, q.args)
    ensures r.Ok? ==> forall a :: a in r.value ==> a in Unpaged(st, q)
  {
    var limit := q.args[q.limitPos - 1];
    var offset := q.args[q.offsetPos - 1];
    if !UuidArgsRead(q.clauses, q.args) then Err(LookupFailed)
    else if !limit.Number? || !offset.Number? || limit.n < 0 || offset.n < 0 then Err(LookupFailed)
    else
      var r := Window(Unpaged(st, q), limit.n, offset.n);
      assert forall a :: a in r ==> a in Unpaged(st, q);
      Ok(r)
  }

  /** Runs `Count`'s query. */
  function RunCount(st: Store, q: CountQuery): nat {
    |Selected(st, q.clauses, q.args)|
  }

  /** `FindAll` of the repository: it fails for a category or author filter
      that is not a uuid, and for a negative LIMIT or OFFSET. */
  function FindAll(st: Store, opts: FilterOptions): (r: Result<seq<Article>, Error>)
    ensures r.Ok? <==>
      && opts.limit >= 0 && opts.offset >= 0
      && UuidFilter(opts.categoryId) && UuidFilter(opts.authorId)
    ensures r.Ok? ==> |r.value| <= opts.limit
  {
    UuidArgsReadMeans(opts);
    RunSelect(st, FindAllQuery(opts))
  }

  /** The query's uuid-typed arguments all read exactly when both id
      filters are unset or uuids. */
  lemma UuidArgsReadMeans(opts: FilterOptions)
    ensures var q := FindAllQuery(opts);
      UuidArgsRead(q.clauses, q.args) <==> UuidFilter(opts.categoryId) && UuidFilter(opts.authorId)
  {
    var q := FindAllQuery(opts);
    var w := Where(opts);
    WhereShape(opts);
    if opts.categoryId != "" {
      var i := CategoryClause(opts);
    }
    if opts.authorId != "" {
      var i := AuthorClause(opts);
    }
    BoundUuidArgs(opts, w.0, w.1, q.args);
  }

  /** Over a numbered chain bound to the options and any argument list
      extending it, the uuid-typed arguments read exactly when both id
      filters are unset or uuids, given that a set filter has its clause. */
  lemma BoundUuidArgs(opts: FilterOptions, clauses: seq<Clause>, args: seq<Arg>, more: seq<Arg>)
    requires Numbered(clauses, args) && |args| <= |more| && more[..|args|] == args
    requires forall i :: 0 <= i < |clauses| ==> Bound(opts, clauses[i], args[i])
    requires opts.categoryId != "" ==> exists i :: 0 <= i < |clauses| && clauses[i].CategoryIs?
    requires opts.authorId != "" ==> exists i :: 0 <= i < |clauses| && clauses[i].AuthorIs?
    ensures UuidArgsRead(clauses, more) <==> UuidFilter(opts.categoryId) && UuidFilter(opts.authorId)
  {
    PrefixArgs(args, more);
    if UuidArgsRead(clauses, more) {
      SetFilterRead(opts, clauses, more);
    } else {
      UnreadArg(opts, clauses, more);
    }
  }

  /** An argument on a uuid column that does not read is a set id filter
      that is not a uuid. */
  lemma UnreadArg(opts: FilterOptions, clauses: seq<Clause>, args: seq<Arg>)
    requires |clauses| <= |args| && forall i :: 0 <= i < |clauses| ==> clauses[i].pos == i + 1
    requires forall i :: 0 <= i < |clauses| ==> Bound(opts, clauses[i], args[i])
    requires !UuidArgsRead(clauses, args)
    ensures !(UuidFilter(opts.categoryId) && UuidFilter(opts.authorId))
  {
    var i :| 0 <= i < |clauses| && OnUuidColumn(clauses[i]) &&
      !(args[clauses[i].pos - 1].Text? && Uuid.IsUuid(args[clauses[i].pos - 1].s));
    assert Bound(opts, clauses[i], args[i]);
  }

  /** A set id filter whose clause's argument reads is a uuid. */
  lemma SetFilterRead(opts: FilterOptions, clauses: seq<Clause>, args: seq<Arg>)
    requires |clauses| <= |args| && forall i :: 0 <= i < |clauses| ==> clauses[i].pos == i + 1
    requires forall i :: 0 <= i < |clauses| ==> Bound(opts, clauses[i], args[i])
    requires opts.categoryId != "" ==> exists i :: 0 <= i < |clauses| && clauses[i].CategoryIs?
    requires opts.authorId != "" ==> exists i :: 0 <= i < |clauses| && clauses[i].AuthorIs?
    requires UuidArgsRead(clauses, args)
    ensures UuidFilter(opts.categoryId) && UuidFilter(opts.authorId)
  {
    if opts.categoryId != "" {
      var i :| 0 <= i < |clauses| && clauses[i].CategoryIs?;
      assert Bound(opts, clauses[i], args[i]);
    }
    if opts.authorId != "" {
      var i :| 0 <= i < |clauses| && clauses[i].AuthorIs?;
      assert Bound(opts, clauses[i], args[i]);
    }
  }

  /** An argument list extending another agrees with it on its positions. */
  lemma PrefixArgs(args: seq<Arg>, more: seq<Arg>)
    requires |args| <= |more| && more[..|args|] == args
    ensures forall i :: 0 <= i < |args| ==> more[i] == args[i]
  {
    forall i | 0 <= i < |args| ensures more[i] == args[i] {
      assert more[..|args|][i] == more[i];
    }
  }

  /** With a category filter the chain holds a category clause. */
  lemma CategoryClause(opts: FilterOptions) returns (i: nat)
    requires opts.categoryId != ""
    ensures i < |Where(opts).0| && Where(opts).0[i].CategoryIs?
  {
    var w2 := StatusAndCategory(opts);
    var w3 := AddClause(w2, opts.authorId != "", AuthorIs(|w2.1| + 1), Text(opts.authorId));
    StatusAndCategoryShape(opts);
    i := |w2.0| - 1;
    assert Where(opts).0[..|w3.0|] == w3.0;
    assert w3.0[..|w2.0|] == w2.0;
  }

  /** With an author filter the chain holds an author clause. */
  lemma AuthorClause(opts: FilterOptions) returns (i: nat)
    requires opts.authorId != ""
    ensures i < |Where(opts).0| && Where(opts).0[i].AuthorIs?
  {
    var w2 := StatusAndCategory(opts);
    var w3 := AddClause(w2, opts.authorId != "", AuthorIs(|w2.1| + 1), Text(opts.authorId));
    StatusAndCategoryShape(opts);
    i := |w2.0|;
    assert Where(opts).0[..|w3.0|] == w3.0;
  }

  /** Every row `FindAll` returns is a live row matching the options. */
  lemma FindAllMatches(st: Store, opts: FilterOptions)
    ensures FindAll(st, opts).Ok? ==>
      forall a :: a in FindAll(st, opts).value ==> a in st.articles && Matches(st, opts, a)
  {
    if FindAll(st, opts).Ok? {
      forall a | a in FindAll(st, opts).value
        ensures a in st.articles && Matches(st, opts, a)
      {
        var q := FindAllQuery(opts);
        var c := CountQueryOf(opts);
        var rows := Selected(st, q.clauses, q.args);
        assert a in Unpaged(st, q);
        assert a in multiset(Ordered(rows, q.order));
        var k :| 0 <= k < |rows| && rows[k] == a;
        assert a.Live() && AllHold(st, q.clauses, q.args, a);
        AllHoldExtend(st, c.clauses, c.args, q.args, a);
        WhereMeansMatches(st, opts, a);
      }
    }
  }

  /** `Count` of the repository. */
  function Count(st: Store, opts: FilterOptions): (n: nat)
    ensures n == |Filter(st.articles, (a: Article) => Matches(st, opts, a))|
  {
    SelectedMeansMatches(st, opts);
    RunCount(st, CountQueryOf(opts))
  }

  /** Every page `FindAll` returns is a LIMIT/OFFSET window of one result,
      the ordered rows without LIMIT/OFFSET. */
  lemma FindAllIsWindow(st: Store, opts: FilterOptions)
    ensures FindAll(st, opts).Ok? ==>
      FindAll(st, opts).value == Window(Unpaged(st, FindAllQuery(opts)), opts.limit, opts.offset)
  {
  }

  /** `Count` equals the size of `FindAll`'s result without LIMIT/OFFSET. */
  lemma CountIsUnpagedSize(st: Store, opts: FilterOptions)
    ensures Count(st, opts) == |Unpaged(st, FindAllQuery(opts))|
  {
    var q := FindAllQuery(opts);
    var c := CountQueryOf(opts);
    forall a: Article
      ensures (a.Live() && AllHold(st, c.clauses, c.args, a)) == (a.Live() && AllHold(st, q.clauses, q.args, a))
    {
      AllHoldExtend(st, c.clauses, c.args, q.args, a);
    }
    FilterSame(st.articles, (a: Article) => a.Live() && AllHold(st, c.clauses, c.args, a),
      (a: Article) => a.Live() && AllHold(st, q.clauses, q.args, a));
    var rows := Selected(st, q.clauses, q.args);
    var ordered := Ordered(rows, q.order);
    assert |multiset(ordered)| == |multiset(rows)|;
  }

  /** Binding more arguments after the last placeholder changes no clause. */
  lemma AllHoldExtend(st: Store, clauses: seq<Clause>, args: seq<Arg>, more: seq<Arg>, a: Article)
    requires Numbered(clauses, args) && |args| <= |more| && more[..|args|] == args
    ensures AllHold(st, clauses, args, a) == AllHold(st, clauses, more, a)
  {
    forall i | 0 <= i < |clauses|
      ensures Holds(st, clauses[i], args, a) == Holds(st, clauses[i], more, a)
    {
      assert more[i] == args[i];
    }
  }

  /** The ids of the rows matching the options. */
  function MatchingIds(st: Store, opts: FilterOptions): set<string> {
    set a | a in st.articles && Matches(st, opts, a) :: a.id
  }

  /** `COUNT(DISTINCT a.id)`: with article ids unique, as the primary key
      keeps them, the count is the number of distinct ids among the
      matching rows, so an article counts once however many of its tags
      match. */
  lemma CountDistinct(st: Store, opts: FilterOptions)
    requires forall i, j :: 0 <= i < j < |st.articles| ==> st.articles[i].id != st.articles[j].id
    ensures Count(st, opts) == |MatchingIds(st, opts)|
  {
    var p := (a: Article) => Matches(st, opts, a);
    var f := (a: Article) => a.id;
    Rows.FilterDistinctKeys(st.articles, p, f);
    assert Count(st, opts) == |Filter(st.articles, p)|;
    var ids := Rows.KeysWhere(st.articles, p, f);
    forall id
      ensures id in ids <==> id in MatchingIds(st, opts)
    {
      if id in ids {
        var x :| x in st.articles && p(x) && f(x) == id;
        assert Matches(st, opts, x);
      }
    }
    assert ids == MatchingIds(st, opts);
  }

  /** One article carrying both listed tags counts once. */
  lemma CountTwoTagsOnce()
    ensures var a := Article("a1", "T", "t", "", None, "u", "PUBLISHED", Some(1), 0, 0, None);
      var st := Store([a], [("a1", "t1"), ("a1", "t2")], map["t1" := "go", "t2" := "ai"], map[], [], {}, {});
      Count(st, FilterOptions("", "", "", ["go", "ai"], 10, 0, "")) == 1
  {
    var a := Article("a1", "T", "t", "", None, "u", "PUBLISHED", Some(1), 0, 0, None);
    var st := Store([a], [("a1", "t1"), ("a1", "t2")], map["t1" := "go", "t2" := "ai"], map[], [], {}, {});
    var opts := FilterOptions("", "", "", ["go", "ai"], 10, 0, "");
    assert HasAnyTag(st, "a1", ["go", "ai"]) by {
      assert ("a1", "t1") in st.articleTags && st.tagCodes["t1"] in ["go", "ai"];
    }
    assert Matches(st, opts, a);
    assert [a][1..] == [];
  }

  // ---------------------------------------------------------------------
  // Category and tag counts

  /** The count `GetCategoriesWithCounts` was evidently meant to report: the
      live PUBLISHED articles of the category, the same number the public
      listing reports as its total for that category (category ids are
      never empty, and an empty filter value means "no filter"). */
  function CategoryCount(st: Store, categoryId: string): (n: nat)
    ensures categoryId != "" ==> n == Count(st, FilterOptions("PUBLISHED", categoryId, "", [], 0, 0, "published_at"))
  {
    CategoryFilter(st, categoryId);
    CountWhere(st.articles, (a: Article) => a.Live() && a.categoryId == Some(categoryId) && a.status == "PUBLISHED")
  }

  lemma CategoryFilter(st: Store, categoryId: string)
    ensures categoryId != "" ==>
      Filter(st.articles, (a: Article) => Matches(st, FilterOptions("PUBLISHED", categoryId, "", [], 0, 0, "published_at"), a))
      == Filter(st.articles, (a: Article) => a.Live() && a.categoryId == Some(categoryId) && a.status == "PUBLISHED")
  {
    var opts := FilterOptions("PUBLISHED", categoryId, "", [], 0, 0, "published_at");
    var p := (a: Article) => a.Live() && a.categoryId == Some(categoryId) && a.status == "PUBLISHED";
    if categoryId != "" {
      forall a: Article
        ensures Matches(st, opts, a) == p(a)
      {
        assert opts.status != "" && opts.categoryId != "" && |opts.tags| == 0;
      }
      FilterSame(st.articles, (a: Article) => Matches(st, opts, a), p);
    }
  }

  /** As written, the lower-case literal never matches a status the service
      writes, so every category counts zero. */
  lemma CategoryCountAsWrittenIsZero(st: Store, categoryId: string)
    requires forall i :: 0 <= i < |st.articles| ==> ServiceStatus(st.articles[i].status)
    ensures CategoryCountAsWritten(st, categoryId) == 0
  {
    var p := (a: Article) => a.Live() && a.categoryId == Some(categoryId) && a.status == "published";
    assert forall i :: 0 <= i < |st.articles| ==> !p(st.articles[i]);
    NoneMatch(st.articles, p);
  }

  lemma {:induction false} NoneMatch<T>(s: seq<T>, p: T -> bool)
    requires forall i :: 0 <= i < |s| ==> !p(s[i])
    ensures CountWhere(s, p) == 0
  {
    if s != [] {
      NoneMatch(s[1..], p);
    }
  }

  /** A concrete case: one live PUBLISHED article in category "c" is counted
      once by the corrected query and not at all as written. */
  lemma CategoryCountWitness()
    ensures var a := Article("a1", "T", "t", "", Some("c"), "u", "PUBLISHED", Some(1), 0, 0, None);
      var st := Store([a], [], map[], map[], [], {}, {});
      CategoryCountAsWritten(st, "c") == 0 && CategoryCount(st, "c") == 1
  {
    var a := Article("a1", "T", "t", "", Some("c"), "u", "PUBLISHED", Some(1), 0, 0, None);
    var st := Store([a], [], map[], map[], [], {}, {});
    assert [a][1..] == [];
  }

  /** The tag count evidently meant by `GetTagsWithCounts`: the live
      PUBLISHED articles carrying the tag, which is what the public listing
      filtered by that one tag code counts. */
  function TagCount(st: Store, code: string): (n: nat)
    ensures n == Count(st, FilterOptions("PUBLISHED", "", "", [code], 0, 0, "published_at"))
  {
    TagFilter(st, code);
    CountWhere(st.articles, (a: Article) => a.Live() && a.status == "PUBLISHED" && HasTagCode(st, a.id, code))
  }

  lemma TagFilter(st: Store, code: string)
    ensures Filter(st.articles, (a: Article) => Matches(st, FilterOptions("PUBLISHED", "", "", [code], 0, 0, "published_at"), a))
      == Filter(st.articles, (a: Article) => a.Live() && a.status == "PUBLISHED" && HasTagCode(st, a.id, code))
  {
    var opts := FilterOptions("PUBLISHED", "", "", [code], 0, 0, "published_at");
    var p := (a: Article) => a.Live() && a.status == "PUBLISHED" && HasTagCode(st, a.id, code);
    forall a: Article
      ensures Matches(st, opts, a) == p(a)
    {
      assert opts.status != "" && |opts.tags| == 1;
      assert HasAnyTag(st, a.id, [code]) == HasTagCode(st, a.id, code);
    }
    FilterSame(st.articles, (a: Article) => Matches(st, opts, a), p);
  }

  /** As written, the tag counts are zero for every tag over service-written
      rows. */
  lemma TagCountAsWrittenIsZero(st: Store, code: string)
    requires forall i :: 0 <= i < |st.articles| ==> ServiceStatus(st.articles[i].status)
    ensures TagCountAsWritten(st, code) == 0
  {
    assert (set a | a in st.articles && a.Live() && a.status == "published" && HasTagCode(st, a.id, code) :: a.id) == {};
  }
}

=== FILE: article_service.dfy ===
/** The articles service (`articles/service.go`): slug generation and the
    uniqueness probe in `Create` and `Update`, status defaulting and
    validation, `Publish`, the listing calls that pair `FindAll` with
    `Count`, and the guards in `Search` and `AddComment`. The clock and the
    ids the database generates are parameters. */
module ArticleService {
  import opened Wrappers
  import opened Rows
  import opened Slug
  import opened ArticleStore
  import opened ArticleQuery
  import Preview
  import Text

  // ---------------------------------------------------------------------
  // The slug probe

  /** What the lookup of one candidate tells the probe. */
  datatype Lookup = LookupError | Free | Taken

  /** Looks a candidate up: a failing query, no live row or the article
      being saved itself (`owner`; `None` while creating), or another live
      row. */
  function Look(st: Store, slug: string, owner: Option<string>): Lookup {
    match FindBySlug(st, slug)
    case Err(_) => LookupError
    case Ok(None) => Free
    case Ok(Some(row)) => if owner.Some? && row.id == owner.value then Free else Taken
  }

  predicate Blocked(st: Store, slug: string, owner: Option<string>) {
    Look(st, slug, owner) == Taken
  }

  /** The candidates probed before position i. */
  function Tried(base: string, i: nat): set<string> {
    if i == 0 then {} else Tried(base, i - 1) + {Candidate(base, i - 1)}
  }

  lemma TriedNext(base: string, i: nat)
    ensures Tried(base, i + 1) == Tried(base, i) + {Candidate(base, i)}
  {
  }

  /** A candidate has been tried before position i exactly when its own
      position is below i. */
  lemma {:induction false} TriedHolds(base: string, i: nat, j: nat)
    ensures Candidate(base, j) in Tried(base, i) <==> j < i
  {
    if i > 0 {
      TriedHolds(base, i - 1, j);
      if j != i - 1 {
        CandidateInjective(base, j, i - 1);
      }
    }
  }

  /** Where the probe stopped: at the first usable candidate, or at the
      first candidate whose lookup failed. */
  datatype ProbeEnd = Found(at: nat) | Faulted(at: nat)

  /** A blocked candidate is a held slug not tried before, so each step
      shrinks the set of held slugs not yet tried. */
  lemma ProbeShrinks(st: Store, base: string, i: nat, owner: Option<string>)
    requires Blocked(st, Candidate(base, i), owner)
    ensures |HeldSlugs(st) - Tried(base, i + 1)| < |HeldSlugs(st) - Tried(base, i)|
  {
    var c := Candidate(base, i);
    FoundSlugIsHeld(st, c);
    TriedNext(base, i);
    TriedHolds(base, i, i);
    var before := HeldSlugs(st) - Tried(base, i);
    assert HeldSlugs(st) - Tried(base, i + 1) == before - {c};
    assert c in before;
  }

  /** A blocked candidate in front of a blocked run extends the run. */
  lemma BlockedRunExtends(st: Store, base: string, owner: Option<string>, i: nat, end: nat)
    requires Blocked(st, Candidate(base, i), owner)
    requires forall j :: i + 1 <= j < end ==> Blocked(st, Candidate(base, j), owner)
    ensures forall j :: i <= j < end ==> Blocked(st, Candidate(base, j), owner)
  {
  }

  /** The loop `for i := 0; ; i++` from position i: looks each candidate up
      and stops at the first one that is free (or owned), or at the first
      failing lookup. */
  function Probe(st: Store, base: string, owner: Option<string>, i: nat): (e: ProbeEnd)
    ensures e.at >= i
    ensures forall j :: i <= j < e.at ==> Blocked(st, Candidate(base, j), owner)
    ensures e.Found? <==> Look(st, Candidate(base, e.at), owner) == Free
    ensures e.Faulted? <==> Look(st, Candidate(base, e.at), owner) == LookupError
    decreases |HeldSlugs(st) - Tried(base, i)|
  {
    match Look(st, Candidate(base, i), owner)
    case LookupError => Faulted(i)
    case Free => Found(i)
    case Taken =>
      ProbeShrinks(st, base, i, owner);
      var e := Probe(st, base, owner, i + 1);
      BlockedRunExtends(st, base, owner, i, e.at);
      e
  }

  /** The probe's result is determined by where it stops: any position
      before which every candidate is blocked and at which the candidate is
      usable or failing is that position. */
  lemma ProbeUnique(st: Store, base: string, owner: Option<string>, k: nat)
    requires forall j :: 0 <= j < k ==> Blocked(st, Candidate(base, j), owner)
    requires Look(st, Candidate(base, k), owner) == Free
    ensures Probe(st, base, owner, 0) == Found(k)
  {
    var e := Probe(st, base, owner, 0);
    assert e.at <= k;
    assert e.at >= k;
  }

  /** No live row holds a slug the create probe settles on. */
  lemma CreateProbeFree(st: Store, base: string)
    requires Probe(st, base, None, 0).Found?
    ensures Candidate(base, Probe(st, base, None, 0).at) !in HeldSlugs(st)
  {
    var slug := Candidate(base, Probe(st, base, None, 0).at);
    assert FindBySlug(st, slug).value.None?;
    if slug in HeldSlugs(st) {
      var i :| 0 <= i < |st.articles| && st.articles[i].Live() && st.articles[i].slug == slug;
      assert LiveWithSlug(st.articles[i], slug);
    }
  }

  /** The slug a save writes: the given one, or the probed one. */
  function ChooseSlug(st: Store, title: string, owner: Option<string>): (r: Result<string, Error>)
    ensures r.Ok? ==> r.value == Candidate(GenerateSlug(title), Probe(st, GenerateSlug(title), owner, 0).at)
    ensures r.Err? <==> Probe(st, GenerateSlug(title), owner, 0).Faulted?
    ensures r.Ok? && owner.None? ==> r.value !in HeldSlugs(st)
  {
    var base := GenerateSlug(title);
    match Probe(st, base, owner, 0)
    case Faulted(_) => Err(LookupFailed)
    case Found(k) =>
      if owner.None? then CreateProbeFree(st, base); Ok(Candidate(base, k))
      else Ok(Candidate(base, k))
  }

  // ---------------------------------------------------------------------
  // Create, Update, Publish

  /** `Create`: an empty status becomes DRAFT; an empty slug is generated
      from the title and probed; the status is validated only after the
      probe; then the row is inserted. */
  function Create(st: Store, a: Article, id: string, now: int): (r: Result<(Store, Article), Error>)
    ensures r.Ok? ==> ValidStatus(r.value.1.status)
    ensures r.Ok? && a.status == "" ==> r.value.1.status == "DRAFT"
    ensures r.Ok? && a.status != "" ==> r.value.1.status == a.status
    ensures r.Ok? && a.slug != "" ==> r.value.1.slug == a.slug
    ensures r.Ok? && a.slug == "" ==> r.value.1.slug !in HeldSlugs(st)
    ensures r.Ok? ==> r.value.0 == st.(articles := st.articles + [r.value.1])
    ensures r.Ok? ==> r.value.1.id == id && r.value.1.Live() && r.value.1.createdAt == now
    ensures r.Ok? ==> !IdTaken(st, id)
    ensures a.status != "" && !ValidStatus(a.status) ==> r.Err?
    ensures a.slug != "" ==> (r == Err(InvalidStatus) <==> a.status != "" && !ValidStatus(a.status))
  {
    var status := if a.status == "" then "DRAFT" else a.status;
    var slug := if a.slug != "" then Ok(a.slug) else ChooseSlug(st, a.title, None);
    if slug.Err? then Err(slug.error)
    else if !ValidStatus(status) then Err(InvalidStatus)
    else
      Insert(st, a.(status := status, slug := slug.value), id, now)
  }

  /** No two live rows share a slug. */
  predicate UniqueSlugs(st: Store) {
    forall i, j :: 0 <= i < j < |st.articles| && st.articles[i].Live() && st.articles[j].Live()
      ==> st.articles[i].slug != st.articles[j].slug
  }

  /** Creating with a generated slug keeps live slugs unique (for
      one-at-a-time saves; the probe is check-then-act). */
  lemma CreateKeepsSlugsUnique(st: Store, a: Article, id: string, now: int)
    requires UniqueSlugs(st) && a.slug == ""
    requires Create(st, a, id, now).Ok?
    ensures UniqueSlugs(Create(st, a, id, now).value.0)
  {
    var r := Create(st, a, id, now).value;
    AppendKeepsSlugsUnique(st, r.1);
  }

  /** A live row whose slug no live row holds can be appended without
      breaking slug uniqueness. */
  lemma AppendKeepsSlugsUnique(st: Store, row: Article)
    requires UniqueSlugs(st) && row.slug !in HeldSlugs(st)
    ensures UniqueSlugs(st.(articles := st.articles + [row]))
  {
    var rows := st.articles + [row];
    var n := |st.articles|;
    forall i, j | 0 <= i < j < |rows| && rows[i].Live() && rows[j].Live()
      ensures rows[i].slug != rows[j].slug
    {
      assert rows[i] == st.articles[i];
      if j == n {
        assert st.articles[i].slug in HeldSlugs(st);
      } else {
        assert rows[j] == st.articles[j];
      }
    }
  }

  /** `Update`: the status must be empty or valid before anything else; with
      an empty slug and a non-empty title the slug is regenerated and probed,
      where the article's own row does not block; then the row is rewritten.
      An empty title with an empty slug writes the empty slug. An empty
      status passes the service but not the table's CHECK constraint. */
  function Update(st: Store, id: string, a: Article, now: int): (r: Result<Store, Error>)
    ensures a.status != "" && !ValidStatus(a.status) ==> r == Err(InvalidStatus)
    ensures r.Ok? ==> ValidStatus(a.status)
    ensures r.Ok? ==> HasLiveId(st, id)
    ensures r.Ok? && (a.slug != "" || a.title == "") ==> r.value == ArticleStore.Update(st, id, a, now).value
    ensures r.Ok? && a.slug == "" && a.title != "" ==>
      var e := Probe(st, GenerateSlug(a.title), Some(id), 0);
      e.Found? && r.value == ArticleStore.Update(st, id, a.(slug := Candidate(GenerateSlug(a.title), e.at)), now).value
  {
    if a.status != "" && !ValidStatus(a.status) then Err(InvalidStatus)
    else
      var slug := if a.slug == "" && a.title != "" then ChooseSlug(st, a.title, Some(id)) else Ok(a.slug);
      if slug.Err? then Err(slug.error)
      else ArticleStore.Update(st, id, a.(slug := slug.value), now)
  }

  /** `Publish`: loads the live row and writes it back with status PUBLISHED
      and published_at set to now; a missing row is "article not found". */
  function Publish(st: Store, id: string, now: int): (r: Result<Store, Error>)
    ensures r == Err(NotFound) <==> id !in st.failingIds && !HasLiveId(st, id)
    ensures r == Err(LookupFailed) <==> id in st.failingIds
    ensures r.Ok? <==> id !in st.failingIds && HasLiveId(st, id)
  {
    match FindByID(st, id)
    case Err(e) => Err(e)
    case Ok(None) => Err(NotFound)
    case Ok(Some(row)) =>
      ArticleStore.Update(st, id, row.(status := "PUBLISHED", publishedAt := Some(now)), now)
  }

  /** After `Publish` the article reads back PUBLISHED with published_at
      now, and its slug, title, body, category and author are unchanged. */
  lemma PublishReadBack(st: Store, id: string, now: int)
    requires Publish(st, id, now).Ok?
    ensures var before := FindByID(st, id).value.value;
      var after := FindByID(Publish(st, id, now).value, id);
      && after.Ok? && after.value.Some?
      && after.value.value.status == "PUBLISHED"
      && after.value.value.publishedAt == Some(now)
      && after.value.value.slug == before.slug
      && after.value.value.title == before.title
      && after.value.value.body == before.body
      && after.value.value.categoryId == before.categoryId
      && after.value.value.authorId == before.authorId
  {
    var row := FindByID(st, id).value.value;
    UpdateReadBack(st, id, row.(status := "PUBLISHED", publishedAt := Some(now)), now);
  }

  // ---------------------------------------------------------------------
  // Listing

  /** The service's `FindAll`: one set of filter options serves both the
      page query and the count. */
  function List(st: Store, status: string, categoryId: string, authorId: string, tags: seq<string>,
                limit: int, offset: int): (r: Result<(seq<Article>, nat), Error>)
    ensures r.Ok? <==> limit >= 0 && offset >= 0 && UuidFilter(categoryId) && UuidFilter(authorId)
    ensures r.Ok? ==> |r.value.0| <= limit
    ensures r.Ok? ==> var opts := FilterOptions(status, categoryId, authorId, tags, limit, offset, "");
      && r.value.1 == |Unpaged(st, FindAllQuery(opts))|
      && r.value.0 == Window(Unpaged(st, FindAllQuery(opts)), limit, offset)
  {
    var opts := FilterOptions(status, categoryId, authorId, tags, limit, offset, "");
    CountIsUnpagedSize(st, opts);
    FindAllIsWindow(st, opts);
    match FindAll(st, opts)
    case Err(e) => Err(e)
    case Ok(rows) => Ok((rows, Count(st, opts)))
  }

  /** The options of the public listing. */
  function PublicOptions(categoryId: string, tags: seq<string>, limit: int, offset: int): FilterOptions {
    FilterOptions("PUBLISHED", categoryId, "", tags, limit, offset, "published_at")
  }

  /** Each row with its body replaced by the preview. */
  function Previews(markup: string -> string, rows: seq<Article>): (r: seq<Article>)
    ensures |r| == |rows|
    ensures forall i :: 0 <= i < |rows| ==> r[i] == rows[i].(body := Preview.GeneratePreview(markup, rows[i].body))
  {
    seq(|rows|, i requires 0 <= i < |rows| => rows[i].(body := Preview.GeneratePreview(markup, rows[i].body)))
  }

  /** `GetPublicArticles`: the LIMIT/OFFSET page of the PUBLISHED rows in
      published_at order (undated rows first, then latest first), each
      body replaced by its preview; the total counts every matching row. */
  function PublicArticles(st: Store, markup: string -> string, categoryId: string, tags: seq<string>,
                          limit: int, offset: int): (r: Result<(seq<Article>, nat), Error>)
    ensures r.Ok? <==> limit >= 0 && offset >= 0 && UuidFilter(categoryId)
    ensures r.Ok? ==> var opts := PublicOptions(categoryId, tags, limit, offset);
      r.value.0 == Previews(markup, Window(Unpaged(st, FindAllQuery(opts)), limit, offset))
    ensures r.Ok? ==> r.value.1 == Count(st, PublicOptions(categoryId, tags, limit, offset))
    ensures r.Ok? ==> forall i :: 0 <= i < |r.value.0| ==> r.value.0[i].status == "PUBLISHED"
    ensures r.Ok? ==> PublishedOrder(r.value.0)
  {
    var opts := PublicOptions(categoryId, tags, limit, offset);
    match FindAll(st, opts)
    case Err(e) => Err(e)
    case Ok(rows) =>
      PublicRows(st, opts, rows);
      Ok((Previews(markup, rows), Count(st, opts)))
  }

  /** The rows of the public query are PUBLISHED, form the window of the
      unpaged result, and come in published_at order. */
  lemma PublicRows(st: Store, opts: FilterOptions, rows: seq<Article>)
    requires opts.status == "PUBLISHED" && opts.sortBy == "published_at"
    requires FindAll(st, opts) == Ok(rows)
    ensures forall i :: 0 <= i < |rows| ==> rows[i].status == "PUBLISHED"
    ensures rows == Window(Unpaged(st, FindAllQuery(opts)), opts.limit, opts.offset)
    ensures PublishedOrder(rows)
  {
    FindAllMatches(st, opts);
    forall i | 0 <= i < |rows|
      ensures rows[i].status == "PUBLISHED"
    {
      assert rows[i] in rows;
    }
    CountIsUnpagedSize(st, opts);
    FindAllIsWindow(st, opts);
    WindowPublishedOrder(Unpaged(st, FindAllQuery(opts)), opts.limit, opts.offset);
  }

  // ---------------------------------------------------------------------
  // Guards

  /** The UTF-8 length of one character. */
  function Utf8Width(c: char): (n: nat)
    ensures 1 <= n <= 4
  {
    if c as int < 0x80 then 1 else if c as int < 0x800 then 2 else if c as int < 0x10000 then 3 else 4
  }

  /** `len(s)` in Go: the number of UTF-8 bytes. */
  function Utf8Len(s: string): (n: nat)
    ensures |s| <= n <= 4 * |s|
  {
    if s == [] then 0 else Utf8Width(s[0]) + Utf8Len(s[1..])
  }

  /** `Search`: a query shorter than two bytes fails before the search
      runs; otherwise the search's own outcome, which this model takes as
      a parameter, is returned. */
  function Search<R>(query: string, backend: Result<R, Error>): (r: Result<R, Error>)
    ensures Utf8Len(query) < 2 ==> r == Err(QueryTooShort)
    ensures Utf8Len(query) >= 2 ==> r == backend
  {
    if Utf8Len(query) < 2 then Err(QueryTooShort) else backend
  }

  /** A single non-ASCII letter is already two bytes, so it is searched;
      a single ASCII letter is too short. */
  lemma SearchByteLength()
    ensures Search("я", Ok(1)) == Ok(1)
    ensures Search("a", Ok(1)) == Err(QueryTooShort)
  {
  }

  /** `AddComment`: an empty body fails before the store is touched; then
      the insert's own error, if any, is returned. */
  function AddComment(st: Store, articleId: string, userId: string, body: string, id: string, now: int)
    : (r: Result<(Store, Comment), Error>)
    ensures body == "" ==> r == Err(EmptyComment)
    ensures r.Err? <==> body == "" || articleId in st.failingIds
    ensures r.Ok? ==> r.value.1 == Comment(id, articleId, userId, body, now)
    ensures r.Ok? ==> r.value.0.comments == st.comments + [r.value.1]
    ensures r.Ok? ==> r.value.0.articles == st.articles && r.value.0.likes == st.likes
  {
    if body == "" then Err(EmptyComment)
    else
      var c := Comment(id, articleId, userId, body, now);
      match ArticleStore.AddComment(st, c)
      case Err(e) => Err(e)
      case Ok(st1) => Ok((st1, c))
  }

  /** A stored comment shows up in its article's listing: the listing
      gains exactly that one comment, and other articles' listings are
      unchanged. */
  lemma CommentListed(st: Store, articleId: string, userId: string, body: string, id: string, now: int,
                      other: string)
    requires AddComment(st, articleId, userId, body, id, now).Ok?
    requires other != articleId
    ensures var (st2, c) := AddComment(st, articleId, userId, body, id, now).value;
      && multiset(GetComments(st2, articleId)) == multiset(GetComments(st, articleId)) + multiset{c}
      && multiset(GetComments(st2, other)) == multiset(GetComments(st, other))
  {
    var (st2, c) := AddComment(st, articleId, userId, body, id, now).value;
    CommentsAfterAppend(st, st2, c, articleId);
    CommentsAfterAppend(st, st2, c, other);
  }

  /** Appending one comment adds it to its own article's listing and to
      no other. */
  lemma CommentsAfterAppend(st: Store, st2: Store, c: Comment, articleId: string)
    requires st2.comments == st.comments + [c]
    ensures multiset(GetComments(st2, articleId)) ==
      multiset(GetComments(st, articleId)) + (if c.articleId == articleId then multiset{c} else multiset{})
  {
    FilterAppend(st.comments, [c], (x: Comment) => x.articleId == articleId);
  }

  // ---------------------------------------------------------------------
  // The saves the integration tests walk through

  /** A store with no rows and no failing lookups. */
  function EmptyStore(): (st: Store)
    ensures HeldSlugs(st) == {}
  {
    Store([], [], map[], map[], [], {}, {})
  }

  /** When the live rows hold exactly the first k candidates and no lookup
      fails, a create probe settles on candidate k. */
  lemma ProbePastRun(st: Store, base: string, k: nat)
    requires st.failingSlugs == {}
    requires HeldSlugs(st) == Tried(base, k)
    ensures Probe(st, base, None, 0) == Found(k)
  {
    forall j | 0 <= j < k
      ensures Blocked(st, Candidate(base, j), None)
    {
      var c := Candidate(base, j);
      TriedHolds(base, k, j);
      var i :| 0 <= i < |st.articles| && st.articles[i].Live() && st.articles[i].slug == c;
      assert LiveWithSlug(st.articles[i], c);
    }
    var c := Candidate(base, k);
    TriedHolds(base, k, k);
    assert Look(st, c, None) == Free by {
      var f := FindBySlug(st, c);
      if f.value.Some? {
        FoundSlugIsHeld(st, c);
      }
    }
    ProbeUnique(st, base, None, k);
  }

  /** Appending a live row adds its slug to the held slugs. */
  lemma HeldSlugsAppend(st: Store, row: Article)
    requires row.Live()
    ensures HeldSlugs(st.(articles := st.articles + [row])) == HeldSlugs(st) + {row.slug}
  {
    var st2 := st.(articles := st.articles + [row]);
    assert st2.articles[|st.articles|] == row;
    forall x | x in HeldSlugs(st)
      ensures x in HeldSlugs(st2)
    {
      var i :| 0 <= i < |st.articles| && st.articles[i].Live() && st.articles[i].slug == x;
      assert st2.articles[i] == st.articles[i];
    }
  }

  /** One create in a table whose live rows hold exactly the first k
      candidates takes candidate k, and then they hold the first k + 1. */
  lemma CreateNext(st: Store, a: Article, id: string, now: int, k: nat)
    requires a.slug == "" && ValidStatus(a.status)
    requires st.failingSlugs == {} && !IdTaken(st, id)
    requires HeldSlugs(st) == Tried(GenerateSlug(a.title), k)
    ensures Create(st, a, id, now).Ok?
    ensures Create(st, a, id, now).value.1.slug == Candidate(GenerateSlug(a.title), k)
    ensures var st2 := Create(st, a, id, now).value.0;
      st2.failingSlugs == {} && HeldSlugs(st2) == Tried(GenerateSlug(a.title), k + 1)
  {
    var base := GenerateSlug(a.title);
    var row := a.(slug := Candidate(base, k), id := id, createdAt := now, updatedAt := now, deletedAt := None);
    var st2 := st.(articles := st.articles + [row]);
    assert Create(st, a, id, now) == Ok((st2, row)) by {
      ProbePastRun(st, base, k);
    }
    assert HeldSlugs(st2) == Tried(base, k + 1) by {
      HeldSlugsAppend(st, row);
      TriedNext(base, k);
    }
  }

  /** Taking an id that differs from every other keeps those others free. */
  lemma IdStaysFree(st: Store, row: Article, id: string)
    requires !IdTaken(st, id) && row.id != id
    ensures !IdTaken(st.(articles := st.articles + [row]), id)
  {
    var st2 := st.(articles := st.articles + [row]);
    forall i | 0 <= i < |st2.articles|
      ensures st2.articles[i].id != id
    {
      if i < |st.articles| {
        assert st2.articles[i] == st.articles[i];
      }
    }
  }

  /** No two ids of the list are equal. */
  predicate Distinct(ids: seq<string>) {
    ids == [] || (ids[0] !in ids[1..] && Distinct(ids[1..]))
  }

  /** No row of the table carries any id of the list. */
  predicate IdsFree(st: Store, ids: seq<string>) {
    ids == [] || (!IdTaken(st, ids[0]) && IdsFree(st, ids[1..]))
  }

  /** Appending a row whose id is not in the list keeps the list free. */
  lemma {:induction false} IdsStayFree(st: Store, row: Article, ids: seq<string>)
    requires IdsFree(st, ids) && row.id !in ids
    ensures IdsFree(st.(articles := st.articles + [row]), ids)
  {
    if ids != [] {
      IdStaysFree(st, row, ids[0]);
      IdsStayFree(st, row, ids[1..]);
    }
  }

  /** Creates the same article once for every id, in order, returning the
      final table and the slug each save took; the first failing save ends
      the run. */
  function CreateAll(st: Store, a: Article, ids: seq<string>, now: int): (r: Result<(Store, seq<string>), Error>)
    ensures r.Ok? ==> |r.value.1| == |ids|
    decreases |ids|
  {
    if ids == [] then Ok((st, []))
    else match Create(st, a, ids[0], now)
      case Err(e) => Err(e)
      case Ok((st1, row)) =>
        match CreateAll(st1, a, ids[1..], now)
        case Err(e) => Err(e)
        case Ok((st2, slugs)) => Ok((st2, [row.slug] + slugs))
  }

  /** The n candidates from position k on, in probe order. */
  function Candidates(base: string, k: nat, n: nat): (r: seq<string>)
    ensures |r| == n
    decreases n
  {
    if n == 0 then [] else [Candidate(base, k)] + Candidates(base, k + 1, n - 1)
  }

  /** Saving one title again and again under fresh ids: when the live rows
      hold exactly the first k candidates, the saves take candidates k,
      k + 1, ... in turn. */
  lemma {:induction false} DuplicateCreates(st: Store, a: Article, ids: seq<string>, now: int, k: nat)
    requires a.slug == "" && ValidStatus(a.status)
    requires st.failingSlugs == {} && HeldSlugs(st) == Tried(GenerateSlug(a.title), k)
    requires Distinct(ids) && IdsFree(st, ids)
    ensures CreateAll(st, a, ids, now).Ok?
    ensures CreateAll(st, a, ids, now).value.1 == Candidates(GenerateSlug(a.title), k, |ids|)
    decreases |ids|
  {
    if ids != [] {
      var base := GenerateSlug(a.title);
      var c := Create(st, a, ids[0], now);
      assert c.Ok? && c.value.1.slug == Candidate(base, k)
        && c.value.0.failingSlugs == {} && HeldSlugs(c.value.0) == Tried(base, k + 1)
        && c.value.0 == st.(articles := st.articles + [c.value.1]) && c.value.1.id == ids[0] by {
        CreateNext(st, a, ids[0], now, k);
      }
      var st1 := c.value.0;
      assert IdsFree(st1, ids[1..]) by {
        IdsStayFree(st, c.value.1, ids[1..]);
      }
      var rest := CreateAll(st1, a, ids[1..], now);
      assert rest.Ok? && rest.value.1 == Candidates(base, k + 1, |ids[1..]|) by {
        DuplicateCreates(st1, a, ids[1..], now, k + 1);
      }
      assert |ids[1..]| == |ids| - 1;
    }
  }

  /** The first three candidates: the base, then `-1` and `-2`. */
  lemma FirstThreeCandidates(base: string)
    ensures Candidates(base, 0, 3) == [base, base + "-1", base + "-2"]
  {
    assert Candidates(base, 2, 1) == [Candidate(base, 2)];
    assert Candidates(base, 1, 2) == [Candidate(base, 1), Candidate(base, 2)];
    CandidateOneTwo(base);
  }

  /** Re-saving an article with an empty slug under a title whose slug no
      other live row holds writes exactly that slug, with no suffix: the
      article's own row never blocks it ("Original Title" keeps
      `original-title`). */
  lemma UpdateOwnSlug(st: Store, id: string, a: Article, now: int)
    requires a.slug == "" && a.title != "" && (a.status == "" || ValidStatus(a.status))
    requires GenerateSlug(a.title) !in st.failingSlugs
    requires HasLiveId(st, id)
    requires forall i :: 0 <= i < |st.articles| && LiveWithSlug(st.articles[i], GenerateSlug(a.title)) ==>
      st.articles[i].id == id
    ensures Update(st, id, a, now).Ok? <==> ValidStatus(a.status)
    ensures ValidStatus(a.status) ==>
      Update(st, id, a, now).value == ArticleStore.Update(st, id, a.(slug := GenerateSlug(a.title)), now).value
  {
    var base := GenerateSlug(a.title);
    assert Look(st, Candidate(base, 0), Some(id)) == Free by {
      var f := FindBySlug(st, base);
      if f.value.Some? {
        var k := FirstIndex(st.articles, SlugIs(base)).value;
        assert f.value.value == st.articles[k];
      }
    }
    ProbeUnique(st, base, Some(id), 0);
    assert ChooseSlug(st, a.title, Some(id)) == Ok(base);
  }

  /** Three different ids no row carries. */
  lemma ThreeIds(st: Store, x: string, y: string, z: string)
    requires x != y && x != z && y != z
    requires !IdTaken(st, x) && !IdTaken(st, y) && !IdTaken(st, z)
    ensures Distinct([x, y, z]) && IdsFree(st, [x, y, z])
  {
    assert [x, y, z][1..] == [y, z] && [y, z][1..] == [z] && [z][1..] == [];
    assert Distinct([z]) && IdsFree(st, [z]);
    assert Distinct([y, z]) && IdsFree(st, [y, z]);
  }

  /** Three saves of one title under three different fresh ids, in a table
      holding no slug, get the base slug, then `-1`, then `-2` (for
      "Duplicate Title": `duplicate-title`, `duplicate-title-1`,
      `duplicate-title-2`). */
  lemma ThreeDuplicateCreates(st: Store, a: Article, x: string, y: string, z: string, now: int)
    requires a.slug == "" && a.status == "DRAFT"
    requires st.failingSlugs == {} && HeldSlugs(st) == {}
    requires x != y && x != z && y != z
    requires !IdTaken(st, x) && !IdTaken(st, y) && !IdTaken(st, z)
    ensures var base := GenerateSlug(a.title);
      var r := CreateAll(st, a, [x, y, z], now);
      r.Ok? && r.value.1 == [base, base + "-1", base + "-2"]
  {
    var base := GenerateSlug(a.title);
    var ids := [x, y, z];
    assert HeldSlugs(st) == Tried(base, 0);
    ThreeIds(st, x, y, z);
    DuplicateCreates(st, a, ids, now, 0);
    assert |ids| == 3;
    FirstThreeCandidates(base);
  }
}

=== FILE: article_store.dfy ===
/** The articles repository (`articles/repository.go`) over in-memory
    tables: the `articles` rows in table order, the `article_tags`
    association rows, the `tags` id-to-code column, the `article_likes`
    upsert table and the `comments` rows. Timestamps are integers supplied
    by the caller in place of `NOW()`, and ids the database would generate
    are parameters too. */
module ArticleStore {
  import opened Wrappers
  import opened Rows
  import Sorting

  datatype Article = Article(
    id: string,
    title: string,
    slug: string,
    body: string,
    categoryId: Option<string>,
    authorId: string,
    status: string,
    publishedAt: Option<int>,
    createdAt: int,
    updatedAt: int,
    deletedAt: Option<int>)
  {
    /** Not soft-deleted. */
    predicate Live() { deletedAt.None? }
  }

  datatype Comment = Comment(id: string, articleId: string, userId: string, body: string, createdAt: int)

  datatype Store = Store(
    articles: seq<Article>,
    /** `article_tags` rows: (article_id, tag_id). */
    articleTags: seq<(string, string)>,
    /** The `tags` table as far as the joins need it: id to code. */
    tagCodes: map<string, string>,
    /** `article_likes`: (article_id, user_id) to is_like. */
    likes: map<(string, string), bool>,
    comments: seq<Comment>,
    /** Slugs and article ids whose queries fail (a driver or connection
        error): lookups by them, and the comment insert under such an id. */
    failingSlugs: set<string>,
    failingIds: set<string>)

  /** Errors of the repository and of the service above it. */
  datatype Error =
    | NoRows            // sql.ErrNoRows
    | DuplicateKey      // primary-key violation on insert
    | LookupFailed      // any other query error
    | InvalidStatus     // "invalid status: must be DRAFT, PUBLISHED, or ARCHIVED"
    | NotFound          // "article not found"
    | QueryTooShort     // "query too short"
    | EmptyComment      // "comment body cannot be empty"
    | ForeignKeyViolation // an association row naming no `articles` or `tags` row
    | CheckViolation    // a status the `articles` CHECK constraint does not admit

  /** The statuses the `articles.status` CHECK constraint admits. */
  predicate ValidStatus(s: string) {
    s == "DRAFT" || s == "PUBLISHED" || s == "ARCHIVED"
  }

  predicate LiveWithId(a: Article, id: string) { a.Live() && a.id == id }
  predicate LiveWithSlug(a: Article, slug: string) { a.Live() && a.slug == slug }

  /** The row conditions the lookups search with. */
  function IdIs(id: string): Article -> bool { a => LiveWithId(a, id) }
  function SlugIs(slug: string): Article -> bool { a => LiveWithSlug(a, slug) }

  predicate HasLiveId(st: Store, id: string) {
    exists i :: 0 <= i < |st.articles| && LiveWithId(st.articles[i], id)
  }

  /** Some row, live or deleted, already uses the id. */
  predicate IdTaken(st: Store, id: string) {
    exists i :: 0 <= i < |st.articles| && st.articles[i].id == id
  }

  // ---------------------------------------------------------------------
  // Lookups

  /** `FindByID`: the live row with that id; a missing row is `Ok(None)`. */
  function FindByID(st: Store, id: string): (r: Result<Option<Article>, Error>)
    ensures r.Err? <==> id in st.failingIds
    ensures r.Ok? && r.value.Some? ==> r.value.value in st.articles && LiveWithId(r.value.value, id)
    ensures r.Ok? && r.value.None? <==> id !in st.failingIds && !HasLiveId(st, id)
  {
    if id in st.failingIds then Err(LookupFailed)
    else Ok(First(st.articles, IdIs(id)))
  }

  /** `FindBySlug`: the first live row holding the slug. */
  function FindBySlug(st: Store, slug: string): (r: Result<Option<Article>, Error>)
    ensures r.Err? <==> slug in st.failingSlugs
    ensures r.Ok? && r.value.Some? ==> r.value.value in st.articles && LiveWithSlug(r.value.value, slug)
    ensures r.Ok? && r.value.None? ==>
      forall i :: 0 <= i < |st.articles| ==> !LiveWithSlug(st.articles[i], slug)
  {
    if slug in st.failingSlugs then Err(LookupFailed)
    else Ok(First(st.articles, SlugIs(slug)))
  }

  /** The slugs live rows hold. */
  function HeldSlugs(st: Store): set<string> {
    set i | 0 <= i < |st.articles| && st.articles[i].Live() :: st.articles[i].slug
  }

  /** A successful slug lookup that finds a row names a held slug. */
  lemma FoundSlugIsHeld(st: Store, slug: string)
    requires FindBySlug(st, slug).Ok? && FindBySlug(st, slug).value.Some?
    ensures slug in HeldSlugs(st)
  {
    var k := FirstIndex(st.articles, SlugIs(slug)).value;
    assert st.articles[k].Live() && st.articles[k].slug == slug;
  }

  // ---------------------------------------------------------------------
  // Writes

  /** `Create`: the INSERT with the database-assigned id and timestamps.
      The status CHECK is evaluated before the primary key. */
  function Insert(st: Store, a: Article, id: string, now: int): (r: Result<(Store, Article), Error>)
    ensures r.Err? <==> !ValidStatus(a.status) || IdTaken(st, id)
    ensures !ValidStatus(a.status) ==> r == Err(CheckViolation)
    ensures r.Ok? ==> r.value.0.articles == st.articles + [r.value.1]
    ensures r.Ok? ==> r.value.0 == st.(articles := r.value.0.articles)
    ensures r.Ok? ==> var row := r.value.1;
      && row.id == id && row.Live() && row.createdAt == now && row.updatedAt == now
      && row.title == a.title && row.slug == a.slug && row.body == a.body
      && row.categoryId == a.categoryId && row.authorId == a.authorId
      && row.status == a.status && row.publishedAt == a.publishedAt
  {
    if !ValidStatus(a.status) then Err(CheckViolation)
    else if IdTaken(st, id) then Err(DuplicateKey)
    else
      var row := a.(id := id, createdAt := now, updatedAt := now, deletedAt := None);
      Ok((st.(articles := st.articles + [row]), row))
  }

  /** The columns `Update` writes. */
  function Assign(row: Article, a: Article, now: int): Article {
    row.(title := a.title, slug := a.slug, body := a.body, categoryId := a.categoryId,
         status := a.status, publishedAt := a.publishedAt, updatedAt := now)
  }

  /** `Update`: rewrites the live row with that id; no such row is
      `sql.ErrNoRows` from the RETURNING scan, and a status outside the
      CHECK constraint rejects the matched row. */
  function Update(st: Store, id: string, a: Article, now: int): (r: Result<Store, Error>)
    ensures r.Err? <==> !HasLiveId(st, id) || !ValidStatus(a.status)
    ensures r == Err(NoRows) <==> !HasLiveId(st, id)
    ensures r.Ok? ==> |r.value.articles| == |st.articles|
    ensures r.Ok? ==> forall i :: 0 <= i < |st.articles| && !LiveWithId(st.articles[i], id) ==>
      r.value.articles[i] == st.articles[i]
    ensures r.Ok? ==> r.value == st.(articles := r.value.articles)
  {
    if !HasLiveId(st, id) then Err(NoRows)
    else if !ValidStatus(a.status) then Err(CheckViolation)
    else
      var rows := seq(|st.articles|, i requires 0 <= i < |st.articles| =>
        if LiveWithId(st.articles[i], id) then Assign(st.articles[i], a, now) else st.articles[i]);
      Ok(st.(articles := rows))
  }

  /** Reading the row back after `Update` gives the written columns on top
      of the row's own id, author, creation time and liveness. */
  lemma UpdateReadBack(st: Store, id: string, a: Article, now: int)
    requires Update(st, id, a, now).Ok? && id !in st.failingIds
    ensures var st2 := Update(st, id, a, now).value;
      FindByID(st2, id) == Ok(Some(Assign(FindByID(st, id).value.value, a, now)))
  {
    var st2 := Update(st, id, a, now).value;
    var k := FirstIndex(st.articles, IdIs(id)).value;
    assert st2.articles[k] == Assign(st.articles[k], a, now);
    assert IdIs(id)(st2.articles[k]);
    forall j | 0 <= j < k
      ensures !IdIs(id)(st2.articles[j])
    {
      assert !IdIs(id)(st.articles[j]);
    }
    FirstIndexAt(st2.articles, IdIs(id), k);
  }

  /** `Delete`: sets deleted_at on the live row only; a deleted or unknown
      id is `sql.ErrNoRows`. */
  function Delete(st: Store, id: string, now: int): (r: Result<Store, Error>)
    ensures r.Err? <==> !HasLiveId(st, id)
    ensures r.Ok? ==> |r.value.articles| == |st.articles|
    ensures r.Ok? ==> forall i :: 0 <= i < |st.articles| ==>
      r.value.articles[i] == (if LiveWithId(st.articles[i], id)
                              then st.articles[i].(deletedAt := Some(now)) else st.articles[i])
    ensures r.Ok? ==> r.value == st.(articles := r.value.articles)
  {
    if !HasLiveId(st, id) then Err(NoRows)
    else
      var rows := seq(|st.articles|, i requires 0 <= i < |st.articles| =>
        if LiveWithId(st.articles[i], id) then st.articles[i].(deletedAt := Some(now)) else st.articles[i]);
      Ok(st.(articles := rows))
  }

  /** After a delete the article is gone for lookups, and deleting it again
      is `sql.ErrNoRows`. */
  lemma DeleteHides(st: Store, id: string, now: int)
    requires Delete(st, id, now).Ok? && id !in st.failingIds
    ensures FindByID(Delete(st, id, now).value, id) == Ok(None)
    ensures Delete(Delete(st, id, now).value, id, now) == Err(NoRows)
  {
    var st2 := Delete(st, id, now).value;
    assert forall i :: 0 <= i < |st2.articles| ==> !LiveWithId(st2.articles[i], id);
  }

  // ---------------------------------------------------------------------
  // Tag associations

  /** An `article_tags` row both foreign keys accept: some `articles` row,
      live or soft-deleted, has the article id, and the tag id names a
      `tags` row (an id that is not a UUID names none). */
  predicate Insertable(st: Store, articleId: string, tagId: string) {
    IdTaken(st, articleId) && tagId in st.tagCodes
  }

  /** The leading tag ids whose inserts succeed: all of them, or those
      before the first one a foreign key rejects. */
  function Accepted(st: Store, articleId: string, tagIds: seq<string>): (a: seq<string>)
    ensures |a| <= |tagIds| && a == tagIds[..|a|]
    ensures forall i :: 0 <= i < |a| ==> Insertable(st, articleId, a[i])
    ensures |a| < |tagIds| ==> !Insertable(st, articleId, tagIds[|a|])
    ensures a == tagIds <==> forall t :: t in tagIds ==> Insertable(st, articleId, t)
  {
    if tagIds == [] || !Insertable(st, articleId, tagIds[0]) then []
    else [tagIds[0]] + Accepted(st, articleId, tagIds[1..])
  }

  /** `Accepted` reads only the article ids and the tags table. */
  lemma {:induction false} AcceptedSame(st: Store, st1: Store, articleId: string, tagIds: seq<string>)
    requires st1.articles == st.articles && st1.tagCodes == st.tagCodes
    ensures Accepted(st1, articleId, tagIds) == Accepted(st, articleId, tagIds)
  {
    if tagIds != [] {
      AcceptedSame(st, st1, articleId, tagIds[1..]);
    }
  }

  /** `AddTags`: one `INSERT ... ON CONFLICT DO NOTHING` per tag id, in
      order, returning the first failing insert's error. There is no
      transaction: the rows inserted before the failure stay. */
  function AddTags(st: Store, articleId: string, tagIds: seq<string>): (r: (Store, Option<Error>))
    ensures r.0 == st.(articleTags := r.0.articleTags)
    ensures r.1.None? <==> Accepted(st, articleId, tagIds) == tagIds
    ensures r.1.Some? ==> r.1.value == ForeignKeyViolation
    ensures forall p :: p in r.0.articleTags <==>
      p in st.articleTags || (p.0 == articleId && p.1 in Accepted(st, articleId, tagIds))
    decreases |tagIds|
  {
    if tagIds == [] then (st, None)
    else if !Insertable(st, articleId, tagIds[0]) then (st, Some(ForeignKeyViolation))
    else
      var pair := (articleId, tagIds[0]);
      var st1 := if pair in st.articleTags then st else st.(articleTags := st.articleTags + [pair]);
      AcceptedSame(st, st1, articleId, tagIds[1..]);
      AddTags(st1, articleId, tagIds[1..])
  }

  /** No association row appears twice. */
  predicate NoDuplicatePairs(rows: seq<(string, string)>) {
    forall i, j :: 0 <= i < j < |rows| ==> rows[i] != rows[j]
  }

  /** `AddTags` keeps the association table free of duplicates. */
  lemma {:induction false} AddTagsNoDuplicates(st: Store, articleId: string, tagIds: seq<string>)
    requires NoDuplicatePairs(st.articleTags)
    ensures NoDuplicatePairs(AddTags(st, articleId, tagIds).0.articleTags)
    decreases |tagIds|
  {
    if tagIds != [] && Insertable(st, articleId, tagIds[0]) {
      var pair := (articleId, tagIds[0]);
      var st1 := if pair in st.articleTags then st else st.(articleTags := st.articleTags + [pair]);
      AddTagsNoDuplicates(st1, articleId, tagIds[1..]);
    }
  }

  /** Adding the same tags again changes nothing, and a failure recurs with
      the same error. */
  lemma {:induction false} AddTagsIdempotent(st: Store, articleId: string, tagIds: seq<string>)
    ensures AddTags(AddTags(st, articleId, tagIds).0, articleId, tagIds) == AddTags(st, articleId, tagIds)
    decreases |tagIds|
  {
    if tagIds != [] && Insertable(st, articleId, tagIds[0]) {
      var pair := (articleId, tagIds[0]);
      var st1 := if pair in st.articleTags then st else st.(articleTags := st.articleTags + [pair]);
      var r := AddTags(st1, articleId, tagIds[1..]);
      assert r == AddTags(st, articleId, tagIds);
      assert pair in r.0.articleTags;
      assert Insertable(r.0, articleId, tagIds[0]);
      AddTagsIdempotent(st1, articleId, tagIds[1..]);
    }
  }

  /** `RemoveTags`: deletes this article's rows whose tag_id is listed. */
  function RemoveTags(st: Store, articleId: string, tagIds: seq<string>): (r: Store)
    ensures r == st.(articleTags := r.articleTags)
    ensures forall p :: p in r.articleTags <==>
      p in st.articleTags && !(p.0 == articleId && p.1 in tagIds)
    ensures tagIds == [] ==> r == st
  {
    if |tagIds| == 0 then st
    else st.(articleTags := Filter(st.articleTags, (p: (string, string)) => !(p.0 == articleId && p.1 in tagIds)))
  }

  /** `GetTags`: the codes of the tags joined to the article, in
      association-row order. */
  function GetTags(st: Store, articleId: string): (codes: seq<string>)
    ensures forall c :: c in codes <==>
      exists t :: (articleId, t) in st.articleTags && t in st.tagCodes && st.tagCodes[t] == c
  {
    CodesOf(st.articleTags, articleId, st.tagCodes)
  }

  function CodesOf(rows: seq<(string, string)>, articleId: string, tagCodes: map<string, string>): (codes: seq<string>)
    ensures forall c :: c in codes <==>
      exists t :: (articleId, t) in rows && t in tagCodes && tagCodes[t] == c
  {
    if rows == [] then []
    else
      var head := if rows[0].0 == articleId && rows[0].1 in tagCodes then [tagCodes[rows[0].1]] else [];
      var tail := CodesOf(rows[1..], articleId, tagCodes);
      assert forall t :: (articleId, t) in rows <==> (articleId, t) == rows[0] || (articleId, t) in rows[1..];
      head + tail
  }

  // ---------------------------------------------------------------------
  // Likes

  /** `AddLike`: the upsert keyed by (article, user); the last call wins. */
  function AddLike(st: Store, articleId: string, userId: string, isLike: bool): (r: Store)
    ensures (articleId, userId) in r.likes && r.likes[(articleId, userId)] == isLike
    ensures forall k :: k != (articleId, userId) ==> (k in r.likes <==> k in st.likes)
    ensures forall k :: k != (articleId, userId) && k in st.likes ==> r.likes[k] == st.likes[k]
    ensures r == st.(likes := r.likes)
  {
    st.(likes := st.likes[(articleId, userId) := isLike])
  }

  /** Two reactions by the same user leave only the second. */
  lemma AddLikeLastWins(st: Store, articleId: string, userId: string, first: bool, second: bool)
    ensures AddLike(AddLike(st, articleId, userId, first), articleId, userId, second)
         == AddLike(st, articleId, userId, second)
  {
  }

  /** `RemoveLike`. */
  function RemoveLike(st: Store, articleId: string, userId: string): (r: Store)
    ensures (articleId, userId) !in r.likes
    ensures forall k :: k != (articleId, userId) ==> (k in r.likes <==> k in st.likes)
    ensures forall k :: k in r.likes ==> r.likes[k] == st.likes[k]
    ensures r == st.(likes := r.likes)
  {
    st.(likes := st.likes - {(articleId, userId)})
  }

  /** The users holding reaction `isLike` on the article. */
  function Reactors(likes: map<(string, string), bool>, articleId: string, isLike: bool): set<string> {
    set k | k in likes && k.0 == articleId && likes[k] == isLike :: k.1
  }

  /** `GetLikesCount`: (likes, dislikes) of the article. */
  function LikesCount(st: Store, articleId: string): (r: (nat, nat)) {
    (|Reactors(st.likes, articleId, true)|, |Reactors(st.likes, articleId, false)|)
  }

  /** `GetUserLike`: the user's reaction, if any. */
  function UserLike(st: Store, articleId: string, userId: string): (r: Option<bool>)
    ensures r.Some? <==> (articleId, userId) in st.likes
    ensures r.Some? ==> r.value == st.likes[(articleId, userId)]
  {
    if (articleId, userId) in st.likes then Some(st.likes[(articleId, userId)]) else None
  }

  /** The reactors of a table split into this user and the rest. */
  lemma ReactorsWithout(likes: map<(string, string), bool>, articleId: string, userId: string, b: bool)
    ensures var k := (articleId, userId);
      Reactors(likes, articleId, b)
        == Reactors(likes - {k}, articleId, b) + (if k in likes && likes[k] == b then {userId} else {})
    ensures userId !in Reactors(likes - {(articleId, userId)}, articleId, b)
  {
  }

  lemma ReactorsAfterPut(likes: map<(string, string), bool>, articleId: string, userId: string, v: bool, b: bool)
    ensures var k := (articleId, userId);
      Reactors(likes[k := v], articleId, b) == Reactors(likes - {k}, articleId, b) + (if v == b then {userId} else {})
  {
    var k := (articleId, userId);
    assert likes[k := v] - {k} == likes - {k};
    ReactorsWithout(likes[k := v], articleId, userId, b);
  }

  /** One counter after a reaction: it loses the user's previous reaction
      if that was this counter, and gains the new one if it is. */
  lemma CounterMoves(likes: map<(string, string), bool>, articleId: string, userId: string, v: bool, b: bool)
    ensures var k := (articleId, userId);
      |Reactors(likes[k := v], articleId, b)| + (if k in likes && likes[k] == b then 1 else 0)
        == |Reactors(likes, articleId, b)| + (if v == b then 1 else 0)
  {
    ReactorsWithout(likes, articleId, userId, b);
    ReactorsAfterPut(likes, articleId, userId, v, b);
    var t := Reactors(likes - {(articleId, userId)}, articleId, b);
    assert |t + {userId}| == |t| + 1;
  }

  /** How a reaction moves the counters: a first reaction adds one, a switch
      moves one from the other counter, a repeat changes nothing. */
  lemma AddLikeCounts(st: Store, articleId: string, userId: string, isLike: bool)
    ensures var before := LikesCount(st, articleId);
            var after := LikesCount(AddLike(st, articleId, userId, isLike), articleId);
            match UserLike(st, articleId, userId)
            case None =>
              after == (if isLike then (before.0 + 1, before.1) else (before.0, before.1 + 1))
            case Some(prev) =>
              if prev == isLike then after == before
              else after == (if isLike then (before.0 + 1, before.1 - 1) else (before.0 - 1, before.1 + 1))
  {
    assert AddLike(st, articleId, userId, isLike).likes == st.likes[(articleId, userId) := isLike];
    CounterMoves(st.likes, articleId, userId, isLike, true);
    CounterMoves(st.likes, articleId, userId, isLike, false);
  }

  // ---------------------------------------------------------------------
  // Comments

  /** `AddComment`: the INSERT appends the row; under an article id whose
      queries fail, the scan reports the error and nothing is written. */
  function AddComment(st: Store, c: Comment): (r: Result<Store, Error>)
    ensures r.Err? <==> c.articleId in st.failingIds
    ensures r.Err? ==> r.error == LookupFailed
    ensures r.Ok? ==> r.value.comments == st.comments + [c]
    ensures r.Ok? ==> r.value == st.(comments := r.value.comments)
  {
    if c.articleId in st.failingIds then Err(LookupFailed)
    else Ok(st.(comments := st.comments + [c]))
  }

  /** `GetComments`: the article's comments, newest first (equal times keep
      insertion order). */
  function GetComments(st: Store, articleId: string): (r: seq<Comment>)
    ensures multiset(r) == multiset(Filter(st.comments, (c: Comment) => c.articleId == articleId))
    ensures Sorting.SortedDesc(r, (c: Comment) => c.createdAt)
  {
    var mine := Filter(st.comments, (c: Comment) => c.articleId == articleId);
    Sorting.SortPermutes(mine, (c: Comment) => c.createdAt);
    Sorting.SortSorted(mine, (c: Comment) => c.createdAt);
    Sorting.SortDesc(mine, (c: Comment) => c.createdAt)
  }

  // ---------------------------------------------------------------------
  // Count queries as written

  /** The article count of `GetCategoriesWithCounts` for one category: live
      rows of the category whose status is the lower-case literal
      'published'. */
  function CategoryCountAsWritten(st: Store, categoryId: string): (n: nat)
    ensures n <= |st.articles|
  {
    CountWhere(st.articles, (a: Article) => a.Live() && a.categoryId == Some(categoryId) && a.status == "published")
  }

  predicate HasTagCode(st: Store, articleId: string, code: string) {
    exists t :: (articleId, t) in st.articleTags && t in st.tagCodes && st.tagCodes[t] == code
  }

  /** The article count of `GetTagsWithCounts` for one tag code: distinct
      ids of live articles with status 'published' carrying the tag. */
  function TagCountAsWritten(st: Store, code: string): (n: nat) {
    |set a | a in st.articles && a.Live() && a.status == "published" && HasTagCode(st, a.id, code) :: a.id|
  }

  /** The statuses the service writes. */
  predicate ServiceStatus(s: string) {
    s == "DRAFT" || s == "PUBLISHED" || s == "ARCHIVED" || s == ""
  }
}

=== FILE: categories.dfy ===
/** Categories: a soft-deleted table of codes with an optional parent, the
    service that keeps live codes unique, and the HTTP handlers. A row is
    live while `deleted_at` is NULL; only live rows are read, updated or
    deleted. */
module Categories {
  import opened Wrappers
  import opened Http
  import opened Uuid
  import Rows
  import Sorting

  /** A category row; times are seconds. */
  datatype Category = Category(
    id: string,
    code: string,
    name: map<string, string>,
    parentId: Option<string>,
    createdAt: int,
    updatedAt: int,
    deletedAt: Option<int>)

  /** The `categories` table. When `reachable` is false every statement
      fails. */
  datatype Table = Table(rows: seq<Category>, reachable: bool)

  /** Why an operation failed: the database could not be reached, the
      generated key is taken, no live row matched (`sql.ErrNoRows`), the
      category still has live children, a live category holds the code, or
      a text bound to a `uuid` column is not a uuid. */
  datatype Error = Unreachable | DuplicateKey | NoRows | HasChildren | CodeTaken | BadUuid

  /** `id` is the primary key, and the column holds uuids. */
  predicate Valid(t: Table) {
    && (forall i, j :: 0 <= i < j < |t.rows| ==> t.rows[i].id != t.rows[j].id)
    && (forall i :: 0 <= i < |t.rows| ==> IsUuid(t.rows[i].id))
  }

  predicate Live(c: Category) { c.deletedAt.None? }

  /** Some live row has this id. */
  predicate LiveId(t: Table, id: string) {
    exists i :: 0 <= i < |t.rows| && Live(t.rows[i]) && t.rows[i].id == id
  }

  function IsLive(): Category -> bool { (c: Category) => Live(c) }

  function LiveWithId(id: string): Category -> bool { (c: Category) => Live(c) && c.id == id }

  function CreatedAt(c: Category): int { c.createdAt }

  // ---------------------------------------------------------------------
  // Repository

  /** `INSERT … RETURNING id, created_at, updated_at`: the database supplies
      the key (`gen_random_uuid()`) and the time; a parent that is not a
      uuid fails the statement. */
  function Create(t: Table, id: string, now: int, code: string, name: map<string, string>, parentId: Option<string>): (r: Result<(Table, Category), Error>)
    ensures r.Err? <==> !t.reachable || !UuidOrNull(parentId) || exists i :: 0 <= i < |t.rows| && t.rows[i].id == id
    ensures t.reachable && !UuidOrNull(parentId) ==> r == Err(BadUuid)
    ensures r.Ok? ==> r.value.1 == Category(id, code, name, parentId, now, now, None)
    ensures r.Ok? ==> r.value.0.reachable && |r.value.0.rows| == |t.rows| + 1 && r.value.0.rows[..|t.rows|] == t.rows
    ensures r.Ok? && Valid(t) && IsUuid(id) ==> Valid(r.value.0)
    ensures r.Ok? && IsUuid(id) ==> FindByID(r.value.0, id) == Ok(Some(r.value.1))
  {
    if !t.reachable then Err(Unreachable)
    else if !UuidOrNull(parentId) then Err(BadUuid)
    else if exists i :: 0 <= i < |t.rows| && t.rows[i].id == id then Err(DuplicateKey)
    else
      var c := Category(id, code, name, parentId, now, now, None);
      AppendFresh(t, c);
      Ok((t.(rows := t.rows + [c]), c))
  }

  /** Appending a live row under a key no row holds: the old rows stay in
      front, keys stay unique, and a lookup of the key finds the new row. */
  lemma AppendFresh(t: Table, c: Category)
    requires t.reachable
    requires Live(c) && forall i :: 0 <= i < |t.rows| ==> t.rows[i].id != c.id
    ensures (t.rows + [c])[..|t.rows|] == t.rows
    ensures Valid(t) && IsUuid(c.id) ==> Valid(t.(rows := t.rows + [c]))
    ensures IsUuid(c.id) ==> FindByID(t.(rows := t.rows + [c]), c.id) == Ok(Some(c))
  {
    var rows := t.rows + [c];
    assert rows[..|t.rows|] == t.rows;
    assert forall j :: 0 <= j < |t.rows| ==> !LiveWithId(c.id)(rows[j]);
    Rows.FirstIndexAt(rows, LiveWithId(c.id), |t.rows|);
  }

  /** `WHERE id = $1 AND deleted_at IS NULL`: a missing or deleted id is no
      row and no error; an id that is not a uuid fails the query. */
  function FindByID(t: Table, id: string): (r: Result<Option<Category>, Error>)
    ensures r.Err? <==> !t.reachable || !IsUuid(id)
    ensures t.reachable && !IsUuid(id) ==> r == Err(BadUuid)
    ensures r.Ok? && r.value.Some? ==> r.value.value in t.rows && Live(r.value.value) && r.value.value.id == id
    ensures r.Ok? ==> (r.value.None? <==> !LiveId(t, id))
  {
    if !t.reachable then Err(Unreachable)
    else if !IsUuid(id) then Err(BadUuid)
    else Ok(Rows.First(t.rows, LiveWithId(id)))
  }

  /** `WHERE deleted_at IS NULL ORDER BY created_at DESC`. */
  function FindAll(t: Table): (r: Result<seq<Category>, Error>)
    ensures r.Err? <==> !t.reachable
    ensures r.Ok? ==> multiset(r.value) == multiset(Rows.Filter(t.rows, IsLive()))
    ensures r.Ok? ==> forall c :: c in r.value ==> c in t.rows && Live(c)
    ensures r.Ok? ==> forall i :: 0 <= i < |t.rows| && Live(t.rows[i]) ==> t.rows[i] in r.value
    ensures r.Ok? ==> Sorting.SortedDesc(r.value, CreatedAt)
  {
    if !t.reachable then Err(Unreachable)
    else
      SortedLive(t.rows);
      Ok(Sorting.SortDesc(Rows.Filter(t.rows, IsLive()), CreatedAt))
  }

  /** The live rows sorted newest first are a permutation of the live rows,
      hold exactly them, and are in order. */
  lemma SortedLive(rows: seq<Category>)
    ensures multiset(Sorting.SortDesc(Rows.Filter(rows, IsLive()), CreatedAt)) == multiset(Rows.Filter(rows, IsLive()))
    ensures forall c :: c in Sorting.SortDesc(Rows.Filter(rows, IsLive()), CreatedAt) ==> c in rows && Live(c)
    ensures forall i :: 0 <= i < |rows| && Live(rows[i]) ==> rows[i] in Sorting.SortDesc(Rows.Filter(rows, IsLive()), CreatedAt)
    ensures Sorting.SortedDesc(Sorting.SortDesc(Rows.Filter(rows, IsLive()), CreatedAt), CreatedAt)
  {
    var live := Rows.Filter(rows, IsLive());
    var sorted := Sorting.SortDesc(live, CreatedAt);
    Sorting.SortPermutes(live, CreatedAt);
    Sorting.SortSorted(live, CreatedAt);
    SameElements(live, sorted);
    LiveMembers(rows, live, sorted);
  }

  /** A sequence holding exactly the live rows holds only live table rows,
      and every live one. */
  lemma LiveMembers(rows: seq<Category>, live: seq<Category>, sorted: seq<Category>)
    requires live == Rows.Filter(rows, IsLive())
    requires forall c :: c in live <==> c in sorted
    ensures forall c :: c in sorted ==> c in rows && Live(c)
    ensures forall i :: 0 <= i < |rows| && Live(rows[i]) ==> rows[i] in sorted
  {
    forall c | c in sorted
      ensures c in rows && Live(c)
    {
      var i :| 0 <= i < |live| && live[i] == c;
      assert IsLive()(live[i]);
    }
    forall i | 0 <= i < |rows| && Live(rows[i])
      ensures rows[i] in sorted
    {
      assert IsLive()(rows[i]);
    }
  }

  /** Sequences with the same multiset hold the same elements. */
  lemma SameElements(a: seq<Category>, b: seq<Category>)
    requires multiset(a) == multiset(b)
    ensures forall c :: c in a <==> c in b
  {
    forall c
      ensures c in a <==> c in b
    {
      assert c in a <==> c in multiset(a);
      assert c in b <==> c in multiset(b);
    }
  }

  /** `SELECT EXISTS(… WHERE parent_id = $1 AND deleted_at IS NULL)`. */
  function HasActiveChildren(t: Table, parentId: string): (r: Result<bool, Error>)
    ensures r.Err? <==> !t.reachable || !IsUuid(parentId)
    ensures r.Ok? ==> (r.value <==> exists i :: 0 <= i < |t.rows| && Live(t.rows[i]) && t.rows[i].parentId == Some(parentId))
  {
    if !t.reachable then Err(Unreachable)
    else if !IsUuid(parentId) then Err(BadUuid)
    else Ok(exists i :: 0 <= i < |t.rows| && Live(t.rows[i]) && t.rows[i].parentId == Some(parentId))
  }

  /** `SELECT COUNT(*) … WHERE code = $1 AND id != $2 AND deleted_at IS
      NULL`, with an empty excluded key replaced by the nil UUID. */
  function IsUniqueCode(t: Table, code: string, excludeId: string): (r: Result<bool, Error>)
    ensures r.Err? <==> !t.reachable || (excludeId != "" && !IsUuid(excludeId))
    ensures r.Ok? ==> (r.value <==> !HeldByOther(t, code, if excludeId == "" then NilUuid else excludeId))
  {
    var excluded := if excludeId == "" then NilUuid else excludeId;
    NilIsUuid();
    if !t.reachable then Err(Unreachable)
    else if !IsUuid(excluded) then Err(BadUuid)
    else
      var holders := Rows.CountWhere(t.rows, OtherHolder(code, excluded));
      NoneCounted(t.rows, OtherHolder(code, excluded));
      Ok(holders == 0)
  }

  /** A live row other than the excluded one holds the code. */
  predicate HeldByOther(t: Table, code: string, excluded: string) {
    exists i :: 0 <= i < |t.rows| && Live(t.rows[i]) && t.rows[i].code == code && t.rows[i].id != excluded
  }

  /** A live row other than the excluded one that holds the code. */
  function OtherHolder(code: string, excluded: string): Category -> bool {
    (c: Category) => Live(c) && c.code == code && c.id != excluded
  }

  /** Nothing is counted exactly when no row satisfies the condition. */
  lemma NoneCounted<T>(s: seq<T>, p: T -> bool)
    ensures Rows.CountWhere(s, p) == 0 <==> forall i :: 0 <= i < |s| ==> !p(s[i])
  {
    var f := Rows.Filter(s, p);
    if f != [] {
      assert f[0] in s && p(f[0]);
    }
  }

  /** `UPDATE … SET code, name, parent_id, updated_at WHERE id = $4 AND
      deleted_at IS NULL RETURNING updated_at`: an id or parent that is not
      a uuid fails the statement; otherwise no live row is `sql.ErrNoRows`. */
  function Update(t: Table, id: string, code: string, name: map<string, string>, parentId: Option<string>, now: int): (r: Result<(Table, Category), Error>)
    ensures r.Err? <==> !t.reachable || !IsUuid(id) || !UuidOrNull(parentId) || !LiveId(t, id)
    ensures r.Err? && t.reachable ==> r.error == (if IsUuid(id) && UuidOrNull(parentId) then NoRows else BadUuid)
    ensures r.Ok? ==> var c := r.value.1;
      && c.id == id && c.code == code && c.name == name && c.parentId == parentId
      && c.updatedAt == now && Live(c)
      && (exists i :: 0 <= i < |t.rows| && t.rows[i].id == id && Live(t.rows[i]) && t.rows[i].createdAt == c.createdAt)
    ensures r.Ok? ==> r.value.0.reachable && |r.value.0.rows| == |t.rows|
    ensures r.Ok? ==> forall i :: 0 <= i < |t.rows| ==>
      r.value.0.rows[i] == t.rows[i] || (t.rows[i].id == id && Live(t.rows[i]) && r.value.0.rows[i] == r.value.1)
    ensures r.Ok? && Valid(t) ==> Valid(r.value.0) && FindByID(r.value.0, id) == Ok(Some(r.value.1))
  {
    if !t.reachable then Err(Unreachable)
    else if !IsUuid(id) || !UuidOrNull(parentId) then Err(BadUuid)
    else match Rows.FirstIndex(t.rows, LiveWithId(id))
      case None => Err(NoRows)
      case Some(k) =>
        var c := t.rows[k].(code := code, name := name, parentId := parentId, updatedAt := now);
        Replaced(t, k, c);
        Ok((t.(rows := t.rows[k := c]), c))
  }

  /** `UPDATE … SET deleted_at WHERE id = $1 AND deleted_at IS NULL`, after
      refusing a category that still has live children. */
  function Delete(t: Table, id: string, now: int): (r: Result<Table, Error>)
    ensures r.Err? <==> !t.reachable || !IsUuid(id) || HasActiveChildren(t, id) == Ok(true) || !LiveId(t, id)
    ensures r.Err? && t.reachable ==>
      r.error == (if !IsUuid(id) then BadUuid else if HasActiveChildren(t, id) == Ok(true) then HasChildren else NoRows)
    ensures r.Ok? ==> r.value.reachable && |r.value.rows| == |t.rows|
    ensures r.Ok? ==> forall i :: 0 <= i < |t.rows| ==>
      r.value.rows[i] == t.rows[i] || (t.rows[i].id == id && Live(t.rows[i]) && r.value.rows[i] == t.rows[i].(deletedAt := Some(now)))
    ensures r.Ok? && Valid(t) ==> Valid(r.value) && FindByID(r.value, id) == Ok(None)
    ensures r.Ok? && Valid(t) ==> forall other :: other != id ==> (LiveId(r.value, other) <==> LiveId(t, other))
  {
    match HasActiveChildren(t, id)
    case Err(e) => Err(e)
    case Ok(true) => Err(HasChildren)
    case Ok(false) =>
      match Rows.FirstIndex(t.rows, LiveWithId(id))
      case None => Err(NoRows)
      case Some(k) =>
        var c := t.rows[k].(deletedAt := Some(now));
        Replaced(t, k, c);
        Ok(t.(rows := t.rows[k := c]))
  }

  /** Replacing the first live row with id k by a row with the same id:
      keys stay unique, the replacement is what a lookup of that id sees,
      and no other id changes liveness. */
  lemma Replaced(t: Table, k: nat, c: Category)
    requires t.reachable && k < |t.rows| && LiveWithId(c.id)(t.rows[k])
    requires forall j :: 0 <= j < k ==> !LiveWithId(c.id)(t.rows[j])
    ensures Valid(t) ==> Valid(t.(rows := t.rows[k := c]))
    ensures Valid(t) ==> FindByID(t.(rows := t.rows[k := c]), c.id) == Ok(if Live(c) then Some(c) else None)
    ensures Valid(t) ==> forall other :: other != c.id ==> (LiveId(t.(rows := t.rows[k := c]), other) <==> LiveId(t, other))
  {
    if Valid(t) {
      ReplacedValid(t, k, c);
      ReplacedFound(t, k, c);
      ReplacedOthers(t, k, c);
    }
  }

  lemma ReplacedValid(t: Table, k: nat, c: Category)
    requires Valid(t) && k < |t.rows| && t.rows[k].id == c.id
    ensures Valid(t.(rows := t.rows[k := c]))
  {
    var u := t.(rows := t.rows[k := c]);
    forall i, j | 0 <= i < j < |u.rows|
      ensures u.rows[i].id != u.rows[j].id
    {
      assert u.rows[i].id == t.rows[i].id && u.rows[j].id == t.rows[j].id;
    }
    forall i | 0 <= i < |u.rows|
      ensures IsUuid(u.rows[i].id)
    {
      assert u.rows[i].id == t.rows[i].id;
    }
  }

  lemma ReplacedFound(t: Table, k: nat, c: Category)
    requires t.reachable && Valid(t) && k < |t.rows| && t.rows[k].id == c.id
    requires forall j :: 0 <= j < k ==> !LiveWithId(c.id)(t.rows[j])
    ensures FindByID(t.(rows := t.rows[k := c]), c.id) == Ok(if Live(c) then Some(c) else None)
  {
    var u := t.(rows := t.rows[k := c]);
    assert IsUuid(c.id);
    if Live(c) {
      assert forall j :: 0 <= j < k ==> !LiveWithId(c.id)(u.rows[j]);
      Rows.FirstIndexAt(u.rows, LiveWithId(c.id), k);
    } else {
      forall j | 0 <= j < |u.rows|
        ensures !LiveWithId(c.id)(u.rows[j])
      {
        if j != k {
          assert t.rows[j].id != t.rows[k].id;
        }
      }
    }
  }

  lemma ReplacedOthers(t: Table, k: nat, c: Category)
    requires k < |t.rows| && t.rows[k].id == c.id
    ensures forall other :: other != c.id ==> (LiveId(t.(rows := t.rows[k := c]), other) <==> LiveId(t, other))
  {
    var u := t.(rows := t.rows[k := c]);
    forall other | other != c.id
      ensures LiveId(u, other) <==> LiveId(t, other)
    {
      if LiveId(t, other) {
        var i :| 0 <= i < |t.rows| && Live(t.rows[i]) && t.rows[i].id == other;
        assert u.rows[i] == t.rows[i];
      }
      if LiveId(u, other) {
        var i :| 0 <= i < |u.rows| && Live(u.rows[i]) && u.rows[i].id == other;
        assert u.rows[i] == t.rows[i];
      }
    }
  }

  // ---------------------------------------------------------------------
  // Service

  /** Creates a category unless a live one holds the code; a failed lookup
      aborts before the insert. */
  function CreateCategory(t: Table, id: string, now: int, code: string, name: map<string, string>, parentId: Option<string>): (r: Result<(Table, Category), Error>)
    ensures !t.reachable ==> r == Err(Unreachable)
    ensures t.reachable && HeldByOther(t, code, NilUuid) ==> r == Err(CodeTaken)
    ensures r.Ok? ==> r == Create(t, id, now, code, name, parentId)
    ensures r.Ok? ==> !HeldByOther(t, code, NilUuid)
  {
    match IsUniqueCode(t, code, "")
    case Err(e) => Err(e)
    case Ok(unique) =>
      if !unique then Err(CodeTaken)
      else Create(t, id, now, code, name, parentId)
  }

  /** Updates a category unless another live one holds the code: its own
      id is excluded from the check. */
  function UpdateCategory(t: Table, id: string, code: string, name: map<string, string>, parentId: Option<string>, now: int): (r: Result<(Table, Category), Error>)
    ensures !t.reachable ==> r == Err(Unreachable)
    ensures t.reachable && id != "" && !IsUuid(id) ==> r == Err(BadUuid)
    ensures r == Err(CodeTaken) <==> t.reachable && (id == "" || IsUuid(id)) && HeldByOther(t, code, if id == "" then NilUuid else id)
    ensures r.Ok? ==> r == Update(t, id, code, name, parentId, now)
  {
    match IsUniqueCode(t, code, id)
    case Err(e) => Err(e)
    case Ok(unique) =>
      if !unique then Err(CodeTaken)
      else Update(t, id, code, name, parentId, now)
  }

  /** Deleting goes straight to the repository and its child guard. */
  function DeleteCategory(t: Table, id: string, now: int): (r: Result<Table, Error>)
    ensures r == Delete(t, id, now)
    ensures HasActiveChildren(t, id) == Ok(true) ==> r == Err(HasChildren)
  {
    Delete(t, id, now)
  }

  /** A live category may be saved under the code it already holds, as
      long as the parent it names is a uuid or absent. */
  lemma KeepOwnCode(t: Table, k: nat, name: map<string, string>, parentId: Option<string>, now: int)
    requires t.reachable && Valid(t) && k < |t.rows| && Live(t.rows[k])
    requires forall i :: 0 <= i < |t.rows| && i != k && Live(t.rows[i]) ==> t.rows[i].code != t.rows[k].code
    ensures UpdateCategory(t, t.rows[k].id, t.rows[k].code, name, parentId, now).Ok? <==> UuidOrNull(parentId)
  {
    assert LiveId(t, t.rows[k].id);
    assert IsUuid(t.rows[k].id);
  }

  /** Another live holder of the code blocks an update. */
  lemma OtherHolderBlocksUpdate(t: Table, id: string, j: nat, name: map<string, string>, parentId: Option<string>, now: int)
    requires t.reachable && IsUuid(id) && j < |t.rows| && Live(t.rows[j]) && t.rows[j].id != id
    ensures UpdateCategory(t, id, t.rows[j].code, name, parentId, now) == Err(CodeTaken)
  {
  }

  /** A code held only by deleted categories does not block a create. */
  lemma DeletedHolderDoesNotBlock(t: Table, id: string, now: int, code: string, name: map<string, string>, parentId: Option<string>)
    requires t.reachable && !exists i :: 0 <= i < |t.rows| && t.rows[i].id == id
    requires forall i :: 0 <= i < |t.rows| && t.rows[i].code == code ==> !Live(t.rows[i])
    ensures CreateCategory(t, id, now, code, name, parentId).Ok? <==> UuidOrNull(parentId)
  {
  }

  /** A parent is refused while its child is live and accepted once the
      child has been deleted. */
  lemma ParentAfterChild(t: Table, p: nat, c: nat, now: int)
    requires t.reachable && Valid(t) && p < |t.rows| && c < |t.rows| && p != c
    requires Live(t.rows[p]) && Live(t.rows[c]) && t.rows[c].parentId == Some(t.rows[p].id)
    requires forall i :: 0 <= i < |t.rows| && i != c && Live(t.rows[i]) ==> t.rows[i].parentId != Some(t.rows[p].id)
    requires forall i :: 0 <= i < |t.rows| && Live(t.rows[i]) ==> t.rows[i].parentId != Some(t.rows[c].id)
    ensures Delete(t, t.rows[p].id, now) == Err(HasChildren)
    ensures Delete(t, t.rows[c].id, now).Ok?
    ensures Delete(Delete(t, t.rows[c].id, now).value, t.rows[p].id, now).Ok?
  {
    var pid := t.rows[p].id;
    var cid := t.rows[c].id;
    assert HasActiveChildren(t, pid).value;
    assert !HasActiveChildren(t, cid).value;
    assert LiveId(t, cid);
    var u := Delete(t, cid, now).value;
    assert !HasActiveChildren(u, pid).value by {
      forall i | 0 <= i < |u.rows| && Live(u.rows[i])
        ensures u.rows[i].parentId != Some(pid)
      {
      }
    }
    assert LiveId(t, pid);
    assert LiveId(u, pid);
  }

  /** Deleting twice: the second delete finds no live row. */
  lemma DeleteTwice(t: Table, id: string, now: int, later: int)
    requires Valid(t) && Delete(t, id, now).Ok?
    ensures Delete(Delete(t, id, now).value, id, later).Err?
  {
    var u := Delete(t, id, now).value;
    assert FindByID(u, id) == Ok(None);
  }

  // ---------------------------------------------------------------------
  // Handlers

  /** `GET /api/categories`. */
  function HandleList(t: Table): (r: Response<seq<Category>>)
    ensures r.Failure? <==> !t.reachable
    ensures r.Failure? ==> r.status == 500
    ensures r.Success? ==> r.status == 200 && forall c :: c in r.body ==> c in t.rows && Live(c)
  {
    match FindAll(t)
    case Err(_) => Failure(500)
    case Ok(cs) => Success(200, cs)
  }

  /** `GET /api/categories/{id}`: a missing or deleted category is 404; an
      id that is not a uuid fails the query, which is 500. */
  function HandleGet(t: Table, id: string): (r: Response<Category>)
    ensures r.Failure? ==> r.status in {404, 500}
    ensures !IsUuid(id) ==> r == Failure(500)
    ensures r.Failure? && r.status == 404 <==> t.reachable && IsUuid(id) && !LiveId(t, id)
    ensures r.Success? ==> r.status == 200 && r.body.id == id && Live(r.body) && r.body in t.rows
  {
    match FindByID(t, id)
    case Err(_) => Failure(500)
    case Ok(None) => Failure(404)
    case Ok(Some(c)) => Success(200, c)
  }

  /** `POST /api/categories`: a held code is 409. */
  function HandleCreate(t: Table, bodyParses: bool, id: string, now: int, code: string, name: map<string, string>, parentId: Option<string>): (r: (Table, Response<Category>))
    ensures !bodyParses ==> r == (t, Failure(400))
    ensures r.1.Failure? ==> r.0 == t && r.1.status in {400, 409, 500}
    ensures r.1.Failure? && r.1.status == 409 <==> bodyParses && CreateCategory(t, id, now, code, name, parentId) == Err(CodeTaken)
    ensures r.1.Success? ==> r.1.status == 201 && r.1.body.code == code && r.1.body.id == id
  {
    if !bodyParses then (t, Failure(400))
    else match CreateCategory(t, id, now, code, name, parentId)
      case Err(CodeTaken) => (t, Failure(409))
      case Err(_) => (t, Failure(500))
      case Ok((u, c)) => (u, Success(201, c))
  }

  /** `PUT /api/categories/{id}`: the id comes from the path; a code held
      by another live category is 409; a missing or deleted id is 500. */
  function HandleUpdate(t: Table, id: string, bodyParses: bool, code: string, name: map<string, string>, parentId: Option<string>, now: int): (r: (Table, Response<Category>))
    ensures !bodyParses ==> r == (t, Failure(400))
    ensures r.1.Failure? ==> r.0 == t && r.1.status in {400, 409, 500}
    ensures r.1.Failure? && r.1.status == 409 <==> bodyParses && UpdateCategory(t, id, code, name, parentId, now) == Err(CodeTaken)
    ensures r.1.Success? ==> r.1.status == 200 && r.1.body.id == id && r.1.body.code == code && LiveId(t, id)
  {
    if !bodyParses then (t, Failure(400))
    else match UpdateCategory(t, id, code, name, parentId, now)
      case Err(CodeTaken) => (t, Failure(409))
      case Err(_) => (t, Failure(500))
      case Ok((u, c)) => (u, Success(200, c))
  }

  /** `DELETE /api/categories/{id}`: live children are 409. */
  function HandleDelete(t: Table, id: string, now: int): (r: (Table, Response<()>))
    ensures r.1.Failure? ==> r.0 == t && r.1.status in {409, 500}
    ensures r.1.Failure? && r.1.status == 409 <==> HasActiveChildren(t, id) == Ok(true)
    ensures r.1.Success? ==> r.1.status == 204 && LiveId(t, id)
    ensures r.1.Success? && Valid(t) ==> FindByID(r.0, id) == Ok(None)
  {
    match DeleteCategory(t, id, now)
    case Err(HasChildren) => (t, Failure(409))
    case Err(_) => (t, Failure(500))
    case Ok(u) => (u, Success(204, ()))
  }
}

=== FILE: category_tree.dfy ===
/** The category tree the admin page draws: a flat list of categories turned
    into a forest. Each id gets one node (a copy of the last category with
    that id, with an empty children list); then, in input order, every
    category is appended either to its parent's children or to the roots. A
    category is attached when its parent id is neither null nor empty and
    names an id in the list. Nodes are identified by id, as the page's map
    identifies them. */
module CategoryTree {
  import opened Wrappers
  import Rows

  datatype Category = Category(id: string, code: string, name: map<string, string>, parentId: Option<string>)

  /** One node per id, the root ids in order, and each node's child ids in
      order. */
  datatype Forest = Forest(nodes: map<string, Category>, roots: seq<string>, children: map<string, seq<string>>)

  function IdSet(cats: seq<Category>): set<string> {
    set c | c in cats :: c.id
  }

  /** The category goes under a parent: its parent id is set, not empty,
      and names an id of the list. */
  predicate Attached(c: Category, ids: set<string>) {
    c.parentId.Some? && c.parentId.value != "" && c.parentId.value in ids
  }

  function RootIn(ids: set<string>): Category -> bool {
    (c: Category) => !Attached(c, ids)
  }

  function ChildOf(ids: set<string>, p: string): Category -> bool {
    (c: Category) => Attached(c, ids) && c.parentId.value == p
  }

  function IdsOf(s: seq<Category>): (r: seq<string>)
    ensures |r| == |s|
    ensures forall i :: 0 <= i < |s| ==> r[i] == s[i].id
  {
    seq(|s|, i requires 0 <= i < |s| => s[i].id)
  }

  /** Each id mapped to the last category in the list that has it. */
  function NodesOf(cats: seq<Category>): (m: map<string, Category>)
    ensures m.Keys == IdSet(cats)
    ensures forall id :: id in m ==> m[id].id == id && m[id] in cats
  {
    if cats == [] then map[]
    else
      var init := cats[..|cats| - 1];
      var last := cats[|cats| - 1];
      assert cats == init + [last];
      assert IdSet(cats) == IdSet(init) + {last.id};
      NodesOf(init)[last.id := last]
  }

  /** The forest, stated without the loop: roots are the categories that
      are not attached, children of p are the categories attached to p,
      both in input order. */
  function Tree(cats: seq<Category>): Forest {
    var ids := IdSet(cats);
    Forest(
      NodesOf(cats),
      IdsOf(Rows.Filter(cats, RootIn(ids))),
      map p | p in ids :: IdsOf(Rows.Filter(cats, ChildOf(ids, p))))
  }

  /** The page's builder: a pass that creates the nodes and a pass that
      attaches each category. */
  method BuildTree(cats: seq<Category>) returns (f: Forest)
    ensures f == Tree(cats)
  {
    var nodes := CopyNodes(cats);
    var roots, children := Attach(cats);
    f := Forest(nodes, roots, children);
  }

  /** The first pass: a fresh node per category, later ids overwriting
      earlier ones. */
  method CopyNodes(cats: seq<Category>) returns (nodes: map<string, Category>)
    ensures nodes == NodesOf(cats)
  {
    nodes := map[];
    var i := 0;
    while i < |cats|
      invariant 0 <= i <= |cats|
      invariant nodes == NodesOf(cats[..i])
    {
      assert cats[..i + 1][..i] == cats[..i];
      nodes := nodes[cats[i].id := cats[i]];
      i := i + 1;
    }
    assert cats[..|cats|] == cats;
  }

  /** The second pass: each category, in order, under its parent or among
      the roots. */
  method Attach(cats: seq<Category>) returns (roots: seq<string>, children: map<string, seq<string>>)
    ensures roots == Tree(cats).roots
    ensures children == Tree(cats).children
  {
    var ids := IdSet(cats);
    children := map p | p in ids :: [];
    roots := [];
    var i := 0;
    while i < |cats|
      invariant 0 <= i <= |cats|
      invariant Placed(cats[..i], ids, roots, children)
    {
      assert cats[..i + 1] == cats[..i] + [cats[i]];
      PlaceKeeps(cats[..i], cats[i], ids, roots, children);
      var next := Place(cats[i], roots, children);
      roots, children := next.0, next.1;
      i := i + 1;
    }
    assert cats[..|cats|] == cats;
    PlacedIsTree(cats, roots, children);
  }

  /** roots and children hold the forest of done, over the ids of the
      whole list. */
  predicate Placed(done: seq<Category>, ids: set<string>, roots: seq<string>, children: map<string, seq<string>>) {
    children.Keys == ids
    && roots == IdsOf(Rows.Filter(done, RootIn(ids)))
    && forall p :: p in ids ==> children[p] == IdsOf(Rows.Filter(done, ChildOf(ids, p)))
  }

  /** One step of the second pass: the category goes under its parent when
      the parent id is set, not empty and has a node; otherwise to the
      roots. */
  function Place(c: Category, roots: seq<string>, children: map<string, seq<string>>): (r: (seq<string>, map<string, seq<string>>))
    ensures r.1.Keys == children.Keys
  {
    if c.parentId.Some? && c.parentId.value != "" && c.parentId.value in children then
      (roots, children[c.parentId.value := children[c.parentId.value] + [c.id]])
    else (roots + [c.id], children)
  }

  lemma PlaceKeeps(done: seq<Category>, c: Category, ids: set<string>, roots: seq<string>, children: map<string, seq<string>>)
    requires Placed(done, ids, roots, children)
    ensures Placed(done + [c], ids, Place(c, roots, children).0, Place(c, roots, children).1)
  {
    Appended(done, c, RootIn(ids));
    forall p | p in ids
      ensures Place(c, roots, children).1[p] == IdsOf(Rows.Filter(done + [c], ChildOf(ids, p)))
    {
      Appended(done, c, ChildOf(ids, p));
    }
  }

  lemma PlacedIsTree(cats: seq<Category>, roots: seq<string>, children: map<string, seq<string>>)
    requires Placed(cats, IdSet(cats), roots, children)
    ensures roots == Tree(cats).roots
    ensures children == Tree(cats).children
  {
  }

  /** Filtering a list with one more category, seen through the ids. */
  lemma Appended(s: seq<Category>, c: Category, p: Category -> bool)
    ensures IdsOf(Rows.Filter(s + [c], p)) == IdsOf(Rows.Filter(s, p)) + (if p(c) then [c.id] else [])
  {
    Rows.FilterAppend(s, [c], p);
    assert [c][1..] == [];
    assert Rows.Filter([c], p) == (if p(c) then [c] else []);
  }

  // ---------------------------------------------------------------------
  // Properties of the forest

  /** How many of keys name c's parent. */
  function ParentHits(c: Category, ids: set<string>, keys: seq<string>): nat {
    if keys == [] then 0
    else (if ChildOf(ids, keys[0])(c) then 1 else 0) + ParentHits(c, ids, keys[1..])
  }

  /** The sizes of the children lists of keys, added up. */
  function SumChildren(cats: seq<Category>, ids: set<string>, keys: seq<string>): nat {
    if keys == [] then 0
    else |Rows.Filter(cats, ChildOf(ids, keys[0]))| + SumChildren(cats, ids, keys[1..])
  }

  predicate Distinct(keys: seq<string>) {
    forall i, j :: 0 <= i < j < |keys| ==> keys[i] != keys[j]
  }

  /** Among distinct keys, an attached category's parent is named once. */
  lemma {:induction false} ParentNamedOnce(c: Category, ids: set<string>, keys: seq<string>)
    requires Distinct(keys)
    requires Attached(c, ids) ==> c.parentId.value in keys
    ensures ParentHits(c, ids, keys) == if Attached(c, ids) then 1 else 0
  {
    if keys != [] {
      assert Distinct(keys[1..]) by {
        forall i, j | 0 <= i < j < |keys[1..]|
          ensures keys[1..][i] != keys[1..][j]
        {
          assert keys[1..][i] == keys[i + 1] && keys[1..][j] == keys[j + 1];
        }
      }
      if ChildOf(ids, keys[0])(c) {
        assert c.parentId.value !in keys[1..] by {
          forall m | 0 <= m < |keys[1..]|
            ensures keys[1..][m] != keys[0]
          {
            assert keys[1..][m] == keys[m + 1];
          }
        }
        NoParentHits(c, ids, keys[1..]);
      } else {
        ParentNamedOnce(c, ids, keys[1..]);
      }
    }
  }

  lemma {:induction false} NoParentHits(c: Category, ids: set<string>, keys: seq<string>)
    requires c.parentId.Some? ==> c.parentId.value !in keys
    ensures ParentHits(c, ids, keys) == 0
  {
    if keys != [] {
      assert c.parentId.Some? ==> c.parentId.value != keys[0];
      NoParentHits(c, ids, keys[1..]);
    }
  }

  lemma {:induction false} SumChildrenEmpty(ids: set<string>, keys: seq<string>)
    ensures SumChildren([], ids, keys) == 0
  {
    if keys != [] {
      SumChildrenEmpty(ids, keys[1..]);
    }
  }

  /** Peeling the first category off every children list. */
  lemma {:induction false} SumChildrenCons(c: Category, rest: seq<Category>, ids: set<string>, keys: seq<string>)
    ensures SumChildren([c] + rest, ids, keys) == ParentHits(c, ids, keys) + SumChildren(rest, ids, keys)
  {
    if keys != [] {
      assert ([c] + rest)[1..] == rest;
      SumChildrenCons(c, rest, ids, keys[1..]);
    }
  }

  /** Every category lands in exactly one list: the roots and all the
      children lists together hold as many entries as the input. */
  lemma {:induction false} Conservation(cats: seq<Category>, ids: set<string>, keys: seq<string>)
    requires Distinct(keys)
    requires forall c :: c in cats && Attached(c, ids) ==> c.parentId.value in keys
    ensures |Rows.Filter(cats, RootIn(ids))| + SumChildren(cats, ids, keys) == |cats|
  {
    if cats == [] {
      SumChildrenEmpty(ids, keys);
    } else {
      var c := cats[0];
      var rest := cats[1..];
      assert cats == [c] + rest;
      Conservation(rest, ids, keys);
      SumChildrenCons(c, rest, ids, keys);
      ParentNamedOnce(c, ids, keys);
    }
  }

  /** For the forest of a list: #roots + the sizes of all children lists
      (one per distinct id) is the length of the list. */
  lemma ForestConservation(cats: seq<Category>, keys: seq<string>)
    requires Distinct(keys)
    requires forall id :: id in IdSet(cats) <==> id in keys
    ensures |Tree(cats).roots| + SumChildren(cats, IdSet(cats), keys) == |cats|
    ensures forall k :: k in keys ==> |Tree(cats).children[k]| == |Rows.Filter(cats, ChildOf(IdSet(cats), k))|
  {
    Conservation(cats, IdSet(cats), keys);
  }

  /** A category is a root exactly when it is not attached, and otherwise
      it is listed under its parent. */
  lemma Placement(cats: seq<Category>, i: nat)
    requires i < |cats|
    ensures !Attached(cats[i], IdSet(cats)) ==> cats[i].id in Tree(cats).roots
    ensures Attached(cats[i], IdSet(cats)) ==>
      cats[i].parentId.value in Tree(cats).children && cats[i].id in Tree(cats).children[cats[i].parentId.value]
  {
    var ids := IdSet(cats);
    var c := cats[i];
    if !Attached(c, ids) {
      var r := Rows.Filter(cats, RootIn(ids));
      assert c in r;
      var k :| 0 <= k < |r| && r[k] == c;
      assert IdsOf(r)[k] == c.id;
    } else {
      var r := Rows.Filter(cats, ChildOf(ids, c.parentId.value));
      assert c in r;
      var k :| 0 <= k < |r| && r[k] == c;
      assert IdsOf(r)[k] == c.id;
    }
  }

  /** With unique ids, an id is a root exactly when its category is not
      attached. */
  lemma RootIff(cats: seq<Category>, i: nat)
    requires i < |cats|
    requires forall a, b :: 0 <= a < b < |cats| ==> cats[a].id != cats[b].id
    ensures cats[i].id in Tree(cats).roots <==> !Attached(cats[i], IdSet(cats))
  {
    Placement(cats, i);
    var ids := IdSet(cats);
    var r := Rows.Filter(cats, RootIn(ids));
    if cats[i].id in Tree(cats).roots {
      var k :| 0 <= k < |r| && IdsOf(r)[k] == cats[i].id;
      assert r[k] in cats;
      var j :| 0 <= j < |cats| && cats[j] == r[k];
      assert j == i;
    }
  }

  /** A category that names itself as parent becomes its own child and,
      with unique ids, is not a root. */
  lemma SelfParent(cats: seq<Category>, i: nat)
    requires i < |cats| && cats[i].parentId == Some(cats[i].id) && cats[i].id != ""
    requires forall a, b :: 0 <= a < b < |cats| ==> cats[a].id != cats[b].id
    ensures cats[i].id in Tree(cats).children[cats[i].id]
    ensures cats[i].id !in Tree(cats).roots
  {
    assert Attached(cats[i], IdSet(cats));
    Placement(cats, i);
    RootIff(cats, i);
  }
}

=== FILE: collation.dfy ===
/** `ORDER BY <text column> ASC` under byte-wise (C) collation: the
    lexicographic order on strings, and the stable ascending sort the tag
    and category listings stand on. */
module Collation {

  /** a sorts no later than b: a is a prefix of b, or a has the smaller
      character at the first difference. */
  predicate Le(a: string, b: string)
    decreases |a|
  {
    a == [] || (b != [] && (a[0] < b[0] || (a[0] == b[0] && Le(a[1..], b[1..]))))
  }

  lemma {:induction false} LeReflexive(a: string)
    ensures Le(a, a)
    decreases |a|
  {
    if a != [] {
      LeReflexive(a[1..]);
    }
  }

  lemma {:induction false} LeTotal(a: string, b: string)
    ensures Le(a, b) || Le(b, a)
    decreases |a|
  {
    if a != [] && b != [] && a[0] == b[0] {
      LeTotal(a[1..], b[1..]);
    }
  }

  lemma {:induction false} LeTransitive(a: string, b: string, c: string)
    requires Le(a, b) && Le(b, c)
    ensures Le(a, c)
    decreases |a|
  {
    if a != [] && a[0] == b[0] && b[0] == c[0] {
      LeTransitive(a[1..], b[1..], c[1..]);
    }
  }

  lemma {:induction false} LeAntisymmetric(a: string, b: string)
    requires Le(a, b) && Le(b, a)
    ensures a == b
    decreases |a|
  {
    if a != [] {
      LeAntisymmetric(a[1..], b[1..]);
      assert a == [a[0]] + a[1..] && b == [b[0]] + b[1..];
    }
  }

  /** Non-decreasing by key. */
  predicate SortedAsc<T>(s: seq<T>, key: T -> string) {
    forall i, j :: 0 <= i < j < |s| ==> Le(key(s[i]), key(s[j]))
  }

  /** x enters after every element that sorts no later than it. */
  function InsertAsc<T>(s: seq<T>, x: T, key: T -> string): (r: seq<T>)
    ensures |r| == |s| + 1
    ensures multiset(r) == multiset(s) + multiset{x}
  {
    if s == [] then [x]
    else if Le(key(s[0]), key(x)) then
      assert s == [s[0]] + s[1..];
      [s[0]] + InsertAsc(s[1..], x, key)
    else [x] + s
  }

  /** Insertion in input order: equal keys keep their input order. */
  function SortAsc<T>(s: seq<T>, key: T -> string): (r: seq<T>)
    ensures |r| == |s|
    ensures multiset(r) == multiset(s)
  {
    if s == [] then []
    else
      assert s == s[..|s| - 1] + [s[|s| - 1]];
      InsertAsc(SortAsc(s[..|s| - 1], key), s[|s| - 1], key)
  }

  /** Every element sorts no earlier than lo. */
  predicate Above<T>(lo: string, s: seq<T>, key: T -> string) {
    forall j :: 0 <= j < |s| ==> Le(lo, key(s[j]))
  }

  /** A head no later than every element of a sorted tail keeps the list
      sorted. */
  lemma ConsSorted<T>(h: T, t: seq<T>, key: T -> string)
    requires SortedAsc(t, key) && Above(key(h), t, key)
    ensures SortedAsc([h] + t, key)
  {
    var r := [h] + t;
    forall i, j | 0 <= i < j < |r|
      ensures Le(key(r[i]), key(r[j]))
    {
      assert r[j] == t[j - 1];
      if i > 0 {
        assert r[i] == t[i - 1];
      }
    }
  }

  /** A bound on every element carries over to any list with the same
      elements. */
  lemma AboveSameElements<T>(lo: string, s: seq<T>, r: seq<T>, key: T -> string)
    requires Above(lo, s, key) && multiset(r) <= multiset(s)
    ensures Above(lo, r, key)
  {
    forall j | 0 <= j < |r|
      ensures Le(lo, key(r[j]))
    {
      assert r[j] in multiset(s);
      var k :| 0 <= k < |s| && s[k] == r[j];
    }
  }

  lemma {:induction false} InsertAscSorted<T>(s: seq<T>, x: T, key: T -> string)
    requires SortedAsc(s, key)
    ensures SortedAsc(InsertAsc(s, x, key), key)
  {
    if s == [] {
      ConsSorted(x, [], key);
    } else if Le(key(s[0]), key(x)) {
      var t := s[1..];
      assert SortedAsc(t, key) by {
        assert forall i :: 0 <= i < |t| ==> t[i] == s[i + 1];
      }
      InsertAscSorted(t, x, key);
      var rest := InsertAsc(t, x, key);
      var pool := t + [x];
      assert Above(key(s[0]), pool, key) by {
        forall j | 0 <= j < |pool|
          ensures Le(key(s[0]), key(pool[j]))
        {
          if j < |t| {
            assert pool[j] == s[j + 1];
          }
        }
      }
      assert multiset(pool) == multiset(t) + multiset{x};
      AboveSameElements(key(s[0]), pool, rest, key);
      ConsSorted(s[0], rest, key);
    } else {
      LeTotal(key(s[0]), key(x));
      assert Above(key(x), s, key) by {
        forall j | 0 <= j < |s|
          ensures Le(key(x), key(s[j]))
        {
          if j > 0 {
            LeTransitive(key(x), key(s[0]), key(s[j]));
          }
        }
      }
      ConsSorted(x, s, key);
    }
  }

  lemma {:induction false} SortAscSorted<T>(s: seq<T>, key: T -> string)
    ensures SortedAsc(SortAsc(s, key), key)
  {
    if s != [] {
      SortAscSorted(s[..|s| - 1], key);
      InsertAscSorted(SortAsc(s[..|s| - 1], key), s[|s| - 1], key);
    }
  }
}

=== FILE: content.dfy ===
/** The mock content listing of the HTTP server (`http/server/content.go`):
    query parsing, tag filtering, the publish-time sort, the page window and
    the slug lookup behind `/api/content/news` and `/api/content/articles`.
    News items and article items have the same fields, so one item type
    serves both listings. RFC 3339 parsing and the clock are parameters. */
module Content {
  import opened Wrappers
  import opened Text
  import opened Http
  import Rows
  import Sorting

  /** A `newsItem` or an `articleItem`. */
  datatype Item = Item(id: string, slug: string, title: string, summary: string,
                       body: string, url: string, image: string,
                       publishedAt: string, tags: seq<string>)

  /** What `parseNewsQuery` hands to a listing. */
  datatype Query = Query(page: int, pageSize: int, category: string)

  /** One listing page. */
  datatype Page = Page(items: seq<Item>, total: nat, page: int, pageSize: int)

  const DefaultPage: int := 1
  const DefaultPageSize: int := 10
  const MaxPageSize: int := 50

  /** The query `parseNewsQuery` gives up on without an error. */
  const Rejected: Query := Query(0, 0, "")

  // ---------------------------------------------------------------------
  // Query parsing

  /** `parseNewsQuery`. `None` is the parse error the handlers answer with
      400. A numeric page below 1, or a numeric page size outside [1, 50],
      is not an error: the result is then `Rejected`. */
  function ParseQuery(pageRaw: string, sizeRaw: string, category: string): (r: Option<Query>)
    ensures pageRaw == "" && sizeRaw == "" ==> r == Some(Query(DefaultPage, DefaultPageSize, category))
    ensures pageRaw != "" && Atoi(pageRaw).None? ==> r.None?
    ensures r.None? ==> (pageRaw != "" && Atoi(pageRaw).None?) || (sizeRaw != "" && Atoi(sizeRaw).None?)
    ensures r.Some? ==>
      r.value == Rejected ||
      (1 <= r.value.page <= MaxInt64 && 1 <= r.value.pageSize <= MaxPageSize && r.value.category == category)
  {
    var page := if pageRaw == "" then Some(DefaultPage) else Atoi(pageRaw);
    if page.None? then None
    else if page.value < 1 then Some(Rejected)
    else
      var size := if sizeRaw == "" then Some(DefaultPageSize) else Atoi(sizeRaw);
      if size.None? then None
      else if size.value < 1 || size.value > MaxPageSize then Some(Rejected)
      else Some(Query(page.value, size.value, category))
  }

  /** Every page and page size in range reads back from its decimal text. */
  lemma ParseQueryReadsBack(page: int, size: int, category: string)
    requires 1 <= page <= MaxInt64 && 1 <= size <= MaxPageSize
    ensures ParseQuery(IntToString(page), IntToString(size), category) == Some(Query(page, size, category))
  {
    AtoiRoundTrip(page);
    AtoiRoundTrip(size);
  }

  /** A numeric page below 1 is rejected without an error, whatever the
      page size says. */
  lemma ParseQueryLowPage(page: int, sizeRaw: string, category: string)
    requires MinInt64 <= page < 1
    ensures ParseQuery(IntToString(page), sizeRaw, category) == Some(Rejected)
  {
    AtoiRoundTrip(page);
  }

  /** So is a numeric page size outside [1, 50]. */
  lemma ParseQueryBadSize(pageRaw: string, size: int, category: string)
    requires InInt64(size) && (size < 1 || size > MaxPageSize)
    requires pageRaw == "" || (Atoi(pageRaw).Some? && Atoi(pageRaw).value >= 1)
    ensures ParseQuery(pageRaw, IntToString(size), category) == Some(Rejected)
  {
    AtoiRoundTrip(size);
  }

  // ---------------------------------------------------------------------
  // Tag filter

  /** The inner loop of `filterNews`: is some tag equal to the category? */
  function HasTag(tags: seq<string>, category: string): (b: bool)
    ensures b <==> category in tags
  {
    tags != [] && (tags[0] == category || HasTag(tags[1..], category))
  }

  function TaggedWith(category: string): Item -> bool {
    (x: Item) => category in x.tags
  }

  /** The outer loop of `filterNews`: the items that carry the tag. */
  function Matching(items: seq<Item>, category: string): (r: seq<Item>)
    ensures r == Rows.Filter(items, TaggedWith(category))
  {
    if items == [] then []
    else (if HasTag(items[0].tags, category) then [items[0]] else []) + Matching(items[1..], category)
  }

  /** `filterNews` and `filterArticles`. */
  function FilterItems(items: seq<Item>, category: string): (r: seq<Item>)
    ensures category == "" ==> r == items
    ensures category != "" ==> r == Rows.Filter(items, TaggedWith(category))
    ensures forall i :: 0 <= i < |r| ==> r[i] in items && (category == "" || category in r[i].tags)
  {
    if category == "" then items else Matching(items, category)
  }

  /** A tagged item appears in the filtered list exactly as often as in the
      input, an untagged one not at all: each item once, nothing lost. */
  lemma {:induction false} FilterMultiplicity(items: seq<Item>, category: string, x: Item)
    requires category != ""
    ensures multiset(FilterItems(items, category))[x] ==
            (if category in x.tags then multiset(items)[x] else 0)
  {
    MatchingMultiplicity(items, category, x);
  }

  lemma {:induction false} MatchingMultiplicity(items: seq<Item>, category: string, x: Item)
    ensures multiset(Matching(items, category))[x] ==
            (if category in x.tags then multiset(items)[x] else 0)
  {
    if items != [] {
      var rest := Matching(items[1..], category);
      MatchingMultiplicity(items[1..], category, x);
      assert items == [items[0]] + items[1..];
      assert multiset(items)[x] == multiset([items[0]])[x] + multiset(items[1..])[x];
      if HasTag(items[0].tags, category) {
        assert Matching(items, category) == [items[0]] + rest;
        assert multiset(Matching(items, category))[x] == multiset([items[0]])[x] + multiset(rest)[x];
      } else {
        assert Matching(items, category) == rest;
        assert items[0] == x ==> category !in x.tags;
      }
    }
  }

  // ---------------------------------------------------------------------
  // Publish-time order

  /** The Unix second of Go's zero `time.Time`, 0001-01-01T00:00:00Z. */
  const ZeroTime: int := -62135596800

  /** The instant `publishedAfter` compares: the parsed timestamp, or the
      zero time when it does not parse. */
  function PublishTime(parse: string -> Option<int>, stamp: string): (t: int) {
    match parse(stamp)
    case Some(v) => v
    case None => ZeroTime
  }

  function TimeKey(parse: string -> Option<int>): Item -> int {
    (x: Item) => PublishTime(parse, x.publishedAt)
  }

  /** `publishedAfter(a, b)`: a is strictly later than b. */
  predicate PublishedAfter(parse: string -> Option<int>, a: string, b: string) {
    PublishTime(parse, a) > PublishTime(parse, b)
  }

  /** Two unparseable timestamps are equal to the sort, so such items keep
      their order; a parseable time later than year 1 beats an unparseable
      one. */
  lemma UnparseableIsZero(parse: string -> Option<int>, a: string, b: string)
    requires parse(a).None?
    ensures parse(b).None? ==> !PublishedAfter(parse, a, b) && !PublishedAfter(parse, b, a)
    ensures parse(b).Some? && parse(b).value > ZeroTime ==> PublishedAfter(parse, b, a)
  {
  }

  /** `sortNews` and `sortArticles`: the nested swap loop on a copy. */
  method SortItems(items: seq<Item>, parse: string -> Option<int>) returns (sorted: seq<Item>)
    ensures sorted == Sorting.SortDesc(items, TimeKey(parse))
    ensures multiset(sorted) == multiset(items)
    ensures Sorting.SortedDesc(sorted, TimeKey(parse))
    ensures forall k :: Sorting.WithKey(sorted, TimeKey(parse), k) == Sorting.WithKey(items, TimeKey(parse), k)
  {
    sorted := Sorting.InsertionSort(items, TimeKey(parse));
    forall k
      ensures Sorting.WithKey(sorted, TimeKey(parse), k) == Sorting.WithKey(items, TimeKey(parse), k)
    {
      Sorting.SortStable(items, TimeKey(parse), k);
    }
  }

  // ---------------------------------------------------------------------
  // Page window

  /** The window `sorted[start:end]` as the handlers compute it, on 64-bit
      integers; `None` when the slice expression would panic. */
  function WindowAsWritten(total: nat, page: int, pageSize: int): (r: Option<(int, int)>)
    requires InInt64(total) && InInt64(page) && InInt64(pageSize)
    ensures r.Some? ==> 0 <= r.value.0 <= r.value.1 <= total
  {
    var start0 := Wrap64((page - 1) * pageSize);
    var start := if start0 > total then total else start0;
    var end0 := Wrap64(start + pageSize);
    var end := if end0 > total then total else end0;
    if 0 <= start <= end then Some((start, end)) else None
  }

  /** The window the handlers mean: items `(page - 1) * pageSize` onwards,
      at most `pageSize` of them, clamped to the list. */
  function Window(total: nat, page: int, pageSize: int): (r: (nat, nat))
    ensures r.0 <= r.1 <= total
  {
    var want := (page - 1) * pageSize;
    var start: nat := if want < 0 then 0 else if want > total then total else want;
    var end: nat := if pageSize < 0 then start else if start + pageSize > total then total else start + pageSize;
    (start, end)
  }

  /** The window starts at `(page - 1) * pageSize` clamped to the list, and
      holds `pageSize` items, fewer only at the end of the list. */
  lemma WindowSpan(total: nat, page: int, pageSize: int)
    ensures var r := Window(total, page, pageSize);
      && (pageSize >= 0 ==> r.1 - r.0 <= pageSize)
      && (0 <= (page - 1) * pageSize <= total ==> r.0 == (page - 1) * pageSize)
      && ((page - 1) * pageSize >= total ==> r.0 == total)
      && (pageSize >= 0 && 0 <= (page - 1) * pageSize && (page - 1) * pageSize + pageSize <= total ==>
          r.1 - r.0 == pageSize)
  {
  }

  /** Consecutive pages are adjacent: each starts where the last one ended. */
  lemma PagesAdjacent(total: nat, page: int, pageSize: int)
    requires page >= 1 && pageSize >= 0
    ensures Window(total, page, pageSize).1 == Window(total, page + 1, pageSize).0
  {
    assert (page + 1 - 1) * pageSize == (page - 1) * pageSize + pageSize;
  }

  /** While the start offset fits in 64 bits, the handlers' window is the
      intended one. */
  lemma WindowAgrees(total: nat, page: int, pageSize: int)
    requires total <= MaxInt64 - MaxPageSize && 1 <= page <= MaxInt64 && 0 <= pageSize <= MaxPageSize
    requires (page - 1) * pageSize <= MaxInt64
    ensures WindowAsWritten(total, page, pageSize) == Some(Window(total, page, pageSize))
  {
    NonNegativeProduct(page - 1, pageSize);
  }

  /** Page 2^62 with page size 4 passes the parser, and its start offset
      wraps round to -4: the slice expression panics. */
  lemma WindowAsWrittenPanics(total: nat)
    requires InInt64(total)
    ensures ParseQuery(IntToString(0x4000_0000_0000_0000), IntToString(4), "") == Some(Query(0x4000_0000_0000_0000, 4, ""))
    ensures WindowAsWritten(total, 0x4000_0000_0000_0000, 4).None?
    ensures Window(total, 0x4000_0000_0000_0000, 4) == (total, total)
  {
    ParseQueryReadsBack(0x4000_0000_0000_0000, 4, "");
    assert (0x4000_0000_0000_0000 - 1) * 4 == 0x1_0000_0000_0000_0000 - 4;
  }

  /** Two pages further the wrapped start lands back inside the list: with
      20 items, page 2^62 + 2 of size 4 gets the items of page 2 instead of
      none. */
  lemma WindowAsWrittenWrongPage()
    ensures ParseQuery(IntToString(0x4000_0000_0000_0002), IntToString(4), "") == Some(Query(0x4000_0000_0000_0002, 4, ""))
    ensures WindowAsWritten(20, 0x4000_0000_0000_0002, 4) == Some((4, 8))
    ensures Window(20, 2, 4) == (4, 8)
    ensures Window(20, 0x4000_0000_0000_0002, 4) == (20, 20)
  {
    ParseQueryReadsBack(0x4000_0000_0000_0002, 4, "");
    assert (0x4000_0000_0000_0002 - 1) * 4 == 0x1_0000_0000_0000_0000 + 4;
    assert Wrap64(0x1_0000_0000_0000_0000 + 4) == 4;
    assert Wrap64(4 + 4) == 8;
  }

  // ---------------------------------------------------------------------
  // Listing

  /** The page a listing answers for a parsed query: filter, sort, window. */
  function ListPage(source: seq<Item>, parse: string -> Option<int>, q: Query): (p: Page)
    ensures p.total == |FilterItems(source, q.category)|
    ensures p.page == q.page && p.pageSize == q.pageSize
    ensures q.pageSize >= 0 ==> |p.items| <= q.pageSize
    ensures Sorting.SortedDesc(p.items, TimeKey(parse))
    ensures forall i :: 0 <= i < |p.items| ==> p.items[i] in source
    ensures forall i :: 0 <= i < |p.items| ==> q.category == "" || q.category in p.items[i].tags
    ensures var w := Window(p.total, q.page, q.pageSize);
      p.items == Sorting.SortDesc(FilterItems(source, q.category), TimeKey(parse))[w.0..w.1]
  {
    var filtered := FilterItems(source, q.category);
    var sorted := Sorting.SortDesc(filtered, TimeKey(parse));
    var w := Window(|sorted|, q.page, q.pageSize);
    WindowOfSorted(filtered, TimeKey(parse), w.0, w.1);
    Page(sorted[w.0..w.1], |sorted|, q.page, q.pageSize)
  }

  /** Pages 1 to n of a listing, laid end to end. */
  function FirstPages(source: seq<Item>, parse: string -> Option<int>, category: string, size: int, n: nat): seq<Item> {
    if n == 0 then []
    else FirstPages(source, parse, category, size, n - 1) + ListPage(source, parse, Query(n, size, category)).items
  }

  /** Paging neither skips nor repeats an item: the first n pages, laid end
      to end, are the start of the filtered list sorted newest first. */
  lemma {:induction false} PagesTile(source: seq<Item>, parse: string -> Option<int>, category: string, size: int, n: nat)
    requires size >= 0
    ensures var sorted := Sorting.SortDesc(FilterItems(source, category), TimeKey(parse));
      FirstPages(source, parse, category, size, n) == sorted[..Window(|sorted|, n + 1, size).0]
  {
    var sorted := Sorting.SortDesc(FilterItems(source, category), TimeKey(parse));
    if n == 0 {
      assert Window(|sorted|, 1, size).0 == 0;
    } else {
      PagesTile(source, parse, category, size, n - 1);
      PageStep(source, parse, category, size, n);
      Rows.PrefixExtends(sorted, FirstPages(source, parse, category, size, n - 1),
        ListPage(source, parse, Query(n, size, category)).items,
        Window(|sorted|, n, size).0, Window(|sorted|, n + 1, size).0);
    }
  }

  /** Page n runs from where page n - 1 ended to where page n + 1 starts. */
  lemma PageStep(source: seq<Item>, parse: string -> Option<int>, category: string, size: int, n: nat)
    requires size >= 0 && n >= 1
    ensures var sorted := Sorting.SortDesc(FilterItems(source, category), TimeKey(parse));
      Window(|sorted|, n, size).0 <= Window(|sorted|, n + 1, size).0 <= |sorted|
      && ListPage(source, parse, Query(n, size, category)).items
         == sorted[Window(|sorted|, n, size).0..Window(|sorted|, n + 1, size).0]
  {
    var sorted := Sorting.SortDesc(FilterItems(source, category), TimeKey(parse));
    assert |sorted| == |FilterItems(source, category)|;
    PagesAdjacent(|sorted|, n, size);
  }

  /** Once n pages reach past the total, they are the whole list. */
  lemma PagesCover(source: seq<Item>, parse: string -> Option<int>, category: string, size: int, n: nat)
    requires size >= 0
    ensures var sorted := Sorting.SortDesc(FilterItems(source, category), TimeKey(parse));
      n * size >= |sorted| ==> FirstPages(source, parse, category, size, n) == sorted
  {
    var sorted := Sorting.SortDesc(FilterItems(source, category), TimeKey(parse));
    PagesTile(source, parse, category, size, n);
    if n * size >= |sorted| {
      assert (n + 1 - 1) * size == n * size;
      assert sorted[..|sorted|] == sorted;
    }
  }

  /** A slice of the sorted list is sorted and holds only input items. */
  lemma WindowOfSorted(s: seq<Item>, key: Item -> int, lo: nat, hi: nat)
    requires lo <= hi <= |s|
    ensures Sorting.SortedDesc(Sorting.SortDesc(s, key)[lo..hi], key)
    ensures forall i :: 0 <= i < hi - lo ==> Sorting.SortDesc(s, key)[lo..hi][i] in s
  {
    var sorted := Sorting.SortDesc(s, key);
    Sorting.SortSorted(s, key);
    SliceSorted(sorted, key, lo, hi);
    Sorting.SortPermutes(s, key);
    SliceMembers(sorted, s, lo, hi);
  }

  lemma SliceSorted(s: seq<Item>, key: Item -> int, lo: nat, hi: nat)
    requires lo <= hi <= |s| && Sorting.SortedDesc(s, key)
    ensures Sorting.SortedDesc(s[lo..hi], key)
  {
    forall i, j | 0 <= i < j < hi - lo
      ensures key(s[lo..hi][i]) >= key(s[lo..hi][j])
    {
      assert s[lo..hi][i] == s[lo + i] && s[lo..hi][j] == s[lo + j];
    }
  }

  lemma SliceMembers(s: seq<Item>, t: seq<Item>, lo: nat, hi: nat)
    requires lo <= hi <= |s| && multiset(s) == multiset(t)
    ensures forall i :: 0 <= i < hi - lo ==> s[lo..hi][i] in t
  {
    forall i | 0 <= i < hi - lo
      ensures s[lo..hi][i] in t
    {
      assert s[lo..hi][i] == s[lo + i];
      assert s[lo + i] in multiset(s);
    }
  }

  /** `newsListHandler` and `articlesListHandler` over their item source. */
  method ListHandler(source: seq<Item>, parse: string -> Option<int>,
                     pageRaw: string, sizeRaw: string, category: string)
    returns (r: Response<Page>)
    ensures r.Failure? <==> ParseQuery(pageRaw, sizeRaw, category).None?
    ensures r.Failure? ==> r.status == 400
    ensures r.Success? ==> r.status == 200 && r.body == ListPage(source, parse, ParseQuery(pageRaw, sizeRaw, category).value)
  {
    var q := ParseQuery(pageRaw, sizeRaw, category);
    if q.None? {
      return Failure(400);
    }
    var filtered := FilterItems(source, q.value.category);
    var sorted := SortItems(filtered, parse);
    var total := |sorted|;
    var w := Window(total, q.value.page, q.value.pageSize);
    r := Success(200, Page(sorted[w.0..w.1], total, q.value.page, q.value.pageSize));
  }

  /** A page that lies wholly inside the list is full. */
  lemma FullPage(source: seq<Item>, parse: string -> Option<int>, q: Query)
    requires q.pageSize >= 0 && (q.page - 1) * q.pageSize >= 0
    requires (q.page - 1) * q.pageSize + q.pageSize <= |FilterItems(source, q.category)|
    ensures |ListPage(source, parse, q).items| == q.pageSize
  {
  }

  /** A rejected query lists nothing but still reports every item. */
  lemma RejectedListsNothing(source: seq<Item>, parse: string -> Option<int>)
    ensures ListPage(source, parse, Rejected).items == []
    ensures ListPage(source, parse, Rejected).total == |source|
  {
  }

  // ---------------------------------------------------------------------
  // Detail

  const NewsPrefix: string := "/api/content/news/"
  const ArticlesPrefix: string := "/api/content/articles/"

  /** The first path segment after the prefix. */
  function Segment(path: string, prefix: string): (s: string)
    ensures '/' !in s
  {
    Split(TrimPrefix(path, prefix), '/')[0]
  }

  /** A slug without a `/` is its own segment, with or without more path
      after it. */
  lemma SegmentOfSlug(prefix: string, slug: string, rest: string)
    requires '/' !in slug
    ensures Segment(prefix + slug, prefix) == slug
    ensures Segment(prefix + slug + "/" + rest, prefix) == slug
  {
    assert (prefix + slug)[..|prefix|] == prefix;
    assert TrimPrefix(prefix + slug, prefix) == slug;
    SplitNoSep(slug, '/');
    var long := prefix + slug + "/" + rest;
    assert long[..|prefix|] == prefix;
    assert TrimPrefix(long, prefix) == slug + ['/'] + rest;
    SplitAfterPiece(slug, rest, '/');
  }

  function SlugIs(slug: string): Item -> bool {
    (x: Item) => x.slug == slug
  }

  /** `newsDetailHandler` and `articlesDetailHandler`. */
  function Detail(items: seq<Item>, prefix: string, path: string): (r: Response<Item>)
    ensures r.Failure? ==> r.status == 404
    ensures r.Failure? <==>
      Segment(path, prefix) == "" || forall j :: 0 <= j < |items| ==> items[j].slug != Segment(path, prefix)
    ensures r.Success? ==> r.status == 200 && r.body.slug == Segment(path, prefix) && r.body.slug != ""
    ensures r.Success? ==>
      exists k :: 0 <= k < |items| && items[k] == r.body && forall j :: 0 <= j < k ==> items[j].slug != r.body.slug
  {
    var slug := Segment(path, prefix);
    if slug == "" then Failure(404)
    else match Rows.FirstIndex(items, SlugIs(slug))
      case None => Failure(404)
      case Some(k) => Success(200, items[k])
  }

  /** Every item whose slug is non-empty and has no `/` is reachable at
      prefix + slug, and the reply carries that slug. */
  lemma DetailFinds(items: seq<Item>, prefix: string, k: nat)
    requires k < |items| && items[k].slug != "" && '/' !in items[k].slug
    ensures Detail(items, prefix, prefix + items[k].slug).Success?
    ensures Detail(items, prefix, prefix + items[k].slug).body.slug == items[k].slug
  {
    SegmentOfSlug(prefix, items[k].slug, "");
  }

  // ---------------------------------------------------------------------
  // Seed data

  const Categories: seq<string> := ["OpenAI", "Tools", "Market", "AI-Dala updates"]
  const SeedCount: nat := 32

  /** Item i of `seedNews`, built from the base item `i mod |base|`;
      `stamp(i)` is the RFC 3339 text of the clock reading minus i days. */
  function SeedItem(base: seq<Item>, stamp: int -> string, i: nat): (x: Item)
    requires |base| > 0
  {
    var ref := base[i % |base|];
    var slug := Lower(ref.slug + "-" + IntToString(i));
    Item(ref.id + "-" + IntToString(i), slug, ref.title + " #" + IntToString(i + 1),
         ref.summary, ref.body, "/news/" + slug, ref.image, stamp(i), [Categories[i % |Categories|]])
  }

  /** `seedNews`. */
  function SeedNews(base: seq<Item>, stamp: int -> string): (r: seq<Item>)
    requires |base| > 0
    ensures |r| == SeedCount
    ensures forall i :: 0 <= i < |r| ==> r[i] == SeedItem(base, stamp, i)
    ensures forall i :: 0 <= i < |r| ==> r[i].tags == [Categories[i % 4]] && r[i].publishedAt == stamp(i)
  {
    seq(SeedCount, i requires 0 <= i < SeedCount => SeedItem(base, stamp, i))
  }

  /** The seed items are generated newest first, so when each stamp parses
      back to its instant the sort leaves them where they are. */
  lemma SeedAlreadySorted(base: seq<Item>, stamp: int -> string, parse: string -> Option<int>, now: int)
    requires |base| > 0
    requires forall i :: 0 <= i < SeedCount ==> parse(stamp(i)) == Some(now - i * 86400)
    ensures Sorting.SortDesc(SeedNews(base, stamp), TimeKey(parse)) == SeedNews(base, stamp)
  {
    var s := SeedNews(base, stamp);
    forall i, j | 0 <= i < j < |s|
      ensures TimeKey(parse)(s[i]) >= TimeKey(parse)(s[j])
    {
      assert s[i].publishedAt == stamp(i) && s[j].publishedAt == stamp(j);
    }
    Sorting.SortOfSorted(s, TimeKey(parse));
  }

  /** The default news listing shows ten items; page 2 of size 5 shows
      five. */
  lemma SeedPages(base: seq<Item>, stamp: int -> string, parse: string -> Option<int>)
    requires |base| > 0
    ensures |ListPage(SeedNews(base, stamp), parse, ParseQuery("", "", "").value).items| == 10
    ensures |ListPage(SeedNews(base, stamp), parse, Query(2, 5, "")).items| == 5
  {
    FullPage(SeedNews(base, stamp), parse, Query(1, 10, ""));
    FullPage(SeedNews(base, stamp), parse, Query(2, 5, ""));
  }
}

=== FILE: http.dfy ===
/** What every handler answers with, and how handlers read numeric query
    parameters. */
module Http {
  import opened Wrappers
  import opened Text

  /** An HTTP reply: an error status, or a status with a JSON body. */
  datatype Response<T> = Failure(status: int) | Success(status: int, body: T)

  // ---------------------------------------------------------------------
  // Query parameters

  /** A numeric parameter that replaces its default only when it parses
      (`strconv.Atoi`) and is positive. */
  function PositiveOr(raw: string, default: int): (v: int)
    ensures default > 0 ==> v > 0
    ensures v == default || (Atoi(raw) == Some(v) && v > 0)
    ensures Atoi(raw).None? ==> v == default
  {
    if raw != "" then
      match Atoi(raw)
      case Some(l) => if l > 0 then l else default
      case None => default
    else default
  }

  /** A numeric parameter that replaces its default only when it parses and
      lies in [1, hi]. */
  function BoundedOr(raw: string, default: int, hi: int): (v: int)
    ensures 1 <= default <= hi ==> 1 <= v <= hi
    ensures v == default || (Atoi(raw) == Some(v) && 1 <= v <= hi)
    ensures Atoi(raw).None? ==> v == default
  {
    if raw != "" then
      match Atoi(raw)
      case Some(l) => if l > 0 && l <= hi then l else default
      case None => default
    else default
  }

  /** What a client sends is what the handler uses: the decimal form of a
      positive 64-bit number replaces the default, any other number does
      not. */
  lemma PositiveOrReadsBack(n: int, default: int)
    requires InInt64(n)
    ensures PositiveOr(IntToString(n), default) == if n > 0 then n else default
  {
    AtoiRoundTrip(n);
  }

  /** The same for the search limit, whose accepted range is [1, 50]. */
  lemma BoundedOrReadsBack(n: int, default: int, hi: int)
    requires InInt64(n)
    ensures BoundedOr(IntToString(n), default, hi) == if 1 <= n <= hi then n else default
  {
    AtoiRoundTrip(n);
  }

  /** A numeric parameter that replaces its default only when it parses and
      is not negative. */
  function NonNegativeOr(raw: string, default: int): (v: int)
    ensures default >= 0 ==> v >= 0
    ensures v == default || (Atoi(raw) == Some(v) && v >= 0)
    ensures Atoi(raw).None? ==> v == default
  {
    if raw != "" then
      match Atoi(raw)
      case Some(o) => if o >= 0 then o else default
      case None => default
    else default
  }

  lemma NonNegativeOrReadsBack(n: int, default: int)
    requires InInt64(n)
    ensures NonNegativeOr(IntToString(n), default) == if n >= 0 then n else default
  {
    AtoiRoundTrip(n);
  }
}

=== FILE: language_switcher.dfy ===
/** The language switcher: the locale list, the entry shown for the current
    locale, and the path the router moves to when another language is
    picked. English is the default locale and carries no path prefix. */
module LanguageSwitcher {
  import Text

  datatype LocaleEntry = LocaleEntry(code: string, caption: string, name: string)

  const Locales: seq<LocaleEntry> := [
    LocaleEntry("en", "EN", "English"),
    LocaleEntry("ru", "RU", "Русский"),
    LocaleEntry("kk", "KK", "Қазақ")
  ]

  /** The entry whose code is the current locale; the first entry when no
      code matches. */
  function CurrentLocale(locale: string): (r: LocaleEntry)
    ensures r in Locales
    ensures (exists i :: 0 <= i < |Locales| && Locales[i].code == locale) ==> r.code == locale
    ensures (forall i :: 0 <= i < |Locales| ==> Locales[i].code != locale) ==> r == Locales[0]
  {
    if locale == "en" then Locales[0]
    else if locale == "ru" then Locales[1]
    else if locale == "kk" then Locales[2]
    else Locales[0]
  }

  /** The path starts with one of the three locale prefixes, matched on
      characters only: "/english" counts. */
  predicate LocalePrefixed(path: string) {
    Text.HasPrefix(path, "/en") || Text.HasPrefix(path, "/ru") || Text.HasPrefix(path, "/kk")
  }

  /** One leading "/en", "/ru" or "/kk" removed; an empty remainder is the
      root path. */
  function StripLocale(path: string): (r: string)
    ensures r != ""
    ensures LocalePrefixed(path) && |path| > 3 ==> r == path[3..]
    ensures LocalePrefixed(path) && |path| == 3 ==> r == "/"
    ensures !LocalePrefixed(path) && path != "" ==> r == path
    ensures path == "" ==> r == "/"
  {
    var rest := if LocalePrefixed(path) then path[3..] else path;
    if rest == "" then "/" else rest
  }

  /** The path the router replaces the current one with. */
  function SwitchPath(path: string, newLocale: string): (r: string)
    ensures newLocale == "en" ==> r == StripLocale(path)
    ensures newLocale != "en" ==> r == "/" + newLocale + StripLocale(path)
  {
    var stripped := StripLocale(path);
    if newLocale == "en" then stripped else "/" + newLocale + stripped
  }

  // ---------------------------------------------------------------------
  // Properties

  /** Picking Russian or Kazakh gives a path that carries that locale's
      prefix, so switching back strips exactly what was added. */
  lemma SwitchRoundTrip(path: string, locale: string)
    requires locale == "ru" || locale == "kk"
    requires |path| > 0 && path[0] == '/' && !LocalePrefixed(path)
    ensures SwitchPath(SwitchPath(path, locale), "en") == path
  {
    var there := SwitchPath(path, locale);
    assert there == "/" + locale + path;
    assert there[..3] == "/" + locale;
    assert LocalePrefixed(there);
    assert there[3..] == path;
  }

  /** Switching any page to a locale and then to another one lands on the
      same page under the second locale. */
  lemma SwitchTwice(path: string, a: string, b: string)
    requires a == "ru" || a == "kk"
    requires b == "ru" || b == "kk"
    requires |path| > 0 && path[0] == '/' && !LocalePrefixed(path)
    ensures SwitchPath(SwitchPath(path, a), b) == SwitchPath(path, b)
  {
    SwitchRoundTrip(path, a);
  }

  /** Leaving the Russian home page for English goes to the root. */
  lemma RussianHomeToEnglish()
    ensures SwitchPath("/ru", "en") == "/"
  {
    assert LocalePrefixed("/ru") by {
      assert "/ru"[..3] == "/ru";
    }
  }

  /** The prefix is not matched as a path segment. */
  lemma EnglishWordLosesPrefix()
    ensures StripLocale("/english") == "glish"
  {
    assert "/english"[..3] == "/en";
    assert "/english"[3..] == "glish";
  }

  /** A locale outside the list shows English. */
  lemma UnknownLocaleShowsEnglish(locale: string)
    requires locale != "en" && locale != "ru" && locale != "kk"
    ensures CurrentLocale(locale).code == "en"
  {
  }
}

=== FILE: like_control.dfy ===
/** The like/dislike buttons of an article page: an optimistic state
    machine. A click updates the reaction and the counters at once, sends
    the request, and puts the previous values back when the request fails.
    The session, the request's outcome and the page's alert are parameters
    of a click. */
module LikeControl {
  import opened Wrappers

  /** userLike: Some(true) = liked, Some(false) = disliked, None = no
      reaction. */
  datatype LikeState = LikeState(userLike: Option<bool>, likes: int, dislikes: int, loading: bool)

  /** The request a click sends: none, a removal, or a reaction. */
  datatype Request = NoRequest | Remove | Send(isLike: bool)

  datatype Outcome = Outcome(state: LikeState, request: Request, alerted: bool)

  function Initial(likes: int, dislikes: int): LikeState {
    LikeState(None, likes, dislikes, false)
  }

  /** The state shown while the request is in flight. */
  function Optimistic(s: LikeState, isLike: bool): (o: LikeState)
    ensures o.loading
  {
    if s.userLike == Some(isLike) then
      LikeState(None,
        if isLike then s.likes - 1 else s.likes,
        if isLike then s.dislikes else s.dislikes - 1,
        true)
    else if isLike then
      LikeState(Some(true), s.likes + 1, if s.userLike == Some(false) then s.dislikes - 1 else s.dislikes, true)
    else
      LikeState(Some(false), if s.userLike == Some(true) then s.likes - 1 else s.likes, s.dislikes + 1, true)
  }

  /** One click on the like (isLike) or dislike button; requestOk is whether
      the request came back ok. */
  function Click(s: LikeState, signedIn: bool, isLike: bool, requestOk: bool): (r: Outcome)
    ensures !signedIn ==> r == Outcome(s, NoRequest, true)
    ensures signedIn && s.loading ==> r == Outcome(s, NoRequest, false)
    ensures signedIn && !s.loading ==>
      && !r.alerted
      && !r.state.loading
      && r.request == (if s.userLike == Some(isLike) then Remove else Send(isLike))
      && (requestOk ==> r.state == Optimistic(s, isLike).(loading := false))
      && (!requestOk ==> r.state == s)
  {
    if !signedIn then Outcome(s, NoRequest, true)
    else if s.loading then Outcome(s, NoRequest, false)
    else
      var request := if s.userLike == Some(isLike) then Remove else Send(isLike);
      var shown := Optimistic(s, isLike);
      var settled := if requestOk then shown else LikeState(s.userLike, s.likes, s.dislikes, shown.loading);
      Outcome(settled.(loading := false), request, false)
  }

  /** New counters from the page overwrite both counters. */
  function SyncProps(s: LikeState, likes: int, dislikes: int): (r: LikeState)
    ensures r.likes == likes && r.dislikes == dislikes
    ensures r.userLike == s.userLike && r.loading == s.loading
  {
    s.(likes := likes, dislikes := dislikes)
  }

  // ---------------------------------------------------------------------
  // Properties

  /** The counters agree with a server-side base count plus this user's
      own reaction. */
  predicate Consistent(s: LikeState, baseLikes: int, baseDislikes: int) {
    s.likes == baseLikes + (if s.userLike == Some(true) then 1 else 0)
    && s.dislikes == baseDislikes + (if s.userLike == Some(false) then 1 else 0)
  }

  /** Whatever the click's outcome, the counters stay the base counts plus
      the reaction shown. */
  lemma ClickKeepsConsistent(s: LikeState, signedIn: bool, isLike: bool, requestOk: bool, baseLikes: int, baseDislikes: int)
    requires Consistent(s, baseLikes, baseDislikes)
    ensures Consistent(Click(s, signedIn, isLike, requestOk).state, baseLikes, baseDislikes)
  {
  }

  /** Clicking the shown reaction removes it; clicking the other one
      switches to it; clicking with no reaction sets it. */
  lemma ClickReaction(s: LikeState, isLike: bool)
    requires !s.loading
    ensures Click(s, true, isLike, true).state.userLike == if s.userLike == Some(isLike) then None else Some(isLike)
  {
  }

  /** The total of both counters moves by one for a new reaction, by
      nothing for a switch, and back by one for a removal. */
  lemma ClickTotal(s: LikeState, isLike: bool)
    requires !s.loading
    ensures var r := Click(s, true, isLike, true).state;
      r.likes + r.dislikes - (s.likes + s.dislikes)
      == if s.userLike == None then 1 else if s.userLike == Some(isLike) then -1 else 0
  {
    var o := Optimistic(s, isLike);
    if s.userLike == Some(isLike) {
      assert o.likes + o.dislikes == s.likes + s.dislikes - 1;
    } else if s.userLike == None {
      assert o.likes + o.dislikes == s.likes + s.dislikes + 1;
    } else {
      assert s.userLike.value == !isLike;
      assert o.likes + o.dislikes == s.likes + s.dislikes;
    }
  }

  /** Liking twice, both requests ok, shows the starting counters again. */
  lemma LikeTwice(s: LikeState, isLike: bool)
    requires !s.loading && s.userLike == None
    ensures var once := Click(s, true, isLike, true).state;
      Click(once, true, isLike, true).state == s
  {
  }

  /** A failed request leaves reaction and counters as they were. */
  lemma FailedClickRestores(s: LikeState, signedIn: bool, isLike: bool)
    ensures var r := Click(s, signedIn, isLike, false).state;
      r.userLike == s.userLike && r.likes == s.likes && r.dislikes == s.dislikes
  {
  }
}

=== FILE: news_services.dfy ===
/** The news page's data layer: the local fixture list, the fallback
    listing built from it, the decision between the upstream answer and
    the fallback, and the small markdown converter applied to bodies. The
    clock and the ISO date formatter are parameters; the upstream call is
    reduced to its outcome. Only '\n' is treated as a line terminator. */
module NewsServices {
  import opened Wrappers
  import Text
  import Rows

  datatype NewsItem = NewsItem(
    id: string,
    slug: string,
    title: string,
    summary: string,
    body: string,
    bodyHtml: string,
    url: string,
    image: Option<string>,
    publishedAt: string,
    tags: seq<string>)

  datatype Listing = Listing(items: seq<NewsItem>, total: int)

  /** What the upstream call came back with. */
  datatype Upstream = NotOk | Threw | Answered(items: seq<NewsItem>, total: int)

  const NewsCategories: seq<string> := ["OpenAI", "Tools", "Market", "AI-Dala updates"]
  const LocalCount: nat := 32
  const DayMillis: int := 24 * 60 * 60 * 1000

  // ---------------------------------------------------------------------
  // JavaScript's Array.prototype.slice

  /** A slice bound as JavaScript resolves it: negative counts from the
      end, and the result is clamped to [0, n]. */
  function SliceIndex(k: int, n: nat): (r: nat)
    ensures r <= n
    ensures k >= 0 ==> r == if k <= n then k else n
  {
    if k < 0 then (if n + k < 0 then 0 else n + k)
    else if k <= n then k else n
  }

  function JsSlice<T>(s: seq<T>, start: int, end: int): (r: seq<T>)
  {
    var a := SliceIndex(start, |s|);
    var b := SliceIndex(end, |s|);
    if a < b then s[a..b] else []
  }

  /** Resolving bounds never widens a range. */
  lemma SliceIndexSpread(j: int, k: int, n: nat)
    requires j <= k
    ensures SliceIndex(k, n) - SliceIndex(j, n) <= k - j
  {
  }

  /** A slice is a contiguous run of the input, at most end - start long
      when start <= end. */
  lemma JsSliceFacts<T>(s: seq<T>, start: int, end: int)
    ensures start <= end ==> |JsSlice(s, start, end)| <= end - start
    ensures forall x :: x in JsSlice(s, start, end) ==> x in s
    ensures 0 <= start <= end ==>
      JsSlice(s, start, end) == s[if start <= |s| then start else |s|..if end <= |s| then end else |s|]
  {
    if start <= end {
      SliceIndexSpread(start, end, |s|);
    }
  }

  /** With a negative width the bounds can cross zero and select a
      non-empty run: `slice(0, -1)` drops only the last element. */
  lemma NegativeWidthSlice<T>(s: seq<T>)
    requires |s| >= 2
    ensures JsSlice(s, 0, -1) == s[..|s| - 1]
  {
  }

  // ---------------------------------------------------------------------
  // Markdown

  /** The heading rule for one line: `### t`, `## t` and `# t` become
      h3, h2 and h1 elements; other lines are kept. */
  function HeadingLine(line: string): string
  {
    if Text.HasPrefix(line, "### ") then "<h3>" + line[4..] + "</h3>"
    else if Text.HasPrefix(line, "## ") then "<h2>" + line[3..] + "</h2>"
    else if Text.HasPrefix(line, "# ") then "<h1>" + line[2..] + "</h1>"
    else line
  }

  /** The end of the first line: the first '\n', or the end. */
  function LineEnd(s: string): (k: nat)
    ensures k <= |s|
    ensures forall i :: 0 <= i < k ==> s[i] != '\n'
    ensures k < |s| ==> s[k] == '\n'
  {
    if s == [] || s[0] == '\n' then 0 else 1 + LineEnd(s[1..])
  }

  /** Every line rewritten by the heading rule, the newlines kept. */
  function Headings(s: string): (r: string)
    decreases |s|
  {
    var k := LineEnd(s);
    if k < |s| then HeadingLine(s[..k]) + "\n" + Headings(s[k + 1..])
    else HeadingLine(s)
  }

  /** `.replace(/\n$/gm, "<br>")`: a newline followed by another newline
      or by the end becomes a break. */
  function Breaks(s: string): (r: string)
  {
    if s == [] then []
    else if s[0] == '\n' && (|s| == 1 || s[1] == '\n') then "<br>" + Breaks(s[1..])
    else [s[0]] + Breaks(s[1..])
  }

  /** `.replace(/\n\n/g, "<p>")`, left to right without overlap. */
  function Paragraphs(s: string): (r: string)
  {
    if s == [] then []
    else if |s| >= 2 && s[0] == '\n' && s[1] == '\n' then "<p>" + Paragraphs(s[2..])
    else [s[0]] + Paragraphs(s[1..])
  }

  function MarkdownToHtml(md: string): string {
    Paragraphs(Breaks(Headings(md)))
  }

  /** No newline is directly followed by another one. */
  predicate NoBlankLine(s: string) {
    forall i :: 0 <= i < |s| - 1 ==> !(s[i] == '\n' && s[i + 1] == '\n')
  }

  /** After the break rule no newline ends the text or precedes another. */
  lemma {:induction false} BreaksLeaveNoBlankLine(s: string)
    ensures NoBlankLine(Breaks(s))
    ensures Breaks(s) != [] ==> Breaks(s)[|Breaks(s)| - 1] != '\n'
    ensures s != [] && s[0] != '\n' ==> Breaks(s) != [] && Breaks(s)[0] == s[0]
    ensures s == [] <==> Breaks(s) == []
  {
    if s != [] {
      BreaksLeaveNoBlankLine(s[1..]);
      var rest := Breaks(s[1..]);
      var head := if s[0] == '\n' && (|s| == 1 || s[1] == '\n') then "<br>" else [s[0]];
      var r := head + rest;
      assert Breaks(s) == r;
      forall i | 0 <= i < |r| - 1
        ensures !(r[i] == '\n' && r[i + 1] == '\n')
      {
        if i >= |head| {
          assert r[i] == rest[i - |head|] && r[i + 1] == rest[i + 1 - |head|];
        } else if i == |head| - 1 && r[i] == '\n' {
          assert head == [s[0]] && s[0] == '\n';
          assert |s| > 1 && s[1] != '\n';
          assert r[i + 1] == rest[0];
        }
      }
    }
  }

  /** The paragraph rule only rewrites blank lines. */
  lemma {:induction false} ParagraphsWithoutBlankLine(s: string)
    requires NoBlankLine(s)
    ensures Paragraphs(s) == s
  {
    if s != [] {
      assert NoBlankLine(s[1..]) by {
        forall i | 0 <= i < |s[1..]| - 1
          ensures !(s[1..][i] == '\n' && s[1..][i + 1] == '\n')
        {
          assert s[1..][i] == s[i + 1] && s[1..][i + 1] == s[i + 2];
        }
      }
      ParagraphsWithoutBlankLine(s[1..]);
    }
  }

  /** As the converter is written, its paragraph rule never fires: the
      break rule has already consumed every blank line, so the result is
      the headings with breaks and never holds a `<p>`. */
  lemma ParagraphRuleIsDead(md: string)
    ensures MarkdownToHtml(md) == Breaks(Headings(md))
  {
    BreaksLeaveNoBlankLine(Headings(md));
    ParagraphsWithoutBlankLine(Breaks(Headings(md)));
  }

  /** A single line: the heading rule applied to it, no newline added. */
  lemma SingleLine(line: string)
    requires forall i :: 0 <= i < |line| ==> line[i] != '\n'
    ensures Headings(line) == HeadingLine(line)
    ensures MarkdownToHtml(line) == Breaks(HeadingLine(line))
  {
    ParagraphRuleIsDead(line);
  }

  /** A line starting with a marker of n hashes and a space becomes a
      heading of level n. */
  lemma HeadingLevels(line: string)
    requires |line| >= 2 && line[0] == '#'
    ensures line[1] == ' ' ==> HeadingLine(line) == "<h1>" + line[2..] + "</h1>"
    ensures |line| >= 3 && line[1] == '#' && line[2] == ' ' ==> HeadingLine(line) == "<h2>" + line[3..] + "</h2>"
    ensures |line| >= 4 && line[1] == '#' && line[2] == '#' && line[3] == ' ' ==> HeadingLine(line) == "<h3>" + line[4..] + "</h3>"
  {
    if line[1] == ' ' {
      NotMarker(line, "## ", 1);
      NotMarker(line, "### ", 1);
    } else if |line| >= 3 && line[1] == '#' && line[2] == ' ' {
      NotMarker(line, "### ", 2);
      assert line[..3] == "## ";
    } else if |line| >= 4 && line[1] == '#' && line[2] == '#' && line[3] == ' ' {
      assert line[..4] == "### ";
    }
  }

  lemma NotMarker(line: string, marker: string, i: nat)
    requires i < |line| && i < |marker| && line[i] != marker[i]
    ensures !Text.HasPrefix(line, marker)
  {
  }

  /** The lines and their headings, line by line. */
  lemma {:induction false} HeadingsPerLine(a: string, b: string)
    requires forall i :: 0 <= i < |a| ==> a[i] != '\n'
    ensures Headings(a + "\n" + b) == HeadingLine(a) + "\n" + Headings(b)
  {
    var s := a + "\n" + b;
    LineEndOf(a, b);
    assert s[..|a|] == a && s[|a| + 1..] == b;
  }

  lemma {:induction false} LineEndOf(a: string, b: string)
    requires forall i :: 0 <= i < |a| ==> a[i] != '\n'
    ensures LineEnd(a + "\n" + b) == |a|
  {
    if a != [] {
      assert (a + "\n" + b)[1..] == a[1..] + "\n" + b;
      LineEndOf(a[1..], b);
    }
  }

  // ---------------------------------------------------------------------
  // Local fixtures

  /** Item i of the fixture list. */
  function LocalItem(i: nat, now: int, iso: int -> string): (n: NewsItem)
    ensures n.slug == "local-news-" + Text.NatToString(i) && n.id == n.slug
    ensures n.url == "/news/" + n.slug
    ensures n.tags == [NewsCategories[i % 4]]
    ensures n.publishedAt == iso(now - i * DayMillis)
  {
    var cat := NewsCategories[i % 4];
    var number := Text.NatToString(i + 1);
    var slug := "local-news-" + Text.NatToString(i);
    NewsItem(
      slug,
      slug,
      "Local News Item #" + number,
      "Summary for " + cat + " item #" + number,
      "# Local News Item #" + number + "\n\nSummary for " + cat + " item #" + number + ".",
      MarkdownToHtml("## Local News Item #" + number + "\n\nSummary for " + cat + " item #" + number + "."),
      "/news/" + slug,
      Some("/AI-Dala-logo.png"),
      iso(now - i * DayMillis),
      [cat])
  }

  /** The 32 fixture items, newest first, one day apart. */
  function GenerateLocal(now: int, iso: int -> string): (r: seq<NewsItem>)
    ensures |r| == LocalCount
    ensures forall i :: 0 <= i < |r| ==> r[i] == LocalItem(i, now, iso)
  {
    seq(LocalCount, i requires 0 <= i < LocalCount => LocalItem(i, now, iso))
  }

  /** Fixture slugs are pairwise different. */
  lemma LocalSlugsUnique(now: int, iso: int -> string, i: nat, j: nat)
    requires i < j < LocalCount
    ensures GenerateLocal(now, iso)[i].slug != GenerateLocal(now, iso)[j].slug
  {
    var all := GenerateLocal(now, iso);
    if all[i].slug == all[j].slug {
      var p := "local-news-";
      assert all[i].slug[|p|..] == Text.NatToString(i);
      assert all[j].slug[|p|..] == Text.NatToString(j);
      Text.NatToStringInjective(i, j);
    }
  }

  /** The categories take turns: each holds every fourth item. */
  lemma LocalCategoriesRotate(now: int, iso: int -> string, i: nat)
    requires i + 4 < LocalCount
    ensures GenerateLocal(now, iso)[i].tags == GenerateLocal(now, iso)[i + 4].tags
  {
    var a, b := LocalItem(i, now, iso), LocalItem(i + 4, now, iso);
    assert (i + 4) % 4 == i % 4;
    assert a.tags == b.tags;
  }

  // ---------------------------------------------------------------------
  // Listing

  function HasTag(category: string): NewsItem -> bool {
    (n: NewsItem) => category in n.tags
  }

  /** The fixtures of a category (all of them when none is given). */
  function Filtered(category: string, now: int, iso: int -> string): seq<NewsItem> {
    var all := GenerateLocal(now, iso);
    if category != "" then Rows.Filter(all, HasTag(category)) else all
  }

  /** A category's fixtures are exactly the fixtures tagged with it, in
      order. */
  lemma FilteredFacts(category: string, now: int, iso: int -> string)
    ensures forall x :: x in Filtered(category, now, iso) ==> x in GenerateLocal(now, iso)
    ensures category != "" ==> forall x :: x in Filtered(category, now, iso) <==> x in GenerateLocal(now, iso) && category in x.tags
  {
  }

  /** The fallback listing: page `page` of the fixtures of the category. */
  function FallbackList(page: int, pageSize: int, category: string, now: int, iso: int -> string): (r: Listing)
    ensures r.total == |Filtered(category, now, iso)|
    ensures pageSize >= 0 ==> |r.items| <= pageSize
    ensures forall x :: x in r.items ==> x in Filtered(category, now, iso)
    ensures page >= 1 && pageSize >= 0 ==>
      (page - 1) * pageSize >= 0 && Window(Filtered(category, now, iso), (page - 1) * pageSize, pageSize, r.items)
  {
    var filtered := Filtered(category, now, iso);
    var start := (page - 1) * pageSize;
    StartNonNegative(page, pageSize);
    Listing(Page(filtered, start, pageSize), |filtered|)
  }

  lemma StartNonNegative(page: int, pageSize: int)
    ensures page >= 1 && pageSize >= 0 ==> (page - 1) * pageSize >= 0
  {
  }

  /** `f.slice(start, start + width)`. */
  function Page<T(==)>(f: seq<T>, start: int, width: int): (items: seq<T>)
    ensures width >= 0 ==> |items| <= width
    ensures forall x :: x in items ==> x in f
    ensures start >= 0 && width >= 0 ==> Window(f, start, width, items)
  {
    JsSliceFacts(f, start, start + width);
    JsSlice(f, start, start + width)
  }

  /** items is the run of f from start, pageSize long, cut at the end. */
  predicate Window<T(==)>(f: seq<T>, start: nat, pageSize: nat, items: seq<T>) {
    if start >= |f| then items == []
    else if start + pageSize >= |f| then items == f[start..]
    else items == f[start..start + pageSize]
  }

  /** Every fallback item is a fixture, and carries the category asked
      for. */
  lemma FallbackItemsMatch(page: int, pageSize: int, category: string, now: int, iso: int -> string)
    ensures forall x :: x in FallbackList(page, pageSize, category, now, iso).items ==>
      x in GenerateLocal(now, iso) && (category != "" ==> category in x.tags)
  {
    FilteredFacts(category, now, iso);
  }

  /** Without a category the fallback reports all 32 fixtures. */
  lemma FallbackTotalWithoutCategory(page: int, pageSize: int, now: int, iso: int -> string)
    ensures FallbackList(page, pageSize, "", now, iso).total == LocalCount
  {
  }

  /** The body shown for an upstream item: its markdown body, else its
      summary, converted. */
  function MapItem(item: NewsItem): (r: NewsItem)
    ensures r == item.(bodyHtml := r.bodyHtml)
    ensures item.body != "" ==> r.bodyHtml == MarkdownToHtml(item.body)
    ensures item.body == "" ==> r.bodyHtml == MarkdownToHtml(item.summary)
  {
    item.(bodyHtml := MarkdownToHtml(if item.body != "" then item.body else item.summary))
  }

  /** The upstream answer is used only when it is a full page: at least
      pageSize items and a total of at least pageSize. */
  predicate UsesUpstream(up: Upstream, pageSize: int) {
    up.Answered? && !(|up.items| < pageSize || up.total < pageSize)
  }

  function FetchNews(up: Upstream, page: int, pageSize: int, category: string, now: int, iso: int -> string): (r: Listing)
    ensures !UsesUpstream(up, pageSize) ==> r == FallbackList(page, pageSize, category, now, iso)
    ensures UsesUpstream(up, pageSize) ==>
      r.total == up.total && |r.items| == |up.items|
      && forall i :: 0 <= i < |r.items| ==> r.items[i] == MapItem(up.items[i])
  {
    match up
    case NotOk => FallbackList(page, pageSize, category, now, iso)
    case Threw => FallbackList(page, pageSize, category, now, iso)
    case Answered(items, total) =>
      var mapped := seq(|items|, i requires 0 <= i < |items| => MapItem(items[i]));
      if |mapped| < pageSize || total < pageSize then FallbackList(page, pageSize, category, now, iso)
      else Listing(mapped, total)
  }

  /** The last, partial page of a real upstream listing is replaced by the
      fixtures, and so is every page of a listing shorter than one page. */
  lemma PartialPageFallsBack(items: seq<NewsItem>, total: int, page: int, pageSize: int, category: string, now: int, iso: int -> string)
    requires |items| < pageSize || total < pageSize
    ensures FetchNews(Answered(items, total), page, pageSize, category, now, iso)
      == FallbackList(page, pageSize, category, now, iso)
  {
  }
}

=== FILE: preview.dfy ===
/** `generatePreview` of the articles service: the plain-text preview the
    public listing shows in place of an article's Markdown body. The header
    pass and everything after the markup passes are modelled; the image,
    link, code-block and inline-code passes are one opaque string transform
    supplied by the caller. Lengths count characters, which are bytes for
    ASCII text. */
module Preview {
  import opened Text

  /** The regular-expression class `\s`: `[\t\n\f\r ]`. */
  predicate IsReSpace(c: char) {
    c == ' ' || c == '\t' || c == '\n' || c == '\U{000C}' || c == '\r'
  }

  /** The length of the run of c at the front of s. */
  function RunOf(s: string, c: char): (n: nat)
    ensures n <= |s|
    ensures forall i :: 0 <= i < n ==> s[i] == c
    ensures n < |s| ==> s[n] != c
  {
    if s != [] && s[0] == c then 1 + RunOf(s[1..], c) else 0
  }

  /** The length of the run of `\s` characters at the front of s. */
  function SpaceRun(s: string): (n: nat)
    ensures n <= |s|
    ensures forall i :: 0 <= i < n ==> IsReSpace(s[i])
    ensures n < |s| ==> !IsReSpace(s[n])
  {
    if s != [] && IsReSpace(s[0]) then 1 + SpaceRun(s[1..]) else 0
  }

  /** The length of the match of `#{1,6}\s+` at the front of s, or 0 when
      there is none: one to six `#`, then the whole run of white space that
      follows (which may run over line ends). */
  function HeaderMatch(s: string): (n: nat)
    ensures n <= |s|
    ensures n > 0 ==> 2 <= n && s[0] == '#' && IsReSpace(s[n - 1])
    ensures n > 0 ==> forall i :: 0 <= i < n ==> s[i] == '#' || IsReSpace(s[i])
  {
    var h := RunOf(s, '#');
    if 1 <= h <= 6 && h < |s| && IsReSpace(s[h]) then
      var w := SpaceRun(s[h..]);
      assert forall i :: h <= i < h + w ==> s[i] == s[h..][i - h];
      h + w
    else 0
  }

  /** The `(?m)^#{1,6}\s+` pass from some position on: a match may start
      only at a line start, and the scan resumes right after it. */
  function StripHeadersFrom(s: string, lineStart: bool): (r: string)
    ensures |r| <= |s|
    decreases |s|
  {
    if s == [] then []
    else if lineStart && HeaderMatch(s) > 0 then
      var n := HeaderMatch(s);
      StripHeadersFrom(s[n..], s[n - 1] == '\n')
    else [s[0]] + StripHeadersFrom(s[1..], s[0] == '\n')
  }

  /** Removes the header markers of every Markdown heading line. */
  function StripHeaders(s: string): (r: string)
    ensures |r| <= |s|
  {
    StripHeadersFrom(s, true)
  }

  /** The characters a preview is about: neither `#` nor `\s`. */
  function Content(s: string): string {
    if s == [] then [] else (if s[0] != '#' && !IsReSpace(s[0]) then [s[0]] else []) + Content(s[1..])
  }

  lemma {:induction false} ContentAppend(a: string, b: string)
    ensures Content(a + b) == Content(a) + Content(b)
  {
    if a == [] {
      assert a + b == b;
    } else {
      assert (a + b)[1..] == a[1..] + b;
      ContentAppend(a[1..], b);
    }
  }

  lemma {:induction false} ContentOfMarkers(s: string)
    requires forall i :: 0 <= i < |s| ==> s[i] == '#' || IsReSpace(s[i])
    ensures Content(s) == []
  {
    if s != [] {
      ContentOfMarkers(s[1..]);
    }
  }

  /** The header pass removes only `#` and white space: the content
      characters all survive, in order. */
  lemma {:induction false} StripKeepsContent(s: string, lineStart: bool)
    ensures Content(StripHeadersFrom(s, lineStart)) == Content(s)
    decreases |s|
  {
    if s != [] {
      if lineStart && HeaderMatch(s) > 0 {
        var n := HeaderMatch(s);
        StripKeepsContent(s[n..], s[n - 1] == '\n');
        assert s == s[..n] + s[n..];
        ContentAppend(s[..n], s[n..]);
        ContentOfMarkers(s[..n]);
      } else {
        StripKeepsContent(s[1..], s[0] == '\n');
        ContentAppend([s[0]], StripHeadersFrom(s[1..], s[0] == '\n'));
        assert ([s[0]])[1..] == [];
      }
    }
  }

  /** Text without a `#` passes the header pass unchanged. */
  lemma {:induction false} StripWithoutHash(s: string, lineStart: bool)
    requires '#' !in s
    ensures StripHeadersFrom(s, lineStart) == s
    decreases |s|
  {
    if s != [] {
      assert HeaderMatch(s) == 0;
      assert '#' !in s[1..];
      StripWithoutHash(s[1..], s[0] == '\n');
      assert [s[0]] + s[1..] == s;
    }
  }

  /** Text on one line passes the header pass unchanged when it does not
      start a line: the pass looks for markers at line starts only. */
  lemma {:induction false} StripMidLine(s: string)
    requires '\n' !in s
    ensures StripHeadersFrom(s, false) == s
    decreases |s|
  {
    if s != [] {
      assert '\n' !in s[1..];
      StripMidLine(s[1..]);
      assert [s[0]] + s[1..] == s;
    }
  }

  /** A heading line of one to six `#` and a space loses its marker and
      the space; the heading text, free of `#`, stays. */
  lemma HeadingLine(level: nat, title: string)
    requires 1 <= level <= 6
    requires title != [] && !IsReSpace(title[0]) && '#' !in title
    ensures StripHeaders(seq(level, _ => '#') + " " + title) == title
  {
    var s := seq(level, _ => '#') + " " + title;
    assert s[level] == ' ';
    assert forall i :: 0 <= i < level ==> s[i] == '#';
    var h := RunOf(s, '#');
    assert h == level;
    var rest := s[level..];
    assert rest[0] == ' ' && rest[1] == title[0];
    assert SpaceRun(rest) == 1;
    assert s[level + 1..] == title;
    StripWithoutHash(title, false);
  }

  /** A run of seven `#` is not a heading: the line stays whole. */
  lemma SevenHashesStay(rest: string)
    requires '\n' !in rest
    ensures StripHeaders(seq(7, _ => '#') + rest) == seq(7, _ => '#') + rest
  {
    var s := seq(7, _ => '#') + rest;
    assert forall i :: 0 <= i < 7 ==> s[i] == '#';
    assert RunOf(s, '#') >= 7;
    assert HeaderMatch(s) == 0;
    assert '\n' !in s[1..];
    StripMidLine(s[1..]);
    assert [s[0]] + s[1..] == s;
  }

  // ---------------------------------------------------------------------
  // Emphasis, lines and length

  /** The `(\*\*|__|\*|_)` pass: every `*` and `_` goes, everything else
      stays in order. */
  function RemoveEmphasis(s: string): (r: string)
    ensures '*' !in r && '_' !in r
    ensures forall c :: c in r <==> c in s && c != '*' && c != '_'
    ensures |r| <= |s|
  {
    if s == [] then []
    else (if s[0] == '*' || s[0] == '_' then [] else [s[0]]) + RemoveEmphasis(s[1..])
  }

  /** Text without emphasis marks is its own result. */
  lemma {:induction false} RemoveEmphasisIdentity(s: string)
    requires '*' !in s && '_' !in s
    ensures RemoveEmphasis(s) == s
  {
    if s != [] {
      RemoveEmphasisIdentity(s[1..]);
      assert [s[0]] + s[1..] == s;
    }
  }

  /** So removing emphasis twice is removing it once. */
  lemma RemoveEmphasisIdempotent(s: string)
    ensures RemoveEmphasis(RemoveEmphasis(s)) == RemoveEmphasis(s)
  {
    RemoveEmphasisIdentity(RemoveEmphasis(s));
  }

  const MaxLines: nat := 10
  const MaxChars: nat := 300

  /** At most `MaxLines` lines, with `...` appended when lines were cut. */
  function CutLines(t: string): (r: string)
    ensures |Split(t, '\n')| <= MaxLines ==> r == t
    ensures |Split(t, '\n')| > MaxLines ==>
      |r| >= 3 && r[|r| - 3..] == "..." && HasPrefix(t, r[..|r| - 3])
    ensures Count(r, '\n') < MaxLines
  {
    var lines := Split(t, '\n');
    SplitJoinRoundTrip(t, '\n');
    if |lines| > MaxLines then
      var head := Join(lines[..MaxLines], '\n');
      JoinPrefix(lines, MaxLines, '\n');
      JoinCount(lines[..MaxLines], '\n');
      CountAppend(head, "...", '\n');
      assert (head + "...")[..|head|] == head;
      head + "..."
    else
      Join(lines, '\n')
  }

  /** At most `MaxChars` characters, with `...` appended when cut. */
  function CutLength(t: string): (r: string)
    ensures |r| <= MaxChars + 3
    ensures |t| <= MaxChars ==> r == t
    ensures |t| > MaxChars ==> |r| == MaxChars + 3 && HasPrefix(t, r[..MaxChars]) && r[MaxChars..] == "..."
    ensures Count(r, '\n') <= Count(t, '\n')
  {
    if |t| > MaxChars then
      CountPrefix(t, MaxChars, '\n');
      CountAppend(t[..MaxChars], "...", '\n');
      t[..MaxChars] + "..."
    else t
  }

  /** The text the line and length cuts work on: headers, markup and
      emphasis removed, surrounding white space trimmed. */
  function Plain(markup: string -> string, md: string): (t: string)
    ensures '*' !in t && '_' !in t
  {
    TrimSpace(RemoveEmphasis(markup(StripHeaders(md))))
  }

  /** `generatePreview`. */
  function GeneratePreview(markup: string -> string, md: string): (r: string)
    ensures '*' !in r && '_' !in r
    ensures |Split(r, '\n')| <= MaxLines
    ensures |r| <= MaxChars + 3
    ensures |Split(Plain(markup, md), '\n')| > MaxLines ==> |r| >= 3 && r[|r| - 3..] == "..."
    ensures |Split(Plain(markup, md), '\n')| <= MaxLines && |Plain(markup, md)| <= MaxChars ==>
      r == Plain(markup, md)
  {
    var t := Plain(markup, md);
    var c := CutLines(t);
    PreviewChars(t, c);
    CutLength(c)
  }

  /** The cuts add only dots, so a text free of emphasis marks stays free of
      them. */
  lemma PreviewChars(t: string, c: string)
    requires '*' !in t && '_' !in t
    requires c == CutLines(t)
    ensures '*' !in c && '_' !in c
    ensures '*' !in CutLength(c) && '_' !in CutLength(c)
  {
    if |Split(t, '\n')| > MaxLines {
      assert c == c[..|c| - 3] + "...";
      assert forall i :: 0 <= i < |c| - 3 ==> c[i] == t[i];
    }
    if |c| > MaxChars {
      assert forall i :: 0 <= i < MaxChars ==> CutLength(c)[i] == c[i];
    }
  }
}

=== FILE: rows.dfy ===
/** Generic helpers over rows kept in a sequence: the first row that
    satisfies a condition, the rows that satisfy one, in order, and the
    `LIMIT`/`OFFSET` window. */
module Rows {
  import opened Wrappers

  /** The position of the first row satisfying p, if any. */
  function FirstIndex<T>(s: seq<T>, p: T -> bool): (r: Option<nat>)
    ensures r.Some? ==> r.value < |s| && p(s[r.value])
    ensures r.Some? ==> forall j :: 0 <= j < r.value ==> !p(s[j])
    ensures r.None? <==> forall j :: 0 <= j < |s| ==> !p(s[j])
  {
    if s == [] then None
    else if p(s[0]) then Some(0)
    else match FirstIndex(s[1..], p)
      case None => None
      case Some(k) => Some(k + 1)
  }

  /** Two adjacent slices join into one. */
  lemma SliceJoin<T>(s: seq<T>, i: nat, j: nat, k: nat)
    requires i <= j <= k <= |s|
    ensures s[i..j] + s[j..k] == s[i..k]
  {
  }

  /** A prefix followed by the next slice is the longer prefix. */
  lemma PrefixExtends<T>(s: seq<T>, prefix: seq<T>, next: seq<T>, lo: nat, hi: nat)
    requires lo <= hi <= |s| && prefix == s[..lo] && next == s[lo..hi]
    ensures prefix + next == s[..hi]
  {
    SliceJoin(s, 0, lo, hi);
    assert s[0..lo] == s[..lo] && s[0..hi] == s[..hi];
  }

  /** A prefix of a suffix is a middle slice. */
  lemma PrefixOfSuffix<T>(s: seq<T>, i: nat, n: nat)
    requires i + n <= |s|
    ensures s[i..][..n] == s[i..i + n]
  {
  }

  /** A row satisfying p with none before it is the first. */
  lemma FirstIndexAt<T>(s: seq<T>, p: T -> bool, k: nat)
    requires k < |s| && p(s[k])
    requires forall j :: 0 <= j < k ==> !p(s[j])
    ensures FirstIndex(s, p) == Some(k)
  {
  }

  /** The first row satisfying p, if any. */
  function First<T>(s: seq<T>, p: T -> bool): (r: Option<T>)
    ensures r.Some? ==> r.value in s && p(r.value)
    ensures r.None? <==> forall j :: 0 <= j < |s| ==> !p(s[j])
  {
    match FirstIndex(s, p)
    case None => None
    case Some(k) => Some(s[k])
  }

  /** The rows satisfying p, in their order in s. */
  function Filter<T>(s: seq<T>, p: T -> bool): (r: seq<T>)
    ensures |r| <= |s|
    ensures forall i :: 0 <= i < |r| ==> p(r[i]) && r[i] in s
    ensures forall i :: 0 <= i < |s| && p(s[i]) ==> s[i] in r
  {
    if s == [] then []
    else (if p(s[0]) then [s[0]] else []) + Filter(s[1..], p)
  }

  lemma {:induction false} FilterAppend<T>(a: seq<T>, b: seq<T>, p: T -> bool)
    ensures Filter(a + b, p) == Filter(a, p) + Filter(b, p)
  {
    if a == [] {
      assert a + b == b;
    } else {
      assert (a + b)[1..] == a[1..] + b;
      FilterAppend(a[1..], b, p);
    }
  }

  /** Filtering with a condition every row meets changes nothing. */
  lemma {:induction false} FilterAll<T>(s: seq<T>, p: T -> bool)
    requires forall i :: 0 <= i < |s| ==> p(s[i])
    ensures Filter(s, p) == s
  {
    if s != [] {
      FilterAll(s[1..], p);
      assert [s[0]] + s[1..] == s;
    }
  }

  /** Filtering twice with conditions that agree on s is filtering once. */
  lemma {:induction false} FilterConjunction<T>(s: seq<T>, p: T -> bool, q: T -> bool, pq: T -> bool)
    requires forall x :: pq(x) == (p(x) && q(x))
    ensures Filter(Filter(s, p), q) == Filter(s, pq)
  {
    if s != [] {
      FilterConjunction(s[1..], p, q, pq);
      var head := if p(s[0]) then [s[0]] else [];
      FilterAppend(head, Filter(s[1..], p), q);
      if p(s[0]) {
        assert Filter(head, q) == (if q(s[0]) then [s[0]] else []) by {
          assert head[1..] == [];
        }
      }
    }
  }

  /** The keys of the rows satisfying p. */
  ghost function KeysWhere<T, K>(s: seq<T>, p: T -> bool, f: T -> K): set<K> {
    set x | x in s && p(x) :: f(x)
  }

  /** When no two rows share a key, the rows satisfying p are exactly as
      many as the distinct keys among them. */
  lemma {:induction false} FilterDistinctKeys<T, K>(s: seq<T>, p: T -> bool, f: T -> K)
    requires forall i, j :: 0 <= i < j < |s| ==> f(s[i]) != f(s[j])
    ensures |Filter(s, p)| == |KeysWhere(s, p, f)|
  {
    if s != [] {
      var t := s[1..];
      FilterDistinctKeys(t, p, f);
      var keys := KeysWhere(t, p, f);
      var all := KeysWhere(s, p, f);
      if p(s[0]) {
        forall x | x in t && p(x)
          ensures f(x) != f(s[0])
        {
          var k :| 0 <= k < |t| && t[k] == x;
          assert s[k + 1] == x;
        }
        assert all == keys + {f(s[0])};
      } else {
        assert all == keys;
      }
    }
  }

  /** The number of rows satisfying p. */
  function CountWhere<T>(s: seq<T>, p: T -> bool): (n: nat)
    ensures n == |Filter(s, p)|
  {
    if s == [] then 0 else (if p(s[0]) then 1 else 0) + CountWhere(s[1..], p)
  }

  /** `LIMIT limit OFFSET offset` on a result that has already been
      ordered; both bounds are non-negative. */
  function Window<T>(s: seq<T>, limit: nat, offset: nat): (r: seq<T>)
    ensures |r| <= limit
    ensures offset >= |s| ==> r == []
    ensures offset + limit <= |s| ==> |r| == limit
    ensures r != [] ==> offset + |r| <= |s| && r == s[offset..offset + |r|]
  {
    var start := if offset < |s| then offset else |s|;
    var end := if start + limit < |s| then start + limit else |s|;
    s[start..end]
  }
}

=== FILE: slug.dfy ===
/** Slug derivation for articles (`generateSlug` in the articles service) and
    the numbered candidates the uniqueness probe walks through. */
module Slug {
  import opened Text
  import Rows

  /** Every character is one of `[a-z0-9-]`. */
  predicate SlugAlphabet(s: string) {
    forall i :: 0 <= i < |s| ==> IsLowerAlnum(s[i]) || s[i] == '-'
  }

  /** No two hyphens stand next to each other. */
  predicate NoDoubleHyphen(s: string) {
    forall i :: 0 <= i < |s| - 1 ==> !(s[i] == '-' && s[i + 1] == '-')
  }

  /** The shape every generated slug has. */
  predicate IsSlug(s: string) {
    && SlugAlphabet(s)
    && NoDoubleHyphen(s)
    && (s != [] ==> s[0] != '-' && s[|s| - 1] != '-')
  }

  /** The `[a-z0-9]` characters of s, in order. */
  function AlnumOf(s: string): string {
    if s == [] then [] else (if IsLowerAlnum(s[0]) then [s[0]] else []) + AlnumOf(s[1..])
  }

  lemma {:induction false} AlnumOfAppend(a: string, b: string)
    ensures AlnumOf(a + b) == AlnumOf(a) + AlnumOf(b)
  {
    if a == [] {
      assert a + b == b;
    } else {
      var head := if IsLowerAlnum(a[0]) then [a[0]] else [];
      assert (a + b)[0] == a[0];
      assert (a + b)[1..] == a[1..] + b;
      AlnumOfAppend(a[1..], b);
      assert AlnumOf(a + b) == head + AlnumOf(a[1..] + b);
      assert head + (AlnumOf(a[1..]) + AlnumOf(b)) == (head + AlnumOf(a[1..])) + AlnumOf(b);
    }
  }

  lemma {:induction false} AlnumOfHyphens(s: string)
    requires forall i :: 0 <= i < |s| ==> s[i] == '-'
    ensures AlnumOf(s) == []
  {
    if s != [] {
      AlnumOfHyphens(s[1..]);
    }
  }

  lemma {:induction false} AlnumOfEmpty(s: string)
    ensures AlnumOf(s) == [] <==> forall i :: 0 <= i < |s| ==> !IsLowerAlnum(s[i])
  {
    if s != [] {
      AlnumOfEmpty(s[1..]);
      assert forall i :: 1 <= i < |s| ==> s[i] == s[1..][i - 1];
    }
  }

  /** Drops the run of characters outside `[a-z0-9]` at the front of s. */
  function SkipRun(s: string): (r: string)
    ensures |r| <= |s| && r == s[|s| - |r|..]
    ensures r == [] || IsLowerAlnum(r[0])
    ensures forall i :: 0 <= i < |s| - |r| ==> !IsLowerAlnum(s[i])
  {
    if s != [] && !IsLowerAlnum(s[0]) then
      var r := SkipRun(s[1..]);
      assert r == s[|s| - |r|..];
      assert forall i :: 1 <= i < |s| - |r| ==> s[i] == s[1..][i - 1];
      r
    else s
  }

  /** The `[^a-z0-9]+` to `-` replacement: each maximal run of other
      characters becomes a single hyphen; letters and digits stay in order. */
  function Collapse(s: string): (r: string)
    ensures SlugAlphabet(r)
    ensures NoDoubleHyphen(r)
    ensures AlnumOf(r) == AlnumOf(s)
    ensures r == [] <==> s == []
    ensures r != [] ==> (r[0] == '-' <==> !IsLowerAlnum(s[0]))
    decreases |s|
  {
    if s == [] then []
    else if IsLowerAlnum(s[0]) then
      var rest := Collapse(s[1..]);
      assert AlnumOf([s[0]] + rest) == [s[0]] + AlnumOf(rest) by {
        assert ([s[0]] + rest)[1..] == rest;
      }
      [s[0]] + rest
    else
      var t := SkipRun(s);
      var rest := Collapse(t);
      assert AlnumOf("-" + rest) == AlnumOf(rest) by {
        assert ("-" + rest)[1..] == rest;
      }
      assert AlnumOf(s) == AlnumOf(t) by {
        var skipped := s[..|s| - |t|];
        assert s == skipped + t;
        AlnumOfAppend(skipped, t);
        AlnumOfEmpty(skipped);
      }
      "-" + rest
  }

  /** How many hyphens `strings.Trim(s, "-")` removes from the front. */
  function LeadingHyphens(s: string): (n: nat)
    ensures n <= |s|
  {
    |s| - |TrimLeftChar(s, '-')|
  }

  /** `strings.Trim(s, "-")`: the middle of s left after dropping the hyphens
      at both ends. */
  function TrimHyphens(s: string): string {
    TrimRightChar(TrimLeftChar(s, '-'), '-')
  }

  /** The trimmed string is the slice of s between the leading and the
      trailing hyphens, and does not itself start or end with one. */
  lemma TrimHyphensSlice(s: string)
    ensures LeadingHyphens(s) + |TrimHyphens(s)| <= |s|
    ensures TrimHyphens(s) == s[LeadingHyphens(s)..LeadingHyphens(s) + |TrimHyphens(s)|]
    ensures forall i :: 0 <= i < LeadingHyphens(s) ==> s[i] == '-'
    ensures forall i :: LeadingHyphens(s) + |TrimHyphens(s)| <= i < |s| ==> s[i] == '-'
    ensures TrimHyphens(s) != [] ==> TrimHyphens(s)[0] != '-' && TrimHyphens(s)[|TrimHyphens(s)| - 1] != '-'
  {
    var l := TrimLeftChar(s, '-');
    var r := TrimRightChar(l, '-');
    TrimLeftCharSuffix(s, '-');
    TrimRightCharPrefix(l, '-');
    TrimParts(s, l, r);
    assert LeadingHyphens(s) == |s| - |l|;
  }

  /** Trimming the right end of the left-trimmed string leaves a slice of s
      whose ends are not hyphens, with only hyphens after it. */
  lemma TrimParts(s: string, l: string, r: string)
    requires |l| <= |s| && l == s[|s| - |l|..] && (l == [] || l[0] != '-')
    requires |r| <= |l| && r == l[..|r|] && (r == [] || r[|r| - 1] != '-')
    requires forall i :: |r| <= i < |l| ==> l[i] == '-'
    ensures |s| - |l| + |r| <= |s|
    ensures r == s[|s| - |l|..|s| - |l| + |r|]
    ensures forall i :: |s| - |l| + |r| <= i < |s| ==> s[i] == '-'
    ensures r != [] ==> r[0] != '-' && r[|r| - 1] != '-'
  {
    var a := |s| - |l|;
    assert l == s[a..] && r == l[..|r|];
    Rows.PrefixOfSuffix(s, a, |r|);
    forall i | a + |r| <= i < |s|
      ensures s[i] == '-'
    {
      assert s[i] == l[i - a];
    }
    if r != [] {
      assert r[0] == l[0];
    }
  }

  /** `generateSlug`: lower-case (ASCII), collapse runs of other characters
      into `-`, and trim hyphens from both ends. */
  function GenerateSlug(title: string): string {
    TrimHyphens(Collapse(Lower(title)))
  }

  /** Trimming hyphens off a collapsed string leaves a slug. */
  lemma TrimHyphensShape(c: string)
    requires SlugAlphabet(c) && NoDoubleHyphen(c)
    ensures IsSlug(TrimHyphens(c))
  {
    var r := TrimHyphens(c);
    var a := LeadingHyphens(c);
    TrimHyphensSlice(c);
    SliceShape(c, a, a + |r|);
  }

  /** Any slice of a string over the slug alphabet without doubled hyphens
      keeps both properties. */
  lemma SliceShape(c: string, lo: nat, hi: nat)
    requires SlugAlphabet(c) && NoDoubleHyphen(c) && lo <= hi <= |c|
    ensures SlugAlphabet(c[lo..hi]) && NoDoubleHyphen(c[lo..hi])
  {
    var m := c[lo..hi];
    forall i | 0 <= i < |m|
      ensures IsLowerAlnum(m[i]) || m[i] == '-'
    {
      assert m[i] == c[lo + i];
    }
    forall i | 0 <= i < |m| - 1
      ensures !(m[i] == '-' && m[i + 1] == '-')
    {
      assert m[i] == c[lo + i] && m[i + 1] == c[lo + i + 1];
    }
  }

  /** A run of hyphens inside a string holds no letter or digit. */
  lemma HyphenRun(c: string, lo: int, hi: int)
    requires 0 <= lo <= hi <= |c|
    requires forall i :: lo <= i < hi ==> c[i] == '-'
    ensures AlnumOf(c[lo..hi]) == []
  {
    var run := c[lo..hi];
    assert forall i :: 0 <= i < |run| ==> run[i] == c[lo + i];
    AlnumOfHyphens(run);
  }

  /** Trimming hyphens loses no letter or digit. */
  lemma TrimHyphensKeepsAlnum(c: string)
    ensures AlnumOf(TrimHyphens(c)) == AlnumOf(c)
  {
    var r := TrimHyphens(c);
    var a := LeadingHyphens(c);
    var b := a + |r|;
    TrimHyphensSlice(c);
    HyphenRun(c, 0, a);
    HyphenRun(c, b, |c|);
    assert r == c[a..b];
    Rows.SliceJoin(c, 0, a, b);
    Rows.SliceJoin(c, 0, b, |c|);
    assert c[0..|c|] == c;
    AlnumOfAppend(c[0..b], c[b..|c|]);
    AlnumOfAppend(c[0..a], c[a..b]);
  }

  /** Every generated slug uses only `[a-z0-9-]`, never starts or ends with a
      hyphen and never holds two hyphens in a row. */
  lemma GenerateSlugShape(title: string)
    ensures IsSlug(GenerateSlug(title))
  {
    TrimHyphensShape(Collapse(Lower(title)));
  }

  /** The letters and digits of the lower-cased title survive, in order, and
      nothing else but hyphens is added. */
  lemma GenerateSlugKeepsAlnum(title: string)
    ensures AlnumOf(GenerateSlug(title)) == AlnumOf(Lower(title))
  {
    TrimHyphensKeepsAlnum(Collapse(Lower(title)));
  }

  /** The slug is empty exactly when the title has no ASCII letter or digit. */
  lemma GenerateSlugEmptyIff(title: string)
    ensures GenerateSlug(title) == [] <==> forall i :: 0 <= i < |title| ==> !IsAsciiAlnum(title[i])
  {
    var r := GenerateSlug(title);
    GenerateSlugShape(title);
    GenerateSlugKeepsAlnum(title);
    AlnumOfEmpty(r);
    AlnumOfEmpty(Lower(title));
    if r != [] {
      assert IsLowerAlnum(r[0]);
    }
  }

  lemma {:induction false} CollapseFixpoint(s: string)
    requires SlugAlphabet(s) && NoDoubleHyphen(s)
    ensures Collapse(s) == s
  {
    if s != [] {
      if IsLowerAlnum(s[0]) {
        CollapseFixpoint(s[1..]);
        assert [s[0]] + s[1..] == s;
      } else {
        assert SkipRun(s) == s[1..] by {
          if |s| > 1 {
            assert s[1] != '-';
            assert SkipRun(s[1..]) == s[1..];
          }
        }
        CollapseFixpoint(s[1..]);
        assert "-" + s[1..] == s;
      }
    }
  }

  /** A string that already has slug shape is its own slug. */
  lemma SlugFixpoint(s: string)
    requires IsSlug(s)
    ensures GenerateSlug(s) == s
  {
    assert Lower(s) == s;
    CollapseFixpoint(s);
  }

  /** Generating a slug twice changes nothing. */
  lemma GenerateSlugIdempotent(title: string)
    ensures GenerateSlug(GenerateSlug(title)) == GenerateSlug(title)
  {
    GenerateSlugShape(title);
    SlugFixpoint(GenerateSlug(title));
  }

  /** One step of the collapse on a leading letter or digit. */
  lemma CollapseLetter(s: string)
    requires s != [] && IsLowerAlnum(s[0])
    ensures Collapse(s) == [s[0]] + Collapse(s[1..])
  {
  }

  /** One step of the collapse on a leading run of other characters. */
  lemma CollapseRun(s: string)
    requires s != [] && !IsLowerAlnum(s[0])
    ensures Collapse(s) == "-" + Collapse(SkipRun(s))
  {
  }

  /** A run of letters and digits passes the collapse unchanged. */
  lemma {:induction false} CollapseAlnumPrefix(p: string, t: string)
    requires forall i :: 0 <= i < |p| ==> IsLowerAlnum(p[i])
    ensures Collapse(p + t) == p + Collapse(t)
  {
    if p == [] {
      assert p + t == t;
    } else {
      var s := p + t;
      var tail := p[1..];
      assert s[0] == p[0];
      assert s[1..] == tail + t;
      CollapseLetter(s);
      CollapseAlnumPrefix(tail, t);
      calc {
        Collapse(s);
        [p[0]] + Collapse(tail + t);
        [p[0]] + (tail + Collapse(t));
        { ConsAppend(p, Collapse(t)); }
        p + Collapse(t);
      }
    }
  }

  lemma ConsAppend(p: string, u: string)
    requires p != []
    ensures [p[0]] + (p[1..] + u) == p + u
  {
    assert [p[0]] + p[1..] == p;
  }

  /** Case does not matter to the slug. */
  lemma GenerateSlugIgnoresCase(title: string)
    ensures GenerateSlug(title) == GenerateSlug(Lower(title))
  {
    assert Lower(Lower(title)) == Lower(title);
  }

  /** Hyphen trimming leaves a string alone whose ends are not hyphens. */
  lemma TrimHyphensNoEdge(c: string)
    requires c != [] && c[0] != '-' && c[|c| - 1] != '-'
    ensures TrimHyphens(c) == c
  {
    assert TrimLeftChar(c, '-') == c;
    assert TrimRightChar(c, '-') == c;
  }

  /** A string of lower-case letters, digits and spaces is its own lower
      case. */
  lemma LowerIdentity(t: string)
    requires forall i :: 0 <= i < |t| ==> IsLowerAlnum(t[i]) || t[i] == ' '
    ensures Lower(t) == t
  {
  }

  /** The collapse turns the single space between two words into `-`. */
  lemma CollapseTwoWords(a: string, b: string)
    requires b != []
    requires forall i :: 0 <= i < |a| ==> IsLowerAlnum(a[i])
    requires forall i :: 0 <= i < |b| ==> IsLowerAlnum(b[i])
    ensures Collapse(a + (" " + b)) == a + ("-" + b)
  {
    var rest := " " + b;
    CollapseAlnumPrefix(a, rest);
    CollapseRun(rest);
    assert SkipRun(rest) == b by {
      assert rest[1..] == b;
      assert SkipRun(b) == b;
    }
    CollapseAlnumPrefix(b, []);
    assert b + [] == b;
  }

  /** Two lower-case words separated by one space become `word-word`. */
  lemma TwoWordSlug(a: string, b: string)
    requires a != [] && b != []
    requires forall i :: 0 <= i < |a| ==> IsLowerAlnum(a[i])
    requires forall i :: 0 <= i < |b| ==> IsLowerAlnum(b[i])
    ensures GenerateSlug(a + " " + b) == a + "-" + b
  {
    var t := a + " " + b;
    var c := a + "-" + b;
    assert t == a + (" " + b) && c == a + ("-" + b);
    assert Lower(t) == t by {
      assert forall i :: |a| < i < |t| ==> t[i] == b[i - |a| - 1];
      LowerIdentity(t);
    }
    assert Collapse(t) == c by {
      CollapseTwoWords(a, b);
    }
    assert TrimHyphens(c) == c by {
      assert c[0] == a[0] && c[|c| - 1] == b[|b| - 1];
      TrimHyphensNoEdge(c);
    }
  }

  /** The i-th slug the uniqueness probe tries: `base`, then
      `fmt.Sprintf("%s-%d", base, i)` for i = 1, 2, .... */
  function Candidate(base: string, i: nat): string {
    if i == 0 then base else base + "-" + NatToString(i)
  }

  /** The second and third candidates carry the suffixes `-1` and `-2`. */
  lemma CandidateOneTwo(base: string)
    ensures Candidate(base, 1) == base + "-1"
    ensures Candidate(base, 2) == base + "-2"
  {
  }

  /** Different probe positions never produce the same candidate. */
  lemma CandidateInjective(base: string, i: nat, j: nat)
    requires i != j
    ensures Candidate(base, i) != Candidate(base, j)
  {
    if i != 0 && j != 0 && Candidate(base, i) == Candidate(base, j) {
      var n := |base| + 1;
      assert NatToString(i) == Candidate(base, i)[n..];
      assert NatToString(j) == Candidate(base, j)[n..];
      NatToStringInjective(i, j);
    }
  }
}

=== FILE: sorting.dfy ===
/** The stable descending insertion sort that the mock content listing uses
    (`sortNews`/`sortArticles`), stated once for any row type and integer
    sort key. The same order stands in for `ORDER BY <column> DESC` in the
    stores, where rows with equal keys keep their table order. */
module Sorting {

  /** Non-increasing by key. */
  predicate SortedDesc<T>(s: seq<T>, key: T -> int) {
    forall i, j :: 0 <= i < j < |s| ==> key(s[i]) >= key(s[j])
  }

  /** Every key in s is at least b. */
  predicate AllAtLeast<T>(s: seq<T>, key: T -> int, b: int) {
    forall i :: 0 <= i < |s| ==> key(s[i]) >= b
  }

  /** The elements of s whose key is k, in their order in s. */
  function WithKey<T>(s: seq<T>, key: T -> int, k: int): seq<T> {
    if s == [] then []
    else WithKey(s[..|s| - 1], key, k) + (if key(s[|s| - 1]) == k then [s[|s| - 1]] else [])
  }

  /** One pass of the inner loop: x enters at the right end and moves left
      past every element whose key is strictly smaller than its own. */
  function Insert<T>(s: seq<T>, x: T, key: T -> int): (r: seq<T>)
    ensures |r| == |s| + 1
  {
    if s == [] || key(s[|s| - 1]) >= key(x) then s + [x]
    else Insert(s[..|s| - 1], x, key) + [s[|s| - 1]]
  }

  /** The result of the whole insertion sort. */
  function SortDesc<T>(s: seq<T>, key: T -> int): (r: seq<T>)
    ensures |r| == |s|
  {
    if s == [] then [] else Insert(SortDesc(s[..|s| - 1], key), s[|s| - 1], key)
  }

  // ---------------------------------------------------------------------
  // Insert

  lemma {:induction false} InsertPermutes<T>(s: seq<T>, x: T, key: T -> int)
    ensures multiset(Insert(s, x, key)) == multiset(s) + multiset{x}
  {
    if s != [] && key(s[|s| - 1]) < key(x) {
      InsertPermutes(s[..|s| - 1], x, key);
      assert s == s[..|s| - 1] + [s[|s| - 1]];
    }
  }

  lemma {:induction false} InsertLowerBound<T>(s: seq<T>, x: T, key: T -> int, b: int)
    requires AllAtLeast(s, key, b) && key(x) >= b
    ensures AllAtLeast(Insert(s, x, key), key, b)
  {
    if s != [] && key(s[|s| - 1]) < key(x) {
      InsertLowerBound(s[..|s| - 1], x, key, b);
    }
  }

  lemma {:induction false} InsertSorted<T>(s: seq<T>, x: T, key: T -> int)
    requires SortedDesc(s, key)
    ensures SortedDesc(Insert(s, x, key), key)
  {
    if s != [] && key(s[|s| - 1]) < key(x) {
      var last := s[|s| - 1];
      var init := s[..|s| - 1];
      InsertSorted(init, x, key);
      InsertLowerBound(init, x, key, key(last));
    }
  }

  lemma {:induction false} WithKeyAppend<T>(a: seq<T>, b: seq<T>, key: T -> int, k: int)
    ensures WithKey(a + b, key, k) == WithKey(a, key, k) + WithKey(b, key, k)
  {
    if b == [] {
      assert a + b == a;
    } else {
      var c := a + b;
      assert c[..|c| - 1] == a + b[..|b| - 1];
      WithKeyAppend(a, b[..|b| - 1], key, k);
    }
  }

  /** Insert puts x after every element of the same key. */
  lemma {:induction false} InsertStable<T>(s: seq<T>, x: T, key: T -> int, k: int)
    ensures WithKey(Insert(s, x, key), key, k) == WithKey(s, key, k) + (if key(x) == k then [x] else [])
  {
    if s == [] || key(s[|s| - 1]) >= key(x) {
      var r := s + [x];
      assert r[..|r| - 1] == s;
    } else {
      var last := s[|s| - 1];
      var init := s[..|s| - 1];
      InsertStable(init, x, key, k);
      var r := Insert(init, x, key) + [last];
      assert r[..|r| - 1] == Insert(init, x, key);
      assert !(key(x) == k && key(last) == k);
    }
  }

  /** When the last element's key is at least x's, x goes to the end. */
  lemma InsertAtEnd<T>(s: seq<T>, x: T, key: T -> int)
    requires s == [] || key(s[|s| - 1]) >= key(x)
    ensures Insert(s, x, key) == s + [x]
  {
  }

  // ---------------------------------------------------------------------
  // SortDesc

  /** The sort returns a permutation of its input. */
  lemma {:induction false} SortPermutes<T>(s: seq<T>, key: T -> int)
    ensures multiset(SortDesc(s, key)) == multiset(s)
  {
    if s != [] {
      var init := s[..|s| - 1];
      SortPermutes(init, key);
      InsertPermutes(SortDesc(init, key), s[|s| - 1], key);
      assert s == init + [s[|s| - 1]];
    }
  }

  /** The sort returns a non-increasing sequence. */
  lemma {:induction false} SortSorted<T>(s: seq<T>, key: T -> int)
    ensures SortedDesc(SortDesc(s, key), key)
  {
    if s != [] {
      SortSorted(s[..|s| - 1], key);
      InsertSorted(SortDesc(s[..|s| - 1], key), s[|s| - 1], key);
    }
  }

  /** Stability: the elements of any one key appear in their input order. */
  lemma {:induction false} SortStable<T>(s: seq<T>, key: T -> int, k: int)
    ensures WithKey(SortDesc(s, key), key, k) == WithKey(s, key, k)
  {
    if s != [] {
      var init := s[..|s| - 1];
      SortStable(init, key, k);
      InsertStable(SortDesc(init, key), s[|s| - 1], key, k);
    }
  }

  // ---------------------------------------------------------------------
  // Order within one key

  /** The elements of one key are the elements of s carrying that key. */
  lemma {:induction false} WithKeyMembers<T>(s: seq<T>, key: T -> int, k: int)
    ensures forall x :: x in WithKey(s, key, k) <==> x in s && key(x) == k
  {
    if s != [] {
      var init := s[..|s| - 1];
      WithKeyMembers(init, key, k);
      assert s == init + [s[|s| - 1]];
    }
  }

  /** One element of the elements of key k is an element of s. */
  lemma WithKeyMember<T>(s: seq<T>, key: T -> int, k: int, x: T)
    requires x in WithKey(s, key, k)
    ensures x in s && key(x) == k
  {
    WithKeyMembers(s, key, k);
  }

  /** Picking the elements of one key out of a sequence sorted by another
      key g leaves them sorted by g. */
  lemma {:induction false} WithKeyOfSorted<T>(s: seq<T>, key: T -> int, k: int, g: T -> int)
    requires SortedDesc(s, g)
    ensures SortedDesc(WithKey(s, key, k), g)
  {
    if s != [] {
      var init := s[..|s| - 1];
      var last := s[|s| - 1];
      WithKeyOfSorted(init, key, k, g);
      if key(last) == k {
        var w := WithKey(init, key, k);
        forall i | 0 <= i < |w|
          ensures g(w[i]) >= g(last)
        {
          WithKeyMember(init, key, k, w[i]);
          var m :| 0 <= m < |init| && init[m] == w[i];
          assert init[m] == s[m];
        }
      }
    }
  }

  /** When the elements of key k are sorted by g, so is every pair of them
      in s. */
  lemma {:induction false} SortedWithinKey<T>(s: seq<T>, key: T -> int, k: int, g: T -> int)
    requires SortedDesc(WithKey(s, key, k), g)
    ensures forall i, j :: 0 <= i < j < |s| && key(s[i]) == k && key(s[j]) == k ==> g(s[i]) >= g(s[j])
  {
    if s != [] {
      var init := s[..|s| - 1];
      var last := s[|s| - 1];
      var w := WithKey(init, key, k);
      assert WithKey(s, key, k)[..|w|] == w;
      SortedWithinKey(init, key, k, g);
      WithKeyMembers(init, key, k);
      forall i, j | 0 <= i < j < |s| && key(s[i]) == k && key(s[j]) == k
        ensures g(s[i]) >= g(s[j])
      {
        if j < |s| - 1 {
          assert s[i] == init[i] && s[j] == init[j];
        } else {
          assert s[i] == init[i] && s[i] in w;
          var m :| 0 <= m < |w| && w[m] == s[i];
          assert WithKey(s, key, k) == w + [last];
          assert WithKey(s, key, k)[m] == s[i] && WithKey(s, key, k)[|w|] == last;
        }
      }
    }
  }

  /** An input that is already non-increasing comes back unchanged. */
  lemma {:induction false} SortOfSorted<T>(s: seq<T>, key: T -> int)
    requires SortedDesc(s, key)
    ensures SortDesc(s, key) == s
  {
    if s != [] {
      var init := s[..|s| - 1];
      SortOfSorted(init, key);
      InsertAtEnd(init, s[|s| - 1], key);
      assert init + [s[|s| - 1]] == s;
    }
  }

  // ---------------------------------------------------------------------
  // The loop

  /** Swapping x with its left neighbour moves it one place left. */
  lemma SwapLeft<T>(p: seq<T>, x: T, rest: seq<T>, j: nat)
    requires 0 < j <= |p|
    ensures (p[..j] + [x] + p[j..] + rest)[j - 1 := x][j := p[j - 1]]
         == p[..j - 1] + [x] + p[j - 1..] + rest
  {
    var a := p[..j] + [x] + p[j..] + rest;
    var b := p[..j - 1] + [x] + p[j - 1..] + rest;
    assert |a[j - 1 := x][j := p[j - 1]]| == |b|;
    forall k | 0 <= k < |b|
      ensures a[j - 1 := x][j := p[j - 1]][k] == b[k]
    {
      if k < j - 1 {
      } else if k == j - 1 {
      } else if k == j {
      } else if k < |p| + 1 {
        assert a[k] == p[k - 1] && b[k] == p[k - 1];
      } else {
        assert a[k] == rest[k - |p| - 1] && b[k] == rest[k - |p| - 1];
      }
    }
  }

  /** One swap as seen by Insert: a neighbour with a smaller key moves from
      the left of x to its right. */
  lemma InsertUnfold<T>(p: seq<T>, x: T, key: T -> int, j: nat)
    requires 0 < j <= |p| && key(p[j - 1]) < key(x)
    ensures Insert(p[..j], x, key) + p[j..] == Insert(p[..j - 1], x, key) + p[j - 1..]
  {
    assert p[..j][..j - 1] == p[..j - 1];
    assert p[j - 1..] == [p[j - 1]] + p[j..];
  }

  /** The inner swap loop for position i: the element there moves left while
      it is strictly later than its neighbour. */
  method InsertStep<T>(a: seq<T>, i: nat, key: T -> int) returns (b: seq<T>)
    requires i < |a|
    ensures b == Insert(a[..i], a[i], key) + a[i + 1..]
  {
    ghost var p := a[..i];
    ghost var x := a[i];
    ghost var rest := a[i + 1..];
    b := a;
    var j := i;
    assert b == p[..j] + [x] + p[j..] + rest by {
      assert p[..j] == p && p[j..] == [];
      assert a == a[..i] + [a[i]] + a[i + 1..];
    }
    while j > 0 && key(b[j - 1]) < key(b[j])
      invariant 0 <= j <= i
      invariant b == p[..j] + [x] + p[j..] + rest
      invariant Insert(p, x, key) == Insert(p[..j], x, key) + p[j..]
    {
      assert b[j] == x && b[j - 1] == p[j - 1];
      InsertUnfold(p, x, key, j);
      SwapLeft(p, x, rest, j);
      b := b[j - 1 := b[j]][j := b[j - 1]];
      j := j - 1;
    }
    if j > 0 {
      assert b[j] == x && b[j - 1] == p[j - 1];
      InsertAtEnd(p[..j], x, key);
    }
  }

  /** The nested swap loop of `sortNews`, on a copy of the input. */
  method InsertionSort<T>(items: seq<T>, key: T -> int) returns (sorted: seq<T>)
    ensures sorted == SortDesc(items, key)
    ensures multiset(sorted) == multiset(items)
    ensures SortedDesc(sorted, key)
  {
    sorted := items;
    if |sorted| > 0 {
      var i := 1;
      assert items[..1][..0] == [];
      while i < |sorted|
        invariant 1 <= i <= |sorted| == |items|
        invariant sorted[..i] == SortDesc(items[..i], key)
        invariant sorted[i..] == items[i..]
      {
        assert sorted[i] == items[i];
        assert items[..i + 1][..i] == items[..i];
        sorted := InsertStep(sorted, i, key);
        i := i + 1;
      }
      assert items[..|items|] == items;
    }
    SortPermutes(items, key);
    SortSorted(items, key);
  }
}

=== FILE: tags.dfy ===
/** Tags: the `tags` table keyed by a unique code, its paginated and
    searchable listing, the listing service with its limit clamp, and the
    HTTP handlers in front of them. */
module Tags {
  import opened Wrappers
  import opened Text
  import opened Http
  import Rows
  import Collation

  /** A tag: the database id, the unique code, and display names keyed by
      language code (the `name` JSONB object). */
  datatype Tag = Tag(id: string, code: string, name: map<string, string>)

  /** The `tags` table. When `reachable` is false every statement fails. */
  datatype Table = Table(rows: seq<Tag>, reachable: bool)

  /** Why a statement failed: the database could not be reached, a UNIQUE
      or primary key would be violated, or `DELETE` affected no row
      (`sql.ErrNoRows`). */
  datatype Error = Unreachable | DuplicateKey | NoRows

  /** No two rows share a key. */
  predicate UniqueBy(s: seq<Tag>, key: Tag -> string) {
    forall i, j :: 0 <= i < j < |s| ==> key(s[i]) != key(s[j])
  }

  /** The schema's constraints: `code` is UNIQUE and `id` is the key. */
  predicate Valid(t: Table) {
    UniqueBy(t.rows, CodeOf) && UniqueBy(t.rows, IdOf)
  }

  predicate HoldsCode(t: Table, code: string) {
    exists i :: 0 <= i < |t.rows| && t.rows[i].code == code
  }

  predicate HoldsId(t: Table, id: string) {
    exists i :: 0 <= i < |t.rows| && t.rows[i].id == id
  }

  function CodeOf(x: Tag): string { x.code }

  function IdOf(x: Tag): string { x.id }

  function HasCode(code: string): Tag -> bool { (x: Tag) => x.code == code }

  function LacksCode(code: string): Tag -> bool { (x: Tag) => x.code != code }

  // ---------------------------------------------------------------------
  // Repository

  /** `SELECT … FROM tags ORDER BY code ASC`. */
  function FindAll(t: Table): (r: Result<seq<Tag>, Error>)
    ensures r.Err? <==> !t.reachable
    ensures r.Ok? ==> multiset(r.value) == multiset(t.rows)
    ensures r.Ok? ==> Collation.SortedAsc(r.value, CodeOf)
  {
    if !t.reachable then Err(Unreachable)
    else
      Collation.SortAscSorted(t.rows, CodeOf);
      Ok(Collation.SortAsc(t.rows, CodeOf))
  }

  /** `WHERE code = $1`: a missing code is no row and no error. */
  function FindByCode(t: Table, code: string): (r: Result<Option<Tag>, Error>)
    ensures r.Err? <==> !t.reachable
    ensures r.Ok? && r.value.Some? ==> r.value.value in t.rows && r.value.value.code == code
    ensures r.Ok? ==> (r.value.None? <==> !HoldsCode(t, code))
  {
    if !t.reachable then Err(Unreachable)
    else Ok(Rows.First(t.rows, HasCode(code)))
  }

  /** `INSERT … RETURNING`: `id` is the key the database generates; the
      insert fails when the code or the key is already present. */
  function Create(t: Table, id: string, code: string, name: map<string, string>): (r: Result<(Table, Tag), Error>)
    ensures r.Err? <==> !t.reachable || HoldsCode(t, code) || HoldsId(t, id)
    ensures r.Ok? ==> r.value.1 == Tag(id, code, name)
    ensures r.Ok? ==> r.value.0.reachable && |r.value.0.rows| == |t.rows| + 1
    ensures r.Ok? ==> forall x :: x in t.rows ==> x in r.value.0.rows
    ensures r.Ok? ==> FindByCode(r.value.0, code) == Ok(Some(r.value.1))
    ensures r.Ok? && Valid(t) ==> Valid(r.value.0)
  {
    if !t.reachable then Err(Unreachable)
    else if HoldsCode(t, code) || HoldsId(t, id) then Err(DuplicateKey)
    else
      var x := Tag(id, code, name);
      var rows := t.rows + [x];
      assert forall j :: 0 <= j < |t.rows| ==> rows[j] == t.rows[j] && !HasCode(code)(rows[j]);
      Rows.FirstIndexAt(rows, HasCode(code), |t.rows|);
      AppendKeepsValid(t, x);
      Ok((Table(rows, true), x))
  }

  /** `UPDATE tags SET code = $1, name = $2 WHERE code = $3 RETURNING …`:
      the row holding the old code is renamed in place and keeps its id; a
      missing old code is no row and no error; a new code held by another
      row violates the UNIQUE constraint. */
  function Update(t: Table, oldCode: string, newCode: string, name: map<string, string>): (r: Result<(Table, Option<Tag>), Error>)
    ensures r.Err? <==> !t.reachable || (HoldsCode(t, oldCode) && newCode != oldCode && HoldsCode(t, newCode))
    ensures r.Ok? && r.value.1.None? ==> r.value.0 == t && !HoldsCode(t, oldCode)
    ensures r.Ok? && r.value.1.Some? ==>
      var x := r.value.1.value;
      && x.code == newCode && x.name == name
      && (exists i :: 0 <= i < |t.rows| && t.rows[i].code == oldCode && t.rows[i].id == x.id)
      && FindByCode(r.value.0, newCode) == Ok(Some(x))
    ensures r.Ok? ==> |r.value.0.rows| == |t.rows| && r.value.0.reachable
    ensures r.Ok? ==> forall i :: 0 <= i < |t.rows| ==> r.value.0.rows[i].id == t.rows[i].id
    ensures r.Ok? && Valid(t) ==> Valid(r.value.0)
    ensures r.Ok? && Valid(t) && newCode != oldCode ==> !HoldsCode(r.value.0, oldCode)
  {
    if !t.reachable then Err(Unreachable)
    else match Rows.FirstIndex(t.rows, HasCode(oldCode))
      case None => Ok((t, None))
      case Some(k) =>
        if newCode != oldCode && HoldsCode(t, newCode) then Err(DuplicateKey)
        else
          var x := Tag(t.rows[k].id, newCode, name);
          Renamed(t, k, oldCode, x);
          Ok((Table(t.rows[k := x], true), Some(x)))
  }

  /** Renaming row k, the first holder of the old code, to a code no other
      row holds: the new code is found at k, ids stay, and the constraints
      hold again. */
  lemma Renamed(t: Table, k: nat, oldCode: string, x: Tag)
    requires k < |t.rows| && t.rows[k].code == oldCode && x.id == t.rows[k].id
    requires forall j :: 0 <= j < k ==> t.rows[j].code != oldCode
    requires x.code == oldCode || !HoldsCode(t, x.code)
    ensures FindByCode(Table(t.rows[k := x], true), x.code) == Ok(Some(x))
    ensures Valid(t) ==> Valid(Table(t.rows[k := x], true))
    ensures Valid(t) && x.code != oldCode ==> !HoldsCode(Table(t.rows[k := x], true), oldCode)
  {
    var rows := t.rows[k := x];
    assert forall j :: 0 <= j < k ==> !HasCode(x.code)(rows[j]);
    Rows.FirstIndexAt(rows, HasCode(x.code), k);
    if Valid(t) {
      forall i, j | 0 <= i < j < |rows|
        ensures rows[i].code != rows[j].code && rows[i].id != rows[j].id
      {
        assert CodeOf(t.rows[i]) != CodeOf(t.rows[j]) && IdOf(t.rows[i]) != IdOf(t.rows[j]);
      }
      if x.code != oldCode {
        forall i | 0 <= i < |rows|
          ensures rows[i].code != oldCode
        {
          if i < k {
            assert CodeOf(t.rows[i]) != CodeOf(t.rows[k]);
          } else if i > k {
            assert CodeOf(t.rows[k]) != CodeOf(t.rows[i]);
          }
        }
      }
    }
  }

  lemma AppendKeepsValid(t: Table, x: Tag)
    requires !HoldsCode(t, x.code) && !HoldsId(t, x.id)
    ensures Valid(t) ==> Valid(Table(t.rows + [x], true))
  {
    if Valid(t) {
      AppendKeepsUnique(t.rows, x, CodeOf);
      AppendKeepsUnique(t.rows, x, IdOf);
    }
  }

  lemma FilterKeepsValid(t: Table, p: Tag -> bool)
    ensures Valid(t) ==> Valid(Table(Rows.Filter(t.rows, p), true))
  {
    if Valid(t) {
      FilterKeepsUnique(t.rows, p, CodeOf);
      FilterKeepsUnique(t.rows, p, IdOf);
    }
  }

  /** Appending a row with a fresh key keeps keys unique. */
  lemma AppendKeepsUnique(s: seq<Tag>, x: Tag, key: Tag -> string)
    requires UniqueBy(s, key)
    requires forall i :: 0 <= i < |s| ==> key(s[i]) != key(x)
    ensures UniqueBy(s + [x], key)
  {
    var r := s + [x];
    forall i, j | 0 <= i < j < |r|
      ensures key(r[i]) != key(r[j])
    {
      assert r[i] == s[i];
    }
  }

  /** `DELETE FROM tags WHERE code = $1`; no affected row is `sql.ErrNoRows`. */
  function Delete(t: Table, code: string): (r: Result<Table, Error>)
    ensures r.Err? <==> !t.reachable || !HoldsCode(t, code)
    ensures r.Err? && t.reachable ==> r.error == NoRows
    ensures r.Ok? ==> r.value.reachable && FindByCode(r.value, code) == Ok(None)
    ensures r.Ok? ==> forall x :: x in r.value.rows <==> x in t.rows && x.code != code
    ensures r.Ok? && Valid(t) ==> Valid(r.value)
  {
    if !t.reachable then Err(Unreachable)
    else if !HoldsCode(t, code) then Err(NoRows)
    else
      var rows := Rows.Filter(t.rows, LacksCode(code));
      FilterKeepsValid(t, LacksCode(code));
      Ok(Table(rows, true))
  }

  /** The tail of a list with unique keys has unique keys. */
  lemma TailUnique(s: seq<Tag>, key: Tag -> string)
    requires s != [] && UniqueBy(s, key)
    ensures UniqueBy(s[1..], key)
  {
    var t := s[1..];
    forall i, j | 0 <= i < j < |t|
      ensures key(t[i]) != key(t[j])
    {
      assert t[i] == s[i + 1] && t[j] == s[j + 1];
    }
  }

  /** A head whose key no element of a unique-keyed tail has keeps the keys
      unique. */
  lemma ConsUnique(h: Tag, t: seq<Tag>, key: Tag -> string)
    requires UniqueBy(t, key)
    requires forall m :: 0 <= m < |t| ==> key(t[m]) != key(h)
    ensures UniqueBy([h] + t, key)
  {
    var r := [h] + t;
    forall i, j | 0 <= i < j < |r|
      ensures key(r[i]) != key(r[j])
    {
      assert r[j] == t[j - 1];
      if i > 0 {
        assert r[i] == t[i - 1];
      }
    }
  }

  /** Dropping rows keeps keys unique. */
  lemma {:induction false} FilterKeepsUnique(s: seq<Tag>, p: Tag -> bool, key: Tag -> string)
    requires UniqueBy(s, key)
    ensures UniqueBy(Rows.Filter(s, p), key)
  {
    if s != [] {
      TailUnique(s, key);
      FilterKeepsUnique(s[1..], p, key);
      var rest := Rows.Filter(s[1..], p);
      if p(s[0]) {
        forall m | 0 <= m < |rest|
          ensures key(rest[m]) != key(s[0])
        {
          assert rest[m] in s[1..];
          var k :| 0 <= k < |s[1..]| && s[1..][k] == rest[m];
          assert s[k + 1] == rest[m];
        }
        ConsUnique(s[0], rest, key);
        assert Rows.Filter(s, p) == [s[0]] + rest;
      } else {
        assert Rows.Filter(s, p) == rest;
      }
    }
  }

  // ---------------------------------------------------------------------
  // Search

  /** needle occurs in hay as a run of consecutive characters. */
  predicate Occurs(needle: string, hay: string) {
    exists i :: 0 <= i <= |hay| - |needle| && MatchAt(needle, hay, i)
  }

  /** needle occurs in hay at position i. */
  predicate MatchAt(needle: string, hay: string, i: int)
    requires 0 <= i <= |hay| - |needle|
  {
    hay[i..i + |needle|] == needle
  }

  function Contains(hay: string, needle: string): (b: bool)
    ensures b <==> Occurs(needle, hay)
    decreases |hay|
  {
    if |needle| > |hay| then false
    else if hay[..|needle|] == needle then
      assert MatchAt(needle, hay, 0);
      true
    else
      ContainsShift(hay, needle);
      Contains(hay[1..], needle)
  }

  /** With no match at the start, a match in hay is a match in its tail. */
  lemma ContainsShift(hay: string, needle: string)
    requires |needle| <= |hay| && hay[..|needle|] != needle
    ensures Occurs(needle, hay) <==> Occurs(needle, hay[1..])
  {
    if Occurs(needle, hay) {
      var i :| 0 <= i <= |hay| - |needle| && MatchAt(needle, hay, i);
      assert i > 0;
      assert hay[1..][i - 1..i - 1 + |needle|] == hay[i..i + |needle|];
      assert MatchAt(needle, hay[1..], i - 1);
    }
    if Occurs(needle, hay[1..]) {
      var i :| 0 <= i <= |hay[1..]| - |needle| && MatchAt(needle, hay[1..], i);
      assert hay[i + 1..i + 1 + |needle|] == hay[1..][i..i + |needle|];
      assert MatchAt(needle, hay, i + 1);
    }
  }

  /** `text ILIKE '%' || search || '%'`, with ASCII case folding. */
  predicate ILikeContains(text: string, search: string) {
    Contains(Lower(text), Lower(search))
  }

  /** `name->>lang ILIKE $1`: a missing entry is NULL and never matches. */
  predicate NameMatches(x: Tag, lang: string, search: string) {
    lang in x.name && ILikeContains(x.name[lang], search)
  }

  /** The search condition: code or the English, Russian or Kazakh name. */
  predicate Matches(x: Tag, search: string) {
    ILikeContains(x.code, search) || NameMatches(x, "en", search)
    || NameMatches(x, "ru", search) || NameMatches(x, "kk", search)
  }

  function Hits(search: string): Tag -> bool { (x: Tag) => Matches(x, search) }

  function Everything(): Tag -> bool { (x: Tag) => true }

  /** The empty search matches every tag. */
  lemma EmptySearchMatchesAll(x: Tag)
    ensures Matches(x, "")
  {
    assert MatchAt(Lower(""), Lower(x.code), 0);
  }

  // ---------------------------------------------------------------------
  // Statement plan

  /** A bound argument: the search text of the pattern `'%' || text || '%'`,
      or a number. */
  datatype Arg = Pattern(text: string) | Number(n: int)

  /** The statements FindAllWithPagination sends: the `$n` of the search
      condition (all four comparisons share it), of LIMIT and of OFFSET,
      the arguments of the page statement, and how many of them the count
      statement binds. */
  datatype Plan = Plan(searchAt: Option<nat>, limitAt: Option<nat>, offsetAt: Option<nat>, args: seq<Arg>, countArgs: nat)

  /** The placeholders in the order they appear in the text. */
  function Used(p: Plan): seq<nat> {
    (if p.searchAt.Some? then [p.searchAt.value] else [])
    + (if p.limitAt.Some? then [p.limitAt.value] else [])
    + (if p.offsetAt.Some? then [p.offsetAt.value] else [])
  }

  /** Builds the plan, numbering placeholders as it appends clauses. */
  function PlanOf(limit: int, offset: int, search: string): (p: Plan)
    ensures p.searchAt.Some? <==> search != ""
    ensures p.limitAt.Some? <==> limit > 0
    ensures p.offsetAt.Some? <==> offset > 0
    ensures p.searchAt.Some? ==> 1 <= p.searchAt.value <= |p.args|
    ensures p.limitAt.Some? ==> 1 <= p.limitAt.value <= |p.args|
    ensures p.offsetAt.Some? ==> 1 <= p.offsetAt.value <= |p.args|
    ensures |Used(p)| == |p.args|
    ensures forall m :: 0 <= m < |Used(p)| ==> Used(p)[m] == m + 1
    ensures p.searchAt.Some? ==> p.args[p.searchAt.value - 1] == Pattern(search)
    ensures p.limitAt.Some? ==> p.args[p.limitAt.value - 1] == Number(limit)
    ensures p.offsetAt.Some? ==> p.args[p.offsetAt.value - 1] == Number(offset)
    ensures p.countArgs <= |p.args|
    ensures p.searchAt.Some? ==> p.searchAt.value <= p.countArgs
    ensures forall m :: 0 <= m < p.countArgs ==> p.args[m].Pattern?
  {
    var searchArgs := if search != "" then [Pattern(search)] else [];
    var searchAt := if search != "" then Some(1) else None;
    var limitAt := if limit > 0 then Some(|searchArgs| + 1) else None;
    var withLimit := searchArgs + (if limit > 0 then [Number(limit)] else []);
    var offsetAt := if offset > 0 then Some(|withLimit| + 1) else None;
    var args := withLimit + (if offset > 0 then [Number(offset)] else []);
    Plan(searchAt, limitAt, offsetAt, args, |searchArgs|)
  }

  /** Every placeholder of the plan is bound to an argument of its kind;
      LIMIT and OFFSET are bound to positive numbers. */
  predicate WellFormed(p: Plan) {
    && (p.searchAt.Some? ==> 1 <= p.searchAt.value <= |p.args| && p.args[p.searchAt.value - 1].Pattern?)
    && (p.limitAt.Some? ==> 1 <= p.limitAt.value <= |p.args| && p.args[p.limitAt.value - 1].Number? && p.args[p.limitAt.value - 1].n > 0)
    && (p.offsetAt.Some? ==> 1 <= p.offsetAt.value <= |p.args| && p.args[p.offsetAt.value - 1].Number? && p.args[p.offsetAt.value - 1].n > 0)
  }

  /** The WHERE clause of a plan, read back from its bound argument. */
  function WhereOf(p: Plan): Tag -> bool
    requires WellFormed(p)
  {
    match p.searchAt
    case None => Everything()
    case Some(i) => Hits(p.args[i - 1].text)
  }

  /** The row count LIMIT allows: its bound number, or every row when the
      plan has no LIMIT. */
  function LimitOf(p: Plan, rows: nat): nat
    requires WellFormed(p)
  {
    if p.limitAt.Some? then p.args[p.limitAt.value - 1].n else rows
  }

  /** The rows OFFSET skips: its bound number, or none. */
  function SkipOf(p: Plan): nat
    requires WellFormed(p)
  {
    if p.offsetAt.Some? then p.args[p.offsetAt.value - 1].n else 0
  }

  /** Executes a plan: the page statement's rows and the count statement's
      number. */
  function Run(t: Table, p: Plan): (seq<Tag>, nat)
    requires WellFormed(p)
  {
    var selected := Rows.Filter(t.rows, WhereOf(p));
    (Rows.Window(Collation.SortAsc(selected, CodeOf), LimitOf(p, |selected|), SkipOf(p)), |selected|)
  }

  // ---------------------------------------------------------------------
  // Paginated listing

  /** The matches of a search in code order: what the page statement
      returns before LIMIT and OFFSET. */
  function Unpaged(t: Table, search: string): seq<Tag> {
    Collation.SortAsc(Rows.Filter(t.rows, Hits(search)), CodeOf)
  }

  /** `LIMIT`/`OFFSET` as the page statement applies them: a limit that is
      not positive means no limit, an offset that is not positive means
      none. */
  function Cut(u: seq<Tag>, limit: int, offset: int): (page: seq<Tag>)
    ensures limit > 0 ==> |page| <= limit
    ensures
      var o := if offset > 0 then offset else 0;
      && (o >= |u| ==> page == [])
      && (o < |u| ==> o + |page| <= |u| && page == u[o..o + |page|])
      && (o < |u| && (limit <= 0 || o + limit >= |u|) ==> o + |page| == |u|)
      && (o < |u| && limit > 0 && o + limit < |u| ==> |page| == limit)
    ensures Collation.SortedAsc(u, CodeOf) ==> Collation.SortedAsc(page, CodeOf)
    ensures forall x :: x in page ==> x in u
  {
    var page := Rows.Window(u, if limit > 0 then limit else |u|, if offset > 0 then offset else 0);
    WindowFacts(u, page, if offset > 0 then offset else 0);
    page
  }

  /** A contiguous run of a sorted listing is sorted and holds only its
      rows. */
  lemma WindowFacts(u: seq<Tag>, page: seq<Tag>, skip: nat)
    requires page == [] || (skip + |page| <= |u| && page == u[skip..skip + |page|])
    ensures Collation.SortedAsc(u, CodeOf) ==> Collation.SortedAsc(page, CodeOf)
    ensures forall x :: x in page ==> x in u
  {
    if page != [] {
      if Collation.SortedAsc(u, CodeOf) {
        forall i, j | 0 <= i < j < |page|
          ensures Collation.Le(CodeOf(page[i]), CodeOf(page[j]))
        {
          assert page[i] == u[skip + i] && page[j] == u[skip + j];
        }
      }
      forall x | x in page
        ensures x in u
      {
        var i :| 0 <= i < |page| && page[i] == x;
        assert u[skip + i] == x;
      }
    }
  }

  /** The plan binds LIMIT and OFFSET to the positive values asked for. */
  lemma PlanBindings(limit: int, offset: int, search: string, rows: nat)
    ensures WellFormed(PlanOf(limit, offset, search))
    ensures LimitOf(PlanOf(limit, offset, search), rows) == if limit > 0 then limit else rows
    ensures SkipOf(PlanOf(limit, offset, search)) == if offset > 0 then offset else 0
  {
  }

  /** The plan of a request runs as the cut of the unpaged matches, with
      the count of all matches. */
  lemma RunPlanOf(t: Table, limit: int, offset: int, search: string)
    ensures WellFormed(PlanOf(limit, offset, search))
    ensures Run(t, PlanOf(limit, offset, search))
      == (Cut(Unpaged(t, search), limit, offset), |Rows.Filter(t.rows, Hits(search))|)
  {
    var p := PlanOf(limit, offset, search);
    var matches := Rows.Filter(t.rows, Hits(search));
    PlanBindings(limit, offset, search, |matches|);
    SelectedMatches(t, search, p);
  }

  /** The plan's WHERE clause selects exactly the matches of the search. */
  lemma SelectedMatches(t: Table, search: string, p: Plan)
    requires WellFormed(p)
    requires p.searchAt.Some? <==> search != ""
    requires p.searchAt.Some? ==> p.args[p.searchAt.value - 1] == Pattern(search)
    ensures Rows.Filter(t.rows, WhereOf(p)) == Rows.Filter(t.rows, Hits(search))
  {
    if search == "" {
      assert WhereOf(p) == Everything();
      forall i | 0 <= i < |t.rows|
        ensures Hits(search)(t.rows[i])
      {
        EmptySearchMatchesAll(t.rows[i]);
      }
      Rows.FilterAll(t.rows, Everything());
      Rows.FilterAll(t.rows, Hits(search));
    } else {
      assert WhereOf(p) == Hits(search);
    }
  }

  /** Runs the count statement and the page statement of PlanOf. */
  function FindAllWithPagination(t: Table, limit: int, offset: int, search: string): (r: Result<(seq<Tag>, nat), Error>)
    ensures r.Err? <==> !t.reachable
    ensures r.Ok? ==> r.value == (Cut(Unpaged(t, search), limit, offset), |Rows.Filter(t.rows, Hits(search))|)
    ensures r.Ok? ==> |Unpaged(t, search)| == r.value.1
    ensures r.Ok? ==> Collation.SortedAsc(r.value.0, CodeOf)
    ensures r.Ok? ==> forall x :: x in r.value.0 ==> x in t.rows && Matches(x, search)
  {
    if !t.reachable then Err(Unreachable)
    else
      RunPlanOf(t, limit, offset, search);
      UnpagedFacts(t, search);
      Ok(Run(t, PlanOf(limit, offset, search)))
  }

  /** The unpaged listing is sorted by code and holds exactly the matches. */
  lemma UnpagedFacts(t: Table, search: string)
    ensures Collation.SortedAsc(Unpaged(t, search), CodeOf)
    ensures |Unpaged(t, search)| == |Rows.Filter(t.rows, Hits(search))|
    ensures forall x :: x in Unpaged(t, search) ==> x in t.rows && Matches(x, search)
  {
    var f := Rows.Filter(t.rows, Hits(search));
    Collation.SortAscSorted(f, CodeOf);
    forall x | x in Unpaged(t, search)
      ensures x in t.rows && Matches(x, search)
    {
      assert x in multiset(Unpaged(t, search));
      assert x in multiset(f);
      var i :| 0 <= i < |f| && f[i] == x;
      assert Hits(search)(f[i]);
    }
  }

  /** Without search, LIMIT or OFFSET the paginated listing is the plain one. */
  lemma UnpagedIsFindAll(t: Table, limit: int, offset: int)
    requires t.reachable && limit <= 0 && offset <= 0
    ensures FindAllWithPagination(t, limit, offset, "").value == (FindAll(t).value, |t.rows|)
  {
    forall i | 0 <= i < |t.rows|
      ensures Hits("")(t.rows[i])
    {
      EmptySearchMatchesAll(t.rows[i]);
    }
    Rows.FilterAll(t.rows, Hits(""));
    var u := Unpaged(t, "");
    assert u == Collation.SortAsc(t.rows, CodeOf);
    var page := Cut(u, limit, offset);
    if u != [] {
      assert page == u[0..|page|] && |page| == |u|;
    }
    assert page == u;
  }

  // ---------------------------------------------------------------------
  // Service

  const DefaultLimit := 20
  const MaxLimit := 100

  /** The paginated reply: the page, the total number of matches, the
      effective limit, the offset, and whether rows remain. */
  datatype Listing = Listing(tags: seq<Tag>, total: nat, limit: int, offset: int, hasMore: bool)

  /** A limit that is not positive takes the default; one above the
      maximum takes the maximum. */
  function ClampLimit(limit: int): (l: int)
    ensures 1 <= l <= MaxLimit
    ensures 1 <= limit <= MaxLimit ==> l == limit
    ensures limit > MaxLimit ==> l == MaxLimit
  {
    if limit <= 0 then DefaultLimit else if limit > MaxLimit then MaxLimit else limit
  }

  lemma ClampIdempotent(limit: int)
    ensures ClampLimit(ClampLimit(limit)) == ClampLimit(limit)
  {
  }

  /** `has_more` with the sum wrapped to 64 bits, as the service computes it. */
  predicate HasMoreAsWritten(offset: int, limit: int, total: int) {
    Wrap64(offset + limit) < total
  }

  /** `has_more`: rows remain beyond this page. */
  predicate HasMore(offset: int, limit: int, total: int) {
    offset + limit < total
  }

  /** The service: clamps the limit, asks the repository, and reports
      whether rows remain. */
  function ListTagsWithPagination(t: Table, limit: int, offset: int, search: string): (r: Result<Listing, Error>)
    ensures r.Err? <==> !t.reachable
    ensures r.Ok? ==> 1 <= r.value.limit <= MaxLimit && r.value.offset == offset
    ensures r.Ok? ==> (r.value.tags, r.value.total) == FindAllWithPagination(t, r.value.limit, offset, search).value
    ensures r.Ok? && offset >= 0 ==> (r.value.hasMore <==> offset + |r.value.tags| < r.value.total)
  {
    var l := ClampLimit(limit);
    match FindAllWithPagination(t, l, offset, search)
    case Err(e) => Err(e)
    case Ok((tags, total)) =>
      Ok(Listing(tags, total, l, offset, HasMore(offset, l, total)))
  }

  /** The service as written: `has_more` computed in 64-bit arithmetic. */
  function ListTagsWithPaginationAsWritten(t: Table, limit: int, offset: int, search: string): (r: Result<Listing, Error>)
    ensures r.Err? <==> !t.reachable
    ensures r.Ok? ==> r.value.hasMore == HasMoreAsWritten(offset, r.value.limit, r.value.total)
    ensures r.Ok? ==> r.value.(hasMore := false) == ListTagsWithPagination(t, limit, offset, search).value.(hasMore := false)
  {
    var l := ClampLimit(limit);
    match FindAllWithPagination(t, l, offset, search)
    case Err(e) => Err(e)
    case Ok((tags, total)) =>
      Ok(Listing(tags, total, l, offset, HasMoreAsWritten(offset, l, total)))
  }

  /** At the largest offset a client can send, the as-written service
      reports more rows on an empty page; the corrected one does not. */
  lemma HasMoreAsWrittenWraps(t: Table)
    requires t.reachable && |t.rows| <= MaxInt64
    ensures ListTagsWithPaginationAsWritten(t, 0, MaxInt64, "").value.tags == []
    ensures ListTagsWithPaginationAsWritten(t, 0, MaxInt64, "").value.hasMore
    ensures !ListTagsWithPagination(t, 0, MaxInt64, "").value.hasMore
  {
    var page := FindAllWithPagination(t, DefaultLimit, MaxInt64, "").value;
    assert page.1 <= |t.rows| <= MaxInt64;
    SumWraps();
  }

  /** The sum of the largest offset and the default limit wraps. */
  lemma SumWraps()
    ensures Wrap64(MaxInt64 + DefaultLimit) == MinInt64 + DefaultLimit - 1
  {
  }

  // ---------------------------------------------------------------------
  // Handlers

  /** What `GET /api/tags` answers: the plain list, or the paginated reply. */
  datatype TagList = Plain(tags: seq<Tag>) | Paged(listing: Listing)

  /** Any of the three query parameters selects the paginated reply, the
      service's page of the sorted matches with their total and whether rows
      remain past it (with the corrected `has_more`). */
  function ListTags(t: Table, limitRaw: string, offsetRaw: string, search: string): (r: Response<TagList>)
    ensures r.Failure? <==> !t.reachable
    ensures r.Failure? ==> r.status == 500
    ensures r.Success? ==> r.status == 200
    ensures r.Success? ==> (r.body.Paged? <==> limitRaw != "" || offsetRaw != "" || search != "")
    ensures r.Success? && r.body.Plain? ==> r.body.tags == FindAll(t).value
    ensures r.Success? && r.body.Paged? ==>
      && r.body.listing.offset >= 0
      && r.body.listing.limit == ClampLimit(PositiveOr(limitRaw, DefaultLimit))
      && r.body.listing.offset == NonNegativeOr(offsetRaw, 0)
    ensures r.Success? && r.body.Paged? ==> var l := r.body.listing;
      && (l.tags, l.total) == FindAllWithPagination(t, l.limit, l.offset, search).value
      && (l.hasMore <==> l.offset + |l.tags| < l.total)
  {
    var limit := PositiveOr(limitRaw, DefaultLimit);
    var offset := NonNegativeOr(offsetRaw, 0);
    if limitRaw != "" || offsetRaw != "" || search != "" then
      match ListTagsWithPagination(t, limit, offset, search)
      case Err(_) => Failure(500)
      case Ok(listing) => Success(200, Paged(listing))
    else
      match FindAll(t)
      case Err(_) => Failure(500)
      case Ok(tags) => Success(200, Plain(tags))
  }

  /** A decimal limit in [1, 100] and a decimal offset that is not
      negative reach the service exactly as sent. */
  lemma ListTagsReadsParameters(t: Table, limit: int, offset: int, search: string)
    requires t.reachable && 1 <= limit <= MaxLimit && 0 <= offset <= MaxInt64
    ensures ListTags(t, IntToString(limit), IntToString(offset), search).body.listing.limit == limit
    ensures ListTags(t, IntToString(limit), IntToString(offset), search).body.listing.offset == offset
  {
    PositiveOrReadsBack(limit, DefaultLimit);
    NonNegativeOrReadsBack(offset, 0);
    assert IntToString(limit) != "";
  }

  /** `strings.Trim(path, "/")`. */
  function TrimSlashes(path: string): (r: string)
    ensures r == [] || (r[0] != '/' && r[|r| - 1] != '/')
  {
    TrimRightChar(TrimLeftChar(path, '/'), '/')
  }

  /** The code a request names: the router's value, or else the last
      segment of the trimmed path. */
  function PathCode(routed: string, path: string): (code: string)
    ensures routed != "" ==> code == routed
    ensures routed == "" ==> '/' !in code
  {
    if routed != "" then routed
    else
      var parts := Split(TrimSlashes(path), '/');
      parts[|parts| - 1]
  }

  /** `GET /api/tags/{code}`. */
  function GetTagByCode(t: Table, routed: string, path: string): (r: Response<Tag>)
    ensures r.Failure? && r.status == 400 <==> PathCode(routed, path) == ""
    ensures r.Failure? && r.status == 500 <==> PathCode(routed, path) != "" && !t.reachable
    ensures r.Failure? && r.status == 404 <==> PathCode(routed, path) != "" && t.reachable && !HoldsCode(t, PathCode(routed, path))
    ensures r.Failure? ==> r.status in {400, 404, 500}
    ensures r.Success? ==> r.status == 200 && r.body in t.rows && r.body.code == PathCode(routed, path)
  {
    var code := PathCode(routed, path);
    if code == "" then Failure(400)
    else match FindByCode(t, code)
      case Err(_) => Failure(500)
      case Ok(None) => Failure(404)
      case Ok(Some(x)) => Success(200, x)
  }

  /** One leading slash in front of a slash-free-ended path is all that
      trimming removes. */
  lemma TrimOneSlash(s: string)
    requires s != [] && s[0] != '/' && s[|s| - 1] != '/'
    ensures TrimSlashes("/" + s) == s
  {
    assert TrimLeftChar(s, '/') == s && TrimRightChar(s, '/') == s;
    TrimLeftCharCons(s, '/');
  }

  /** The segments of `api/tags/<code>`. */
  lemma TagsPathSegments(code: string)
    requires '/' !in code
    ensures Split("api/tags/" + code, '/') == ["api", "tags", code]
  {
    assert "api/tags/" + code == "api" + ['/'] + ("tags" + ['/'] + code);
    SplitAfterPiece("api", "tags" + ['/'] + code, '/');
    SplitAfterPiece("tags", code, '/');
    SplitNoSep(code, '/');
  }

  /** Without a router, `/api/tags/<code>` names the code. */
  lemma PathNamesCode(code: string)
    requires code != "" && '/' !in code
    ensures PathCode("", "/api/tags/" + code) == code
  {
    var inner := "api/tags/" + code;
    assert inner[|inner| - 1] == code[|code| - 1];
    assert "/api/tags/" + code == "/" + inner;
    TrimOneSlash(inner);
    TagsPathSegments(code);
  }

  /** `POST /api/tags`: the reply and the table afterwards. An unreadable
      body or an empty code is refused before the service is called. */
  function CreateTag(t: Table, bodyParses: bool, id: string, code: string, name: map<string, string>): (r: (Table, Response<Tag>))
    ensures !bodyParses || code == "" ==> r == (t, Failure(400))
    ensures r.1.Failure? ==> r.0 == t && r.1.status in {400, 500}
    ensures r.1.Failure? && r.1.status == 500 <==> bodyParses && code != "" && Create(t, id, code, name).Err?
    ensures r.1.Success? ==> r.1.status == 201 && r.1.body.code == code && FindByCode(r.0, code) == Ok(Some(r.1.body))
  {
    if !bodyParses || code == "" then (t, Failure(400))
    else match Create(t, id, code, name)
      case Err(_) => (t, Failure(500))
      case Ok((u, x)) => (u, Success(201, x))
  }

  /** A second create of the same code is refused whatever its key. */
  lemma DuplicateCreateFails(t: Table, id1: string, id2: string, code: string, name1: map<string, string>, name2: map<string, string>)
    requires code != "" && CreateTag(t, true, id1, code, name1).1.Success?
    ensures CreateTag(CreateTag(t, true, id1, code, name1).0, true, id2, code, name2).1 == Failure(500)
  {
    var u := CreateTag(t, true, id1, code, name1).0;
    assert FindByCode(u, code) == Ok(Some(CreateTag(t, true, id1, code, name1).1.body));
    assert HoldsCode(u, code);
  }

  /** `PUT /api/tags/{code}`: an update of a missing code answers 200 with
      an empty (`null`) body. */
  function UpdateTag(t: Table, routed: string, bodyParses: bool, newCode: string, name: map<string, string>): (r: (Table, Response<Option<Tag>>))
    ensures routed == "" || !bodyParses ==> r == (t, Failure(400))
    ensures r.1.Failure? ==> r.0 == t && r.1.status in {400, 500}
    ensures r.1.Success? ==> r.1.status == 200 && routed != ""
    ensures r.1.Success? && r.1.body.None? ==> r.0 == t && !HoldsCode(t, routed)
    ensures r.1.Success? && r.1.body.Some? ==> r.1.body.value.code == newCode && FindByCode(r.0, newCode) == Ok(r.1.body)
  {
    if routed == "" || !bodyParses then (t, Failure(400))
    else match Update(t, routed, newCode, name)
      case Err(_) => (t, Failure(500))
      case Ok((u, x)) => (u, Success(200, x))
  }

  /** `DELETE /api/tags/{code}`: a missing code is a server error, as the
      repository reports it as one. */
  function DeleteTag(t: Table, routed: string): (r: (Table, Response<()>))
    ensures routed == "" ==> r == (t, Failure(400))
    ensures r.1.Failure? ==> r.0 == t && r.1.status in {400, 500}
    ensures r.1.Failure? && r.1.status == 500 <==> routed != "" && (!t.reachable || !HoldsCode(t, routed))
    ensures r.1.Success? ==> r.1.status == 204 && FindByCode(r.0, routed) == Ok(None)
  {
    if routed == "" then (t, Failure(400))
    else match Delete(t, routed)
      case Err(_) => (t, Failure(500))
      case Ok(u) => (u, Success(204, ()))
  }
}

=== FILE: text.dfy ===
/** String and integer helpers that stand in for the Go standard library
    calls the core relies on: `strconv.Atoi`, `fmt.Sprintf("%d")`,
    `strings.Split`/`Join`/`TrimSpace`/`TrimPrefix`, ASCII lower-casing, and
    64-bit signed wrap-around. */
module Text {
  import opened Wrappers

  // ---------------------------------------------------------------------
  // Characters

  predicate IsDigit(c: char) { '0' <= c <= '9' }
  predicate IsLowerAlpha(c: char) { 'a' <= c <= 'z' }
  predicate IsUpperAlpha(c: char) { 'A' <= c <= 'Z' }

  /** The regular-expression class `[a-z0-9]`. */
  predicate IsLowerAlnum(c: char) { IsLowerAlpha(c) || IsDigit(c) }

  /** An ASCII letter or digit of either case. */
  predicate IsAsciiAlnum(c: char) { IsLowerAlpha(c) || IsUpperAlpha(c) || IsDigit(c) }

  /** ASCII-only lower-casing of one character. */
  function LowerChar(c: char): (r: char)
    ensures IsUpperAlpha(c) ==> IsLowerAlpha(r)
    ensures !IsUpperAlpha(c) ==> r == c
    ensures IsAsciiAlnum(c) <==> IsLowerAlnum(r)
  {
    if IsUpperAlpha(c) then (c as int + 32) as char else c
  }

  /** ASCII-only lower-casing of a string, character for character. */
  function Lower(s: string): (r: string)
    ensures |r| == |s|
    ensures forall i :: 0 <= i < |s| ==> r[i] == LowerChar(s[i])
  {
    seq(|s|, i requires 0 <= i < |s| => LowerChar(s[i]))
  }

  /** Go's `unicode.IsSpace`: the Unicode White_Space property. */
  predicate IsSpace(c: char) {
    c == ' ' || c == '\t' || c == '\n' || c == '\r' || c == '\U{000B}' || c == '\U{000C}'
    || c == '\U{0085}' || c == '\U{00A0}' || c == '\U{1680}'
    || ('\U{2000}' <= c <= '\U{200A}')
    || c == '\U{2028}' || c == '\U{2029}' || c == '\U{202F}' || c == '\U{205F}' || c == '\U{3000}'
  }

  // ---------------------------------------------------------------------
  // Decimal numbers

  function DigitChar(d: nat): (c: char)
    requires d < 10
    ensures IsDigit(c)
  {
    ('0' as int + d) as char
  }

  function DigitValue(c: char): (d: nat)
    requires IsDigit(c)
    ensures d < 10 && DigitChar(d) == c
  {
    c as int - '0' as int
  }

  predicate AllDigits(s: string) { forall i :: 0 <= i < |s| ==> IsDigit(s[i]) }

  /** `fmt.Sprintf("%d", n)` for a non-negative n: no sign, no leading zero. */
  function NatToString(n: nat): (r: string)
    ensures |r| >= 1 && AllDigits(r)
    ensures r[0] == '0' ==> n == 0
  {
    if n < 10 then [DigitChar(n)] else NatToString(n / 10) + [DigitChar(n % 10)]
  }

  /** The value of a run of decimal digits, most significant first. */
  function DigitsValue(s: string): nat
    requires AllDigits(s)
  {
    if s == [] then 0 else DigitsValue(s[..|s| - 1]) * 10 + DigitValue(s[|s| - 1])
  }

  /** Reading back what `NatToString` printed gives the same number. */
  lemma {:induction false} DigitsRoundTrip(n: nat)
    ensures DigitsValue(NatToString(n)) == n
  {
    if n >= 10 {
      var r := NatToString(n);
      assert r[..|r| - 1] == NatToString(n / 10);
      DigitsRoundTrip(n / 10);
    }
  }

  /** Distinct numbers print as distinct strings. */
  lemma NatToStringInjective(a: nat, b: nat)
    requires NatToString(a) == NatToString(b)
    ensures a == b
  {
    DigitsRoundTrip(a);
    DigitsRoundTrip(b);
  }

  /** `fmt.Sprintf("%d", n)` / `strconv.Itoa(n)` for any integer. */
  function IntToString(n: int): (r: string)
    ensures n >= 0 ==> r == NatToString(n)
    ensures n < 0 ==> r == "-" + NatToString(-n)
  {
    if n < 0 then "-" + NatToString(-n) else NatToString(n)
  }

  const MinInt64: int := -0x8000_0000_0000_0000
  const MaxInt64: int := 0x7FFF_FFFF_FFFF_FFFF

  predicate InInt64(n: int) { MinInt64 <= n <= MaxInt64 }

  /** Two's-complement wrap-around of Go's 64-bit `int` arithmetic. */
  function Wrap64(x: int): (r: int)
    ensures InInt64(r)
    ensures InInt64(x) ==> r == x
    ensures (r - x) % 0x1_0000_0000_0000_0000 == 0
  {
    var m := x % 0x1_0000_0000_0000_0000;
    if m > MaxInt64 then m - 0x1_0000_0000_0000_0000 else m
  }

  /** A product of two non-negative factors is non-negative (the page
      offset before any wrap-around). */
  lemma NonNegativeProduct(a: int, b: int)
    requires 0 <= a && 0 <= b
    ensures 0 <= a * b
  {
  }

  /** `strconv.Atoi`: an optional `+` or `-`, then one or more decimal
      digits, and a value that fits in 64 bits; anything else is an error
      (`None`). */
  function Atoi(s: string): (r: Option<int>)
    ensures r.Some? ==> InInt64(r.value)
    ensures r.Some? ==> |s| >= 1
  {
    var neg := |s| > 0 && s[0] == '-';
    var digits := if |s| > 0 && (s[0] == '-' || s[0] == '+') then s[1..] else s;
    if |digits| == 0 || !AllDigits(digits) then None
    else
      var mag: int := DigitsValue(digits);
      var v := if neg then -mag else mag;
      if InInt64(v) then Some(v) else None
  }

  /** `Atoi` of a minus sign and digits whose value fits. */
  lemma AtoiNegative(d: string, m: nat)
    requires |d| >= 1 && AllDigits(d) && DigitsValue(d) == m && m <= -MinInt64
    ensures Atoi("-" + d) == Some(-(m as int))
  {
    var s := "-" + d;
    assert s[0] == '-' && s[1..] == d;
  }

  /** `Atoi` of unsigned digits whose value fits. */
  lemma AtoiUnsigned(d: string, m: nat)
    requires |d| >= 1 && AllDigits(d) && DigitsValue(d) == m && InInt64(m)
    ensures Atoi(d) == Some(m)
  {
    assert IsDigit(d[0]);
  }

  /** `Atoi` reads back every 64-bit integer that `IntToString` prints. */
  lemma AtoiRoundTrip(n: int)
    requires InInt64(n)
    ensures Atoi(IntToString(n)) == Some(n)
  {
    if n < 0 {
      DigitsRoundTrip(-n);
      AtoiNegative(NatToString(-n), -n);
    } else {
      DigitsRoundTrip(n);
      AtoiUnsigned(NatToString(n), n);
    }
  }

  // ---------------------------------------------------------------------
  // Prefixes, splitting and joining

  predicate HasPrefix(s: string, p: string) { |p| <= |s| && s[..|p|] == p }

  /** `strings.TrimPrefix`. */
  function TrimPrefix(s: string, p: string): (r: string)
    ensures HasPrefix(s, p) ==> p + r == s
    ensures !HasPrefix(s, p) ==> r == s
  {
    if HasPrefix(s, p) then s[|p|..] else s
  }

  /** Number of occurrences of c in s. */
  function Count(s: string, c: char): nat {
    if s == [] then 0 else (if s[0] == c then 1 else 0) + Count(s[1..], c)
  }

  /** `strings.Split(s, string(sep))`: always at least one piece, one more
      than the number of separators, and no piece holds a separator. */
  function Split(s: string, sep: char): (parts: seq<string>)
    ensures |parts| == Count(s, sep) + 1
    ensures forall k :: 0 <= k < |parts| ==> sep !in parts[k]
  {
    if s == [] then [""]
    else
      var rest := Split(s[1..], sep);
      if s[0] == sep then [""] + rest
      else [[s[0]] + rest[0]] + rest[1..]
  }

  /** `strings.Join(parts, string(sep))`. */
  function Join(parts: seq<string>, sep: char): string {
    if parts == [] then ""
    else if |parts| == 1 then parts[0]
    else parts[0] + [sep] + Join(parts[1..], sep)
  }

  lemma {:induction false} CountAppend(a: string, b: string, c: char)
    ensures Count(a + b, c) == Count(a, c) + Count(b, c)
  {
    if a == [] {
      assert a + b == b;
    } else {
      assert (a + b)[1..] == a[1..] + b;
      CountAppend(a[1..], b, c);
    }
  }

  /** A prefix holds no more occurrences than the whole string. */
  lemma CountPrefix(s: string, n: nat, c: char)
    requires n <= |s|
    ensures Count(s[..n], c) <= Count(s, c)
  {
    assert s == s[..n] + s[n..];
    CountAppend(s[..n], s[n..], c);
  }

  /** Joining the first k pieces gives a prefix of joining them all. */
  lemma {:induction false} JoinPrefix(parts: seq<string>, k: nat, sep: char)
    requires 1 <= k <= |parts|
    ensures HasPrefix(Join(parts, sep), Join(parts[..k], sep))
  {
    if k == |parts| {
      assert parts[..k] == parts;
    } else if k == 1 {
      assert parts[..1] == [parts[0]];
    } else {
      JoinPrefix(parts[1..], k - 1, sep);
      assert parts[..k][1..] == parts[1..][..k - 1];
      var tail := Join(parts[1..], sep);
      var sub := Join(parts[1..][..k - 1], sep);
      assert tail[..|sub|] == sub;
      assert (parts[0] + [sep] + tail)[..|parts[0]| + 1 + |sub|] == parts[0] + [sep] + sub;
    }
  }

  /** Joining pieces that hold no separator adds exactly one separator
      between neighbours. */
  lemma JoinCount(parts: seq<string>, sep: char)
    requires |parts| >= 1
    requires forall k :: 0 <= k < |parts| ==> sep !in parts[k]
    ensures Count(Join(parts, sep), sep) == |parts| - 1
  {
    JoinSplitRoundTrip(parts, sep);
  }

  /** Joining the pieces of a split gives back the original string. */
  lemma {:induction false} SplitJoinRoundTrip(s: string, sep: char)
    ensures Join(Split(s, sep), sep) == s
  {
    if s != [] {
      SplitJoinRoundTrip(s[1..], sep);
      var rest := Split(s[1..], sep);
      if s[0] != sep {
        if |rest| == 1 {
          assert Split(s, sep) == [[s[0]] + rest[0]];
        } else {
          assert Split(s, sep)[1..] == rest[1..];
          assert Join(rest, sep) == rest[0] + [sep] + Join(rest[1..], sep);
        }
      }
    }
  }

  /** Joining pieces that hold no separator and splitting again gives the
      pieces back. */
  lemma {:induction false} JoinSplitRoundTrip(parts: seq<string>, sep: char)
    requires |parts| >= 1
    requires forall k :: 0 <= k < |parts| ==> sep !in parts[k]
    ensures Split(Join(parts, sep), sep) == parts
  {
    if |parts| == 1 {
      SplitNoSep(parts[0], sep);
    } else {
      JoinSplitRoundTrip(parts[1..], sep);
      SplitAfterPiece(parts[0], Join(parts[1..], sep), sep);
      assert parts == [parts[0]] + parts[1..];
    }
  }

  lemma {:induction false} SplitNoSep(s: string, sep: char)
    requires sep !in s
    ensures Split(s, sep) == [s]
  {
    if s != [] {
      assert sep !in s[1..];
      SplitNoSep(s[1..], sep);
      assert [s[0]] + s[1..] == s;
    }
  }

  lemma {:induction false} SplitAfterPiece(p: string, t: string, sep: char)
    requires sep !in p
    ensures Split(p + [sep] + t, sep) == [p] + Split(t, sep)
  {
    if p == [] {
      assert p + [sep] + t == [sep] + t;
      assert ([sep] + t)[1..] == t;
    } else {
      assert (p + [sep] + t)[1..] == p[1..] + [sep] + t;
      assert sep !in p[1..];
      SplitAfterPiece(p[1..], t, sep);
      assert [p[0]] + p[1..] == p;
    }
  }

  // ---------------------------------------------------------------------
  // Trimming

  /** `strings.TrimLeft(s, string(c))`. */
  function TrimLeftChar(s: string, c: char): (r: string)
    ensures |r| <= |s|
    ensures forall i :: 0 <= i < |r| ==> r[i] == s[|s| - |r| + i]
    ensures r == [] || r[0] != c
    ensures forall i :: 0 <= i < |s| - |r| ==> s[i] == c
  {
    if s != [] && s[0] == c then TrimLeftChar(s[1..], c) else s
  }

  /** `strings.TrimRight(s, string(c))`. */
  function TrimRightChar(s: string, c: char): (r: string)
    ensures |r| <= |s|
    ensures forall i :: 0 <= i < |r| ==> r[i] == s[i]
    ensures r == [] || r[|r| - 1] != c
    ensures forall i :: |r| <= i < |s| ==> s[i] == c
  {
    if s != [] && s[|s| - 1] == c then TrimRightChar(s[..|s| - 1], c) else s
  }

  /** What `TrimLeftChar` keeps is a suffix of s. */
  lemma TrimLeftCharSuffix(s: string, c: char)
    ensures TrimLeftChar(s, c) == s[|s| - |TrimLeftChar(s, c)|..]
  {
  }

  /** A leading c is trimmed along with the rest of the run. */
  lemma TrimLeftCharCons(s: string, c: char)
    ensures TrimLeftChar([c] + s, c) == TrimLeftChar(s, c)
  {
    assert ([c] + s)[1..] == s;
  }

  /** What `TrimRightChar` keeps is a prefix of s. */
  lemma TrimRightCharPrefix(s: string, c: char)
    ensures TrimRightChar(s, c) == s[..|TrimRightChar(s, c)|]
  {
  }

  /** `strings.TrimSpace`: drops leading and trailing Unicode white space. */
  function TrimSpace(s: string): (r: string)
    ensures r == [] || (!IsSpace(r[0]) && !IsSpace(r[|r| - 1]))
    ensures exists a, b :: 0 <= a <= b <= |s| && r == s[a..b]
  {
    var l := TrimLeftSpace(s);
    var r := TrimRightSpace(l.1);
    assert r.1 == s[l.0..l.0 + |r.1|];
    r.1
  }

  /** Leading-space removal; also returns how many characters went. */
  function TrimLeftSpace(s: string): (r: (nat, string))
    ensures r.0 <= |s| && r.1 == s[r.0..]
    ensures r.1 == [] || !IsSpace(r.1[0])
  {
    if s != [] && IsSpace(s[0]) then
      var t := TrimLeftSpace(s[1..]);
      (t.0 + 1, t.1)
    else (0, s)
  }

  /** Trailing-space removal; also returns how many characters stay. */
  function TrimRightSpace(s: string): (r: (nat, string))
    ensures r.0 <= |s| && r.1 == s[..r.0]
    ensures r.1 == [] || !IsSpace(r.1[|r.1| - 1])
  {
    if s != [] && IsSpace(s[|s| - 1]) then TrimRightSpace(s[..|s| - 1]) else (|s|, s)
  }
}

=== FILE: uploads.dfy ===
/** The image upload handler (`uploads/handler.go`): the extension
    allow-list, the file-name sanitiser, the stored name and public URL of a
    saved image, the order of the checks in `saveImage` and the
    all-or-nothing reply of `handleImageUpload`. File system calls and the
    content sniffer are described by a per-file outcome the caller
    supplies; the clock is a parameter. Strings are sequences of runes. */
module Uploads {
  import opened Wrappers
  import opened Text
  import opened Http

  // ---------------------------------------------------------------------
  // Extension

  /** `filepath.Ext` with `/` as the separator: the suffix from the last
      `.` of the final path element, or "" when that element has none. */
  function Ext(path: string): (r: string)
    ensures r == [] || (r[0] == '.' && '.' !in r[1..] && '/' !in r)
    ensures |r| <= |path| && path[|path| - |r|..] == r
    ensures r == [] ==> forall i :: 0 <= i < |path| && path[i] == '.' ==> exists j :: i < j < |path| && path[j] == '/'
    ensures '.' !in path ==> r == []
  {
    if path == [] then ""
    else
      var last := path[|path| - 1];
      var init := path[..|path| - 1];
      if last == '/' then
        assert path[|path| - 1] == '/';
        ""
      else if last == '.' then "."
      else
        var e := Ext(init);
        if e == [] then
          assert forall j :: 0 <= j < |init| ==> init[j] == path[j];
          ""
        else
          assert path[|path| - |e| - 1..] == init[|init| - |e|..] + [last];
          e + [last]
  }

  /** A file name ending in an extension has that extension, whatever comes
      before it. */
  lemma {:induction false} ExtOfSuffix(stem: string, e: string)
    requires |e| >= 1 && e[0] == '.' && '.' !in e[1..] && '/' !in e
    ensures Ext(stem + e) == e
    decreases |e|
  {
    if |e| == 1 {
      assert (stem + e)[|stem + e| - 1] == '.';
    } else {
      var init := e[..|e| - 1];
      var last := e[|e| - 1];
      assert last != '/' && last != '.';
      assert (stem + e)[|stem + e| - 1] == last;
      assert (stem + e)[..|stem + e| - 1] == stem + init;
      assert '.' !in init[1..] by {
        assert forall i :: 1 <= i < |init| ==> init[i] == e[i];
      }
      ExtOfSuffix(stem, init);
      assert init + [e[|e| - 1]] == e;
    }
  }

  /** The extensions `isValidImageType` accepts, lower-cased. */
  const ImageExtensions: set<string> := {".jpg", ".jpeg", ".png", ".gif"}

  /** The extension check with ASCII lower-casing: the check the stored
      name can keep, since the sanitiser keeps ASCII letters only. The
      handler uses this one. */
  predicate IsValidImageType(filename: string) {
    Lower(Ext(filename)) in ImageExtensions
  }

  /** Go's `unicode.ToLower` as far as a comparison with ASCII text can
      tell: ASCII capitals map to their small letters, and the only other
      runes with an ASCII lower case are U+0130 (capital I with dot above,
      to `i`) and U+212A (Kelvin sign, to `k`). Every other rune is left
      as it is; its Go lower case is not ASCII either. */
  function GoLowerChar(c: char): (r: char)
    ensures IsUpperAlpha(c) ==> IsLowerAlpha(r) && r as int == c as int + 32
    ensures !IsUpperAlpha(c) && c != '\U{0130}' && c != '\U{212A}' ==> r == c
    ensures c == '\U{0130}' ==> r == 'i'
    ensures c == '\U{212A}' ==> r == 'k'
  {
    if IsUpperAlpha(c) then LowerChar(c)
    else if c == '\U{0130}' then 'i'
    else if c == '\U{212A}' then 'k'
    else c
  }

  /** `strings.ToLower`, rune by rune. */
  function GoLower(s: string): (r: string)
    ensures |r| == |s|
    ensures forall i :: 0 <= i < |s| ==> r[i] == GoLowerChar(s[i])
  {
    seq(|s|, i requires 0 <= i < |s| => GoLowerChar(s[i]))
  }

  /** `isValidImageType` as written: `strings.ToLower` of the extension,
      which also folds U+0130 and U+212A. */
  predicate IsValidImageTypeAsWritten(filename: string) {
    GoLower(Ext(filename)) in ImageExtensions
  }

  /** Without U+0130 and U+212A, Go's lower-casing is the ASCII one. */
  lemma GoLowerIsLower(s: string)
    requires '\U{0130}' !in s && '\U{212A}' !in s
    ensures GoLower(s) == Lower(s)
  {
    forall i | 0 <= i < |s|
      ensures GoLower(s)[i] == Lower(s)[i]
    {
      assert s[i] != '\U{0130}' && s[i] != '\U{212A}';
    }
  }

  /** The two checks differ only on extensions holding U+0130 or U+212A,
      and there only the written one can pass: a name the ASCII check
      accepts, the written check accepts too. */
  lemma ValidityAgrees(filename: string)
    ensures IsValidImageType(filename) ==> IsValidImageTypeAsWritten(filename)
    ensures '\U{0130}' !in Ext(filename) && '\U{212A}' !in Ext(filename) ==>
      (IsValidImageTypeAsWritten(filename) <==> IsValidImageType(filename))
  {
    var e := Ext(filename);
    if IsValidImageType(filename) {
      ExtensionKept(e);
      assert '\U{0130}' !in e && '\U{212A}' !in e by {
        assert forall i :: 0 <= i < |e| ==> Kept(e[i]);
      }
      GoLowerIsLower(e);
    }
    if '\U{0130}' !in e && '\U{212A}' !in e {
      GoLowerIsLower(e);
    }
  }

  /** An allowed extension in any letter case validates the name. */
  lemma ValidWithAnyStem(stem: string, e: string)
    requires Lower(e) in ImageExtensions
    ensures IsValidImageType(stem + e)
  {
    assert e[0] == '.' && '.' !in e[1..] && '/' !in e by {
      var l := Lower(e);
      assert l[0] == '.';
      assert forall i :: 1 <= i < |e| ==> l[i] != '.' && l[i] != '/';
    }
    ExtOfSuffix(stem, e);
  }

  /** A name without a dot is never valid. */
  lemma NoDotInvalid(filename: string)
    requires '.' !in filename
    ensures !IsValidImageType(filename)
  {
    assert Lower(Ext(filename)) == [];
  }

  /** `X.PNG` passes. */
  lemma UpperCasePngValid(stem: string)
    ensures IsValidImageType(stem + ".PNG")
  {
    assert Lower(".PNG") == ".png";
    ValidWithAnyStem(stem, ".PNG");
  }

  // ---------------------------------------------------------------------
  // Sanitiser

  /** The runes `sanitizeFilename` keeps: `[A-Za-z0-9._-]`. */
  predicate Kept(c: char) {
    IsAsciiAlnum(c) || c == '.' || c == '-' || c == '_'
  }

  /** `sanitizeFilename`: each rune stays if it is kept and becomes `_`
      otherwise. */
  function Sanitize(filename: string): (r: string)
    ensures |r| == |filename|
    ensures forall i :: 0 <= i < |r| ==> r[i] == (if Kept(filename[i]) then filename[i] else '_')
    ensures forall i :: 0 <= i < |r| ==> Kept(r[i])
  {
    if filename == [] then []
    else [if Kept(filename[0]) then filename[0] else '_'] + Sanitize(filename[1..])
  }

  /** No separator survives, so the name cannot leave the upload directory. */
  lemma SanitizedHasNoSeparator(filename: string)
    ensures '/' !in Sanitize(filename) && '\\' !in Sanitize(filename)
  {
    var r := Sanitize(filename);
    assert forall i :: 0 <= i < |r| ==> r[i] != '/' && r[i] != '\\';
  }

  /** A name of kept runes only is its own sanitised form. */
  lemma {:induction false} SanitizeKeeps(filename: string)
    requires forall i :: 0 <= i < |filename| ==> Kept(filename[i])
    ensures Sanitize(filename) == filename
  {
    if filename != [] {
      SanitizeKeeps(filename[1..]);
      assert [filename[0]] + filename[1..] == filename;
    }
  }

  /** Sanitising twice is sanitising once. */
  lemma SanitizeIdempotent(filename: string)
    ensures Sanitize(Sanitize(filename)) == Sanitize(filename)
  {
    SanitizeKeeps(Sanitize(filename));
  }

  // ---------------------------------------------------------------------
  // Stored name and URL

  /** `fmt.Sprintf("%d_%s", timestamp, sanitizedName)`. */
  function StoredName(unix: int, filename: string): (name: string)
    ensures '/' !in name
  {
    SanitizedHasNoSeparator(filename);
    assert forall i :: 0 <= i < |IntToString(unix)| ==> IntToString(unix)[i] != '/' by {
      DigitsHaveNoSeparator(unix);
    }
    IntToString(unix) + "_" + Sanitize(filename)
  }

  lemma DigitsHaveNoSeparator(n: int)
    ensures '/' !in IntToString(n)
  {
    var m := if n < 0 then -n else n;
    assert forall i :: 0 <= i < |NatToString(m)| ==> IsDigit(NatToString(m)[i]);
  }

  /** The allowed extensions are made of kept runes. */
  lemma ExtensionKept(e: string)
    requires Lower(e) in ImageExtensions
    ensures forall i :: 0 <= i < |e| ==> Kept(e[i])
  {
    var l := Lower(e);
    forall i | 0 <= i < |e|
      ensures Kept(e[i])
    {
      assert l[i] == LowerChar(e[i]);
      assert IsLowerAlnum(l[i]) || l[i] == '.';
    }
  }

  lemma {:induction false} SanitizeAppend(a: string, b: string)
    ensures Sanitize(a + b) == Sanitize(a) + Sanitize(b)
  {
    if a != [] {
      assert (a + b)[1..] == a[1..] + b;
      SanitizeAppend(a[1..], b);
    } else {
      assert a + b == b;
    }
  }

  /** A name ending in an extension of kept runes keeps that extension
      when stored. */
  lemma StoredNameOfSuffix(unix: int, stem: string, e: string)
    requires |e| >= 1 && e[0] == '.' && '.' !in e[1..] && '/' !in e
    requires forall i :: 0 <= i < |e| ==> Kept(e[i])
    ensures Ext(StoredName(unix, stem + e)) == e
  {
    SanitizeKeeps(e);
    SanitizeAppend(stem, e);
    var prefix := IntToString(unix) + "_" + Sanitize(stem);
    assert StoredName(unix, stem + e) == prefix + e;
    ExtOfSuffix(prefix, e);
  }

  /** A valid image keeps its extension, so its stored copy is valid too. */
  lemma StoredNameKeepsExt(unix: int, filename: string)
    requires IsValidImageType(filename)
    ensures Ext(StoredName(unix, filename)) == Ext(filename)
    ensures IsValidImageType(StoredName(unix, filename))
  {
    var e := Ext(filename);
    ValidHasExt(filename);
    ExtSplits(filename);
    ExtensionKept(e);
    StoredNameOfSuffix(unix, filename[..|filename| - |e|], e);
  }

  lemma ValidHasExt(filename: string)
    requires IsValidImageType(filename)
    ensures Ext(filename) != []
  {
    assert Lower(Ext(filename)) != [];
  }

  lemma ExtSplits(filename: string)
    ensures filename == filename[..|filename| - |Ext(filename)|] + Ext(filename)
  {
  }

  /** `a.gİf` (with U+0130) passes the written check, since Go lower-cases
      its extension to `.gif`, but the sanitiser turns the U+0130 into `_`:
      the file is stored as `<unix>_a.g_f`, whose extension no check
      accepts. */
  lemma DottedCapitalILosesExt(unix: int)
    ensures IsValidImageTypeAsWritten("a.g\U{0130}f")
    ensures !IsValidImageType("a.g\U{0130}f")
    ensures Ext(StoredName(unix, "a.g\U{0130}f")) == ".g_f"
    ensures !IsValidImageTypeAsWritten(StoredName(unix, "a.g\U{0130}f"))
  {
    DottedCapitalIPasses();
    DottedCapitalIStored(unix);
    NoLetterAtTwo(Lower(".g\U{0130}f"));
    assert GoLower(".g_f")[2] == '_';
    NoLetterAtTwo(GoLower(".g_f"));
  }

  /** Every allowed extension has a small ASCII letter after its first
      letter, so a text with anything else there is none of them. */
  lemma NoLetterAtTwo(x: string)
    requires |x| > 2 && !IsLowerAlpha(x[2])
    ensures x !in ImageExtensions
  {
  }

  lemma DottedCapitalIPasses()
    ensures Ext("a.g\U{0130}f") == ".g\U{0130}f"
    ensures GoLower(".g\U{0130}f") == ".gif"
    ensures Lower(".g\U{0130}f")[2] == '\U{0130}'
  {
    DottedExt();
    DottedFolds();
  }

  lemma DottedExt()
    ensures Ext("a.g\U{0130}f") == ".g\U{0130}f"
  {
    assert "a.g\U{0130}f" == "a" + ".g\U{0130}f";
    ExtOfSuffix("a", ".g\U{0130}f");
  }

  lemma DottedFolds()
    ensures GoLower(".g\U{0130}f") == ".gif"
    ensures Lower(".g\U{0130}f")[2] == '\U{0130}'
  {
  }

  lemma DottedSanitized()
    ensures Sanitize("a.g\U{0130}f") == "a.g_f"
  {
    var e := ".g\U{0130}f";
    assert "a.g\U{0130}f" == "a" + e;
    SanitizeAppend("a", e);
    assert Sanitize("a") == "a";
    assert Sanitize(e) == ".g_f";
  }

  lemma DottedCapitalIStored(unix: int)
    ensures Ext(StoredName(unix, "a.g\U{0130}f")) == ".g_f"
  {
    DottedSanitized();
    var prefix := IntToString(unix) + "_" + "a";
    assert StoredName(unix, "a.g\U{0130}f") == prefix + ".g_f";
    ExtOfSuffix(prefix, ".g_f");
  }

  /** Whether the request came over TLS, and its `Host`. */
  datatype Request = Request(tls: bool, host: string)

  /** The public URL of a stored image. */
  function ImageUrl(req: Request, name: string): (url: string)
    ensures HasPrefix(url, "https://") <==> req.tls
  {
    var scheme := if req.tls then "https" else "http";
    var url := scheme + "://" + req.host + "/uploads/images/" + name;
    assert req.tls ==> url[..8] == "https://";
    assert !req.tls ==> url[4] == ':';
    url
  }

  /** The stored name is the last segment of the URL. */
  lemma UrlEndsWithName(req: Request, unix: int, filename: string)
    ensures var url := ImageUrl(req, StoredName(unix, filename));
      var name := StoredName(unix, filename);
      |name| < |url| && url[|url| - |name|..] == name && url[|url| - |name| - 1] == '/'
  {
  }

  // ---------------------------------------------------------------------
  // Saving one file

  /** The file system steps `saveImage` performs. */
  datatype Step = Open | Read | Seek | Create | Copy

  /** How the file system and `http.DetectContentType` behave for one
      uploaded file: which steps succeed, and the sniffed content type. */
  datatype FileOutcome = FileOutcome(openOk: bool, readOk: bool, seekOk: bool,
                                     contentType: string, createOk: bool, copyOk: bool)

  datatype SaveError = InvalidType | OpenFailed | ReadFailed | SeekFailed
                     | NotAnImage | CreateFailed | CopyFailed

  /** The outcome of `saveImage` and the steps it took to get there. */
  datatype Saved = Saved(result: Result<string, SaveError>, steps: seq<Step>)

  /** `saveImage` for a file uploaded at Unix second `unix`. */
  function SaveImage(filename: string, io: FileOutcome, req: Request, unix: int): (r: Saved)
    ensures !IsValidImageType(filename) ==> r == Saved(Err(InvalidType), [])
    ensures Create in r.steps ==> IsValidImageType(filename) && HasPrefix(io.contentType, "image/")
    ensures r.result.Ok? <==>
      IsValidImageType(filename) && io.openOk && io.readOk && io.seekOk &&
      HasPrefix(io.contentType, "image/") && io.createOk && io.copyOk
    ensures r.result.Ok? ==> r.result.value == ImageUrl(req, StoredName(unix, filename))
    ensures r.result.Ok? ==> r.steps == [Open, Read, Seek, Create, Copy]
  {
    if !IsValidImageType(filename) then Saved(Err(InvalidType), [])
    else if !io.openOk then Saved(Err(OpenFailed), [Open])
    else if !io.readOk then Saved(Err(ReadFailed), [Open, Read])
    else if !io.seekOk then Saved(Err(SeekFailed), [Open, Read, Seek])
    else if !HasPrefix(io.contentType, "image/") then Saved(Err(NotAnImage), [Open, Read, Seek])
    else if !io.createOk then Saved(Err(CreateFailed), [Open, Read, Seek, Create])
    else if !io.copyOk then Saved(Err(CopyFailed), [Open, Read, Seek, Create, Copy])
    else Saved(Ok(ImageUrl(req, StoredName(unix, filename))), [Open, Read, Seek, Create, Copy])
  }

  // ---------------------------------------------------------------------
  // The request

  /** One part of the `images` form field. */
  datatype Upload = Upload(filename: string, io: FileOutcome)

  /** What saving file j gives; `clock(j)` is the Unix second at which
      file j is saved. */
  function SaveOf(files: seq<Upload>, req: Request, clock: nat -> int, j: nat): Saved
    requires j < |files|
  {
    SaveImage(files[j].filename, files[j].io, req, clock(j))
  }

  /** The save loop from position i on: the values in order, or the error
      of the first failure, after which nothing further is tried. */
  function Collect<T, E>(rs: seq<Result<T, E>>, i: nat): (r: Result<seq<T>, E>)
    requires i <= |rs|
    ensures r.Ok? <==> forall j :: i <= j < |rs| ==> rs[j].Ok?
    ensures r.Ok? ==> |r.value| == |rs| - i && forall j :: i <= j < |rs| ==> r.value[j - i] == rs[j].value
    ensures r.Err? ==> exists k :: i <= k < |rs| && rs[k] == Err(r.error) && forall j :: i <= j < k ==> rs[j].Ok?
    decreases |rs| - i
  {
    if i == |rs| then Ok([])
    else if rs[i].Err? then Err(rs[i].error)
    else match Collect(rs, i + 1)
      case Ok(vs) =>
        var r := [rs[i].value] + vs;
        assert forall m :: 1 <= m < |r| ==> r[m] == vs[m - 1];
        Ok(r)
      case Err(e) =>
        OkRunExtends(rs, i, e);
        Err(e)
  }

  /** An error preceded only by values stays so when one more value is put
      in front. */
  lemma OkRunExtends<T, E>(rs: seq<Result<T, E>>, i: nat, e: E)
    requires i < |rs| && rs[i].Ok?
    requires exists k :: i + 1 <= k < |rs| && rs[k] == Err(e) && forall j :: i + 1 <= j < k ==> rs[j].Ok?
    ensures exists k :: i <= k < |rs| && rs[k] == Err(e) && forall j :: i <= j < k ==> rs[j].Ok?
  {
    var k :| i + 1 <= k < |rs| && rs[k] == Err(e) && forall j :: i + 1 <= j < k ==> rs[j].Ok?;
    assert forall j :: i <= j < k ==> rs[j].Ok?;
  }

  function Outcomes(files: seq<Upload>, req: Request, clock: nat -> int): (rs: seq<Result<string, SaveError>>)
    ensures |rs| == |files|
    ensures forall j :: 0 <= j < |files| ==> rs[j] == SaveOf(files, req, clock, j).result
  {
    seq(|files|, j requires 0 <= j < |files| => SaveOf(files, req, clock, j).result)
  }

  /** When every save succeeds, the collected values are the files' URLs,
      in order. */
  lemma UrlsOfSaves(files: seq<Upload>, req: Request, clock: nat -> int, urls: seq<string>)
    requires Collect(Outcomes(files, req, clock), 0) == Ok(urls)
    ensures |urls| == |files|
    ensures forall j :: 0 <= j < |files| ==> SaveOf(files, req, clock, j).result.Ok?
    ensures forall j :: 0 <= j < |files| ==> urls[j] == ImageUrl(req, StoredName(clock(j), files[j].filename))
  {
    var rs := Outcomes(files, req, clock);
    forall j | 0 <= j < |files|
      ensures SaveOf(files, req, clock, j).result.Ok?
      ensures urls[j] == ImageUrl(req, StoredName(clock(j), files[j].filename))
    {
      assert rs[j] == SaveOf(files, req, clock, j).result;
      assert urls[j] == rs[j].value;
    }
  }

  /** `handleImageUpload`: 400 when the form does not parse or holds no
      file, 400 on the first file that fails, otherwise 200 with one URL
      per file, in order. */
  function HandleUpload(formParses: bool, files: seq<Upload>, req: Request, clock: nat -> int)
    : (r: Response<seq<string>>)
    ensures r.Failure? ==> r.status == 400
    ensures !formParses || files == [] ==> r.Failure?
    ensures r.Success? <==>
      (formParses && files != [] && forall j :: 0 <= j < |files| ==> SaveOf(files, req, clock, j).result.Ok?)
    ensures r.Success? ==>
      (r.status == 200 && |r.body| == |files| &&
       forall j :: 0 <= j < |files| ==> r.body[j] == ImageUrl(req, StoredName(clock(j), files[j].filename)))
  {
    if !formParses || files == [] then Failure(400)
    else
      var rs := Outcomes(files, req, clock);
      match Collect(rs, 0)
      case Ok(urls) =>
        UrlsOfSaves(files, req, clock, urls);
        Success(200, urls)
      case Err(_) => Failure(400)
  }

  /** One failing file fails the whole request. */
  lemma FailingFileFails(formParses: bool, files: seq<Upload>, req: Request, clock: nat -> int, k: nat)
    requires k < |files| && SaveOf(files, req, clock, k).result.Err?
    ensures HandleUpload(formParses, files, req, clock).Failure?
  {
  }

  /** A file with a bad extension anywhere in the request fails the whole
      request. */
  lemma BadExtensionFails(formParses: bool, files: seq<Upload>, req: Request, clock: nat -> int, k: nat)
    requires k < |files| && !IsValidImageType(files[k].filename)
    ensures HandleUpload(formParses, files, req, clock).Failure?
  {
    FailingFileFails(formParses, files, req, clock, k);
  }
}

=== FILE: uuid.dfy ===
/** The text form of PostgreSQL's `uuid` type. Several columns of the
    schema are typed `uuid`, and a statement that binds text which does not
    read as a uuid to one of them fails before it touches a row. */
module Uuid {
  import opened Wrappers

  /** The nil UUID, all 128 bits zero; the category service binds it when
      it has no record to exclude. */
  const NilUuid := "00000000-0000-0000-0000-000000000000"

  predicate HexDigit(c: char) { '0' <= c <= '9' || 'a' <= c <= 'f' || 'A' <= c <= 'F' }

  /** From position `pos` up to `end`, bytes `i` to 15 of a uuid: each byte
      is two hex digits, and a hyphen may follow any odd byte but the last. */
  predicate UuidBytes(s: string, pos: nat, end: nat, i: nat)
    requires end <= |s|
    decreases 16 - i
  {
    if i >= 16 then pos == end
    else
      && pos + 2 <= end && HexDigit(s[pos]) && HexDigit(s[pos + 1])
      && if pos + 2 < end && s[pos + 2] == '-' && i % 2 == 1 && i < 15 then UuidBytes(s, pos + 3, end, i + 1)
         else UuidBytes(s, pos + 2, end, i + 1)
  }

  /** The texts PostgreSQL's `uuid` type reads: 32 hex digits in either
      case, optionally in braces, with a hyphen allowed after any group of
      four. Binding any other text to a `uuid` parameter fails the
      statement. */
  predicate IsUuid(s: string) {
    if |s| >= 2 && s[0] == '{' && s[|s| - 1] == '}' then UuidBytes(s, 1, |s| - 1, 0)
    else UuidBytes(s, 0, |s|, 0)
  }

  /** The nil UUID is a uuid, so the create-time uniqueness probe can bind it. */
  lemma NilIsUuid()
    ensures IsUuid(NilUuid)
  {
    NilBytes(NilUuid);
    assert NilUuid[0] == '0';
  }

  /** The nil UUID's sixteen bytes, one by one. */
  lemma NilBytes(s: string)
    requires s == NilUuid
    ensures UuidBytes(s, 0, 36, 0)
  {
    assert UuidBytes(s, 36, 36, 16);
    assert UuidBytes(s, 34, 36, 15);
    assert UuidBytes(s, 32, 36, 14);
    assert UuidBytes(s, 30, 36, 13);
    assert UuidBytes(s, 28, 36, 12);
    assert UuidBytes(s, 26, 36, 11);
    assert UuidBytes(s, 24, 36, 10);
    assert UuidBytes(s, 21, 36, 9);
    assert UuidBytes(s, 19, 36, 8);
    assert UuidBytes(s, 16, 36, 7);
    assert UuidBytes(s, 14, 36, 6);
    assert UuidBytes(s, 11, 36, 5);
    assert UuidBytes(s, 9, 36, 4);
    assert UuidBytes(s, 6, 36, 3);
    assert UuidBytes(s, 4, 36, 2);
    assert UuidBytes(s, 2, 36, 1);
    assert UuidBytes(s, 0, 36, 0);
  }

  /** A uuid-typed parameter that is absent (NULL) or a uuid. */
  predicate UuidOrNull(p: Option<string>) { p.None? || IsUuid(p.value) }
}

=== FILE: wrappers.dfy ===
/** Failure-carrying values shared by every module of the model. */
module Wrappers {

  /** A nullable value: the source's `*T` results and optional columns. */
  datatype Option<+T> = None | Some(value: T) {
    function GetOr(default: T): T {
      match this
      case Some(v) => v
      case None => default
    }
  }

  /** A Go `(value, error)` pair where exactly one side is meaningful. */
  datatype Result<+T, +E> = Ok(value: T) | Err(error: E)
}
